=== FILE: README.md ===
# Decision layer of a MetaTrader trading bot, in Dafny

This project models the decision layer of a Python bot that trades forex
symbols through the MetaTrader 5 terminal. It covers:

- the technical indicators (`indicators.py`);
- the "V4" confluence rule: ADX above 20, a sign flip of the MACD
  histogram, and RSI on the matching side of 50;
- the order-retry policy, risk-based lot sizing and trailing stops
  (`mt5_manager.py`);
- the JSON file holding the trailing stops (`state_manager.py`);
- the parsing of the language-model reply (`signal_generator.py`);
- one symbol's turn in each of the three live bots;
- the bar-by-bar simulation and report shared by the backtests, the
  optimizer and the training-data generator.

Everything is a pure function over immutable datatypes. The broker is a
total function from a global submission counter to a `TradeResult`. Each
submission consumes one value of the counter, so a retry sees the next
reply. pandas NaN and the infinities of a division by zero are modelled as
`None`.

The modules follow the program:

| module | models |
|---|---|
| `Wrappers`, `RealMath` | `Option`, sums, means, small real-arithmetic facts, Python's `round` |
| `Smoothing` | pandas `ewm` in its three uses: `adjust=False`, `adjust=False` with NaN gaps, and `adjust=True` |
| `Market` | bars, ticks, positions, symbol and account data; module `Config` holds the constants of `config.py` |
| `PyText` | the subset of Python's `str.strip`, `split` and `upper` used on the reply |
| `Indicators`, `Adx` | `indicators.py` |
| `V4Rules` | the column pipeline the V4 scripts share |
| `Orders`, `RiskSizing`, `TrailingStops` | `mt5_manager.py` |
| `StateStore` | `state_manager.py` and the part of `json` it relies on |
| `GptSignal` | `signal_generator.py` |
| `LiveBots` | `main_bot.py`, `main_bot_final.py` and `main_bot_with_ml_filter.py` |
| `Simulation`, `Report`, `Backtests` | the scripts under `test/` and `models/data_generator_for_ml.py` |

Where the code and its design description disagree, the model follows the
code:

- A non-positive loss per lot returns `volume_min`. It does not fail.
- The lot, once rounded to the volume step, can exceed `volume_max`.
- `manage_trailing_stops` drops every stored ticket that does not belong to
  the symbol being processed, not only tickets that are no longer open.
- The live ML bot accepts a confidence strictly above 0.60. The ML
  backtests accept 0.52 or more.
- `get_rsi` smooths with `adjust=True`, a weighted mean. The V4 scripts
  smooth RSI, MACD and ADX with `span` and `adjust=False`.
- `get_atr` is a rolling mean of the true range. The V4 scripts use an
  exponential mean.

## Model

| member | source | states |
|---|---|---|
| Smoothing.EwmRecurrence | indicators.py:44-46 | `adjust=False` smoothing starts at the first value and then moves each value toward the next input by the factor alpha |
| Smoothing.EwmPrefix | indicators.py:44-46 | the smoothed prefix of a series is the prefix of the smoothed series, so no value depends on later bars |
| Smoothing.EwmWithin | indicators.py:44-46 | inputs within [lo, hi] give smoothed values within [lo, hi] |
| Smoothing.EwmNonNegative | indicators.py:77 | non-negative inputs such as true ranges or directional moves give a non-negative smoothed series |
| Smoothing.EwmConstant | indicators.py:44-46 | a constant series smooths to itself |
| Smoothing.EwmShift | indicators.py:48-54 | adding a constant to every input adds it to every smoothed value |
| Smoothing.EwmMonotone | indicators.py:77-83 | smoothing keeps a pointwise order between two series |
| Smoothing.EwmNaWithin | main_bot_with_ml_filter.py:51-52 | pandas `ewm` over a series with NaN gaps gives defined values within the bounds of the defined inputs |
| Smoothing.EwmNaNonNegative | main_bot_with_ml_filter.py:51-52 | the same, for non-negative inputs |
| Smoothing.EwmNaNoGaps | indicators.py:88 | on a series without gaps, the NaN-aware smoothing equals the plain recurrence |
| Smoothing.AdjustedEwmWithin | indicators.py:12-13 | the `adjust=True` weighted mean of inputs within [lo, hi] lies within [lo, hi] |
| Smoothing.AdjustedNumeratorZeroIff | indicators.py:12-14 | the weighted sum of non-negative values is zero exactly when every value is zero |
| Indicators.RsiFromAverages | indicators.py:14-17 | RSI lies in [0, 100]. It is 100 exactly when the average loss is 0 and the average gain positive, and 50 when both are 0 |
| Indicators.Rsi | indicators.py:7-17 | undefined exactly when there are fewer than period + 1 bars, otherwise within [0, 100] |
| Indicators.Vrsi | indicators.py:19-29 | the same algorithm on tick volumes: the same undefined case and the same bounds |
| Indicators.WilderAverageZeroIff | indicators.py:12-14 | the smoothed average of gains or losses is zero exactly when every gain or loss in the window is zero |
| Indicators.RsiSaturation | indicators.py:7-17 | RSI is 100 exactly when closes never fall and rise at least once. A flat series gives 50 |
| Indicators.Cci | indicators.py:31-37 | undefined exactly when fewer than `period` bars are supplied |
| Indicators.CciBounded | indicators.py:31-37 | the absolute CCI never exceeds period / 0.015, because one deviation is at most the window's total |
| Indicators.CciFlatWindow | indicators.py:36 | a window of equal typical prices gives 0: the zero mean-deviation branch |
| Indicators.Vwap | indicators.py:39-42 | undefined exactly when the tick volumes sum to zero |
| Indicators.VwapWithin | indicators.py:39-42 | with non-negative volumes, VWAP lies between the lowest and highest close |
| Indicators.Ema | indicators.py:44-46 | undefined exactly when there are fewer than `period` bars |
| Indicators.EmaWithin | indicators.py:44-46 | the EMA lies between the lowest and highest close |
| Indicators.Macd | indicators.py:48-54 | undefined exactly when there are fewer bars than the largest of the three periods |
| Indicators.MacdFlat | indicators.py:48-54 | constant prices give a histogram of zeros |
| Indicators.MacdShiftInvariant | indicators.py:48-54 | adding a constant to every close leaves the histogram unchanged |
| Indicators.SampleVariance | indicators.py:59-60 | the pandas sample variance is undefined for one value, which the source turns into 0, and is never negative |
| Indicators.Bollinger | indicators.py:56-61 | both bands are undefined exactly when there are fewer than `period` bars |
| Indicators.BollingerSymmetric | indicators.py:56-61 | the bands lie at equal distances from the rolling mean |
| Indicators.BollingerOrdered | indicators.py:56-61 | a non-negative deviation puts the lower band at or below the upper band |
| Indicators.BollingerSingleBar | indicators.py:59-60 | with period 1, the NaN deviation counts as 0 and both bands equal the last close |
| Indicators.TrueRangeFacts | indicators.py:63-68 | a true range is non-negative. It is zero exactly when high and low both equal the previous close |
| Indicators.Atr | indicators.py:63-64 | undefined exactly when there are fewer than period + 1 bars |
| Indicators.AtrNonNegative | indicators.py:63-68 | the ATR is non-negative |
| Indicators.AtrZeroIff | indicators.py:63-68 | the ATR is zero exactly when every bar of the window stays at the previous close |
| Indicators.Ao | indicators.py:91-96 | undefined exactly when there are fewer than `AO_SLOW` bars |
| Indicators.AoBounded | indicators.py:91-96 | the absolute AO never exceeds the range of the median prices in the slow window |
| Indicators.Mfi | indicators.py:98-110 | undefined with fewer than period + 1 bars. When the window's negative flow sums to zero the MFI is 100 if the positive flow is positive and 50 otherwise. It is undefined in no other case than a positive flow that exactly cancels a non-zero negative one |
| Indicators.MfiWithin | indicators.py:98-110 | with non-negative prices and volumes the MFI is defined and lies in [0, 100] |
| Adx.DirectionalMove | indicators.py:78-81 | both moves are non-negative and at most one is non-zero, under either -DM rule |
| Adx.AdxDi | indicators.py:70-89 | `get_adx_di` as written: undefined exactly when there are fewer than 2 * period bars |
| Adx.AdxDiWellFormed | indicators.py:70-89 | on bars whose close lies within their range, all three values are defined, both DIs are non-negative and the ADX lies in [0, 100] |
| Adx.DxWithin | indicators.py:87 | DX with the 1e-9 guard lies in [0, 100] for non-negative DIs |
| Adx.WilderMovesWithinTrueRange | indicators.py:73-81 | under the falling-low rule each directional move is at most the bar's true range |
| Adx.WilderIndexesBelowHundred | indicators.py:82-86 | under the falling-low rule, +DI and -DI stay in [0, 100) |
| Adx.RisingLowCountsAsMinusDm | indicators.py:79-81 | as written, a low rising by 1 counts as a -DM of 1 on a bar whose true range is 0 |
| Adx.MinusDiExceedsHundred | indicators.py:70-89 | as written, two consistent bars with period 1 give a -DI of 1e11 |
| V4Rules.GainSeries | main_bot_final.py:42-44 | gains are the positive close differences, 0 elsewhere and 0 on the first bar |
| V4Rules.LossSeries | main_bot_final.py:42-44 | losses are the magnitudes of the negative close differences, 0 elsewhere and 0 on the first bar |
| V4Rules.RsiColumn | main_bot_with_ml_filter.py:37 | the column RSI is NaN exactly when both averages are 0. Otherwise it lies in [0, 100], and it is 100 exactly when the average loss is 0 |
| V4Rules.RsiLive | main_bot_final.py:47-48 | the scalar RSI of the final bot lies in [0, 100] and is 100 exactly when the average loss is 0, including when both are 0 |
| V4Rules.LiveAndColumnRsi | main_bot_final.py:47-48 | the two RSI forms agree wherever the column form is defined. They differ only when both averages are 0, where the column gives NaN and the scalar gives 100 |
| V4Rules.PlusDm | main_bot_with_ml_filter.py:43-45 | +DM is NaN on the first bar, otherwise the rise of the high clipped at 0 |
| V4Rules.MinusDm | main_bot_with_ml_filter.py:44-47 | -DM is NaN on the first bar, otherwise the fall of the low clipped at 0 |
| V4Rules.IndexColumn | main_bot_with_ml_filter.py:49-50 | each DI is 100 * smoothed DM / ATR. It is NaN where the smoothed DM is NaN or the ATR is 0 |
| V4Rules.DxColumn | main_bot_with_ml_filter.py:51 | DX is 100 * abs(+DI - -DI) / (+DI + -DI), and NaN where either DI is NaN or their sum is 0 |
| V4Rules.AdxColumnWithin | main_bot_with_ml_filter.py:43-52 | on well-formed bars every defined ADX value lies in [0, 100] |
| V4Rules.DxAtMostHundred | main_bot_with_ml_filter.py:51 | a DX over non-negative DIs with a non-zero sum lies in [0, 100] |
| V4Rules.Confluence | main_bot_final.py:67-75 | BUY exactly under the buy condition: ADX above the threshold, histogram positive after negative, RSI above 50. SELL exactly under the mirrored condition. A zero histogram on either bar gives HOLD |
| V4Rules.SignalV4 | main_bot_final.py:26-75 | HOLD with fewer than ADX_PERIOD + 10 bars. Otherwise BUY or SELL exactly when the confluence holds on the last bar's reading |
| V4Rules.LiveRsiSaturatesOnZeroLoss | main_bot_final.py:47-48 | a zero average loss gives an RSI of 100, which always passes the RSI > 50 buy test |
| V4Rules.RowAt | main_bot_with_ml_filter.py:30-55 | a row survives `dropna` exactly when it is not the first bar, its RSI and ADX are defined and, when normalizing, its close is non-zero. A zero close gives an infinite `atr/close`, which `dropna` keeps; here it is `None`, as the floating-point line under "## Left out" says. A surviving row carries that bar's columns and the previous histogram |
| V4Rules.Somes | main_bot_with_ml_filter.py:55 | `dropna` keeps only defined rows, and keeps none exactly when every row is undefined |
| V4Rules.SomesLast | main_bot_with_ml_filter.py:59 | the last surviving row comes from the last defined bar |
| V4Rules.Table | main_bot_with_ml_filter.py:55 | the table after `dropna` is shorter than the bars, since the first bar is always dropped |
| V4Rules.FirstBarDropped | main_bot_with_ml_filter.py:30 | the first bar has no previous histogram and never survives `dropna` |
| V4Rules.TableBounds | main_bot_with_ml_filter.py:30-55 | on well-formed bars every surviving row has its RSI and ADX in [0, 100] |
| V4Rules.NormalizedRow | main_bot_with_ml_filter.py:53 | a surviving row's normalized ATR times its close gives back an ATR from the ATR column |
| V4Rules.Decide | main_bot_with_ml_filter.py:56-72 | an empty table gives HOLD with no row. Otherwise the last row's confluence decides, and the row is returned exactly when the signal is not HOLD |
| V4Rules.Candidate | main_bot_with_ml_filter.py:24-72 | a returned row always carries the normalized ATR the classifier needs |
| V4Rules.CandidateReadsLastDefinedBar | main_bot_with_ml_filter.py:55-72 | the candidate signal is the confluence of the last bar whose indicators are all defined, read from the unfiltered columns |
| Orders.Send | mt5_manager.py:25-46 | at most `MAX_RETRIES` submissions. Success exactly when a reply was returned, and that reply is DONE or NO_CHANGES from the last submission. A DONE reply to a request without a volume raises instead, while the success message is formatted, so such a request succeeds only on NO_CHANGES. Failure without a raise only after every attempt was used |
| Orders.SendRejectsBefore | mt5_manager.py:26-43 | every submission before the accepted one was rejected, and so was every submission of a failed send |
| Orders.SendStep | mt5_manager.py:26-43 | an accepted first reply ends the loop after one submission. A rejected one costs one submission and the rest of the loop continues |
| Orders.SendIgnoresLaterReplies | mt5_manager.py:26-46 | the outcome depends only on the replies to its own `MAX_RETRIES` submissions |
| Orders.ReportsAgreeWithVolume | mt5_manager.py:28-32 | for a request that carries a volume, the message as written and one that omits the volume give the same outcome, and neither raises |
| Orders.ClosePosition | mt5_manager.py:102-117 | without a tick nothing is submitted and the close fails, using no submission. Otherwise it submits an opposite deal against the position's ticket for its whole volume, at the ask when buying back and at the bid when selling. It never raises, because the request carries the volume |
| LiveBots.EntryOrder | mt5_manager.py:92-100 | an entry is a deal at the ask for a buy or the bid for a sell, with the bot's magic number. SL and TP lie SL_ATR_MULT and TP_ATR_MULT ATRs from the price, and a positive ATR orients them around it. Its outcome is the retry loop's on that request, which can raise only when there is no lot |
| RiskSizing.LossInAccountCurrency | mt5_manager.py:55-74 | the same currency keeps the loss. Otherwise the conversion fails exactly when neither a forward ask nor a backward bid is positive |
| RiskSizing.LotSize | mt5_manager.py:48-90 | a lot is only returned for a known symbol and ATR, and is never below `volume_min`. Its value is pinned by LotSizeNearClampedLot and LotSizeOnStepGrid |
| RiskSizing.LotSizeNoneIff | mt5_manager.py:48-90 | no lot exactly when the symbol is unknown, the ATR is missing or no conversion pair is quoted |
| RiskSizing.NonPositiveLossGivesMinimum | mt5_manager.py:76-78 | a non-positive loss per lot gives exactly `volume_min` |
| RiskSizing.QuantiseWithinHalfStep | mt5_manager.py:83-85 | rounding to the volume step moves the lot by at most half a step |
| RiskSizing.LotSizeNearClampedLot | mt5_manager.py:76-87 | the lot lies between `volume_min` and `volume_max` plus half a step. With a positive loss per lot it is within half a step of max(`volume_min`, min(balance * RISK_PERCENT / loss, `volume_max`)). With a loss of zero or less it is `volume_min` |
| RiskSizing.LotSizeOnStepGrid | mt5_manager.py:83-86 | with a positive step, the lot is `volume_min` or a whole number of steps |
| RiskSizing.LotSizeCanExceedVolumeMax | mt5_manager.py:82-86 | with a maximum of 1.0 and a step of 0.6, the clamped 1.0 rounds to a lot of 1.2 |
| TrailingStops.Candidate | mt5_manager.py:139-153 | a proposed stop improves on the last one, lies beyond the current quote on the protective side, and is only proposed once the profit reaches MIN_PROFIT_TO_TRAIL_ATR ATRs |
| TrailingStops.Step | mt5_manager.py:129-162 | a position of another symbol or magic number changes nothing, and neither does any position once a send has raised. Otherwise a managed position adds its ticket and leaves every other ticket's stop alone. At most one request is logged, and the pass raises exactly when that request's send raised |
| TrailingStops.Prune | mt5_manager.py:166-171 | the kept tickets are those stored that are in the active set, with their stops unchanged |
| TrailingStops.Manage | mt5_manager.py:120-174 | when inactive, or without a positive ATR, nothing changes and nothing is saved. A call that raised saves nothing. Otherwise every remaining ticket belongs to an open position of the symbol |
| TrailingStops.PassesKeys | mt5_manager.py:129-135 | the pass keeps every old ticket and adds only managed positions' tickets. When no send raised, it adds every one of them |
| TrailingStops.RaiseEndsPass | mt5_manager.py:129-159 | once a send has raised, the positions after it are never looked at: the pass over the longer list equals the pass up to the raise |
| TrailingStops.PassesFrame | mt5_manager.py:129-162 | tickets of positions the pass skips keep their stops |
| TrailingStops.PassesLog | mt5_manager.py:153-159 | every request logged is a stop modification that the rule allows for that position. It raised only if the DONE message needs a volume, and then it succeeded only on NO_CHANGES |
| TrailingStops.PassesRaised | mt5_manager.py:129-162 | the pass raised exactly when its last logged send raised, and no earlier send did |
| TrailingStops.PassesEvolution | mt5_manager.py:133-162 | a managed ticket is missing only after a raise. Each managed ticket's stop only moves in the position's favour from where it started. A changed stop comes with a successful modification to that value. The pass reports a change exactly when a stop was added or moved |
| TrailingStops.ManageKeys | mt5_manager.py:126-171 | without a raise, the table afterwards holds the old tickets still open for the symbol plus every managed position. After a raise no ticket has been dropped, and only managed ones were added |
| TrailingStops.ManageMonotone | mt5_manager.py:139-162 | a stop never moves against the position, and every moved stop was confirmed by the broker |
| TrailingStops.ManageRequestsValid | mt5_manager.py:142-159 | every modification sent satisfies the profit, improvement and side-of-price conditions. The call raised exactly when its last send raised |
| TrailingStops.ManageSavedIffChanged | mt5_manager.py:127-174 | without a raise, the table is written exactly when it differs from the table read. After a raise nothing is written |
| TrailingStops.ManageNeverRaisesWithoutVolume | mt5_manager.py:28-32 | with a success message that does not name the volume, no pass raises, so the pruning and the saving always take place |
| TrailingStops.DoneReplyLosesUpdate | mt5_manager.py:28-32 | as written, a DONE reply to a due modification raises. The stop stays where it was although the broker moved it, the next position is not adopted, and nothing is pruned or saved |
| TrailingStops.DoneReplyStoresStop | mt5_manager.py:153-174 | with the message that omits the volume, the same reply records the new stop, the next position is adopted, and the table is saved |
| StateStore.ParseIntToString | state_manager.py:10-21 | a ticket written by `json.dump` reads back through `int(k)` |
| StateStore.IntSpaceIsSpace | state_manager.py:21 | `int` strips the characters `str.isspace` accepts, except the four separators U+001C to U+001F |
| StateStore.DecimalValue | state_manager.py:21 | an ASCII character is a digit exactly when it is `0` to `9`, with its usual value. Every digit's value is below ten |
| StateStore.NoBreakSpaceKeyParses | state_manager.py:21 | a no-break space before the digits is stripped |
| StateStore.ArabicIndicKeyParses | state_manager.py:21 | `int` reads decimal digits of other scripts, such as Arabic-Indic |
| StateStore.SeparatorKeyRejected | state_manager.py:21 | a file separator before the digits is rejected, although `str.isspace` accepts it |
| StateStore.Collect | state_manager.py:21 | the dict built has exactly the parsed keys, and a repeated key keeps its last value |
| StateStore.Load | state_manager.py:15-27 | a readable object whose keys all parse yields exactly those tickets. An unreadable file or a bad key yields an empty table |
| StateStore.Save | state_manager.py:6-13 | one entry per ticket in insertion order, keyed by the ticket's decimal text |
| StateStore.LoadSave | state_manager.py:6-27 | loading what was saved gives back the same table |
| StateStore.UnparsableKeyDiscardsAll | state_manager.py:21-26 | one key `int` rejects empties the whole table |
| StateStore.PaddedKeyParses | state_manager.py:21 | `int` accepts surrounding whitespace |
| StateStore.GroupedKeyParses | state_manager.py:21 | `int` accepts single underscores between digits |
| StateStore.DoubleUnderscoreRejected | state_manager.py:21 | `int` rejects a doubled underscore |
| StateStore.LeadingUnderscoreRejected | state_manager.py:21 | `int` rejects a leading underscore |
| StateStore.BareSignRejected | state_manager.py:21 | `int` rejects a lone sign |
| GptSignal.ReplyDecidedByFirstWord | signal_generator.py:31-46 | the signal depends only on the upper-cased first word of the stripped reply. No word gives HOLD |
| GptSignal.ReplyClassification | signal_generator.py:31-38 | BUY exactly when the first word upper-cases to "BUY", SELL exactly for "SELL", and HOLD otherwise |
| GptSignal.BlankReplyHolds | signal_generator.py:31-46 | a blank reply gives HOLD, through the exception handler |
| GptSignal.BuyNowIsBuy | signal_generator.py:31-34 | "buy now" is read as BUY |
| GptSignal.PunctuatedBuyHolds | signal_generator.py:31-38 | "BUY." is not an accepted word and gives HOLD |
| GptSignal.PromptEntries | signal_generator.py:18 | the prompt shows exactly the defined indicator values, each with its name |
| GptSignal.PromptEntriesAppend | signal_generator.py:18 | the entries keep the data's order: a concatenation's entries are the first part's followed by the second's |
| GptSignal.PromptEntriesSingle | signal_generator.py:18 | a defined value gives one entry with its name, and a missing one gives none |
| PyText.StripFirstWord | signal_generator.py:31 | the first word of the stripped text is the first word of the text |
| PyText.UpperFirstWord | signal_generator.py:31 | upper-casing before splitting gives the upper-cased first word |
| Market.Mine | main_bot.py:117-118 | a position is the bot's exactly when it is open and carries the bot's magic number |
| LiveBots.FinalTurn | main_bot_final.py:109-151 | with fewer than 100 bars nothing happens. An entry is sent exactly when the bot has no position, the signal trades, a tick exists and the lot is positive, and it uses the exponential ATR. Trailing runs exactly when there is a tick and the turn did not stop early, either for lack of bars or on a signal without a quote. The turn raises exactly when its trailing pass did, and the shared table is left as that pass left it. Nothing is ever closed |
| LiveBots.FinalEntryAroundPrice | main_bot_final.py:136-146 | on well-formed bars an entry's SL and TP lie on opposite sides of its price |
| LiveBots.FinalHoldsWhileInPosition | main_bot_final.py:128-151 | while the bot holds a position it opens nothing and only trails |
| LiveBots.FinalTurnForgetsOtherSymbols | main_bot_final.py:148-151 | the trailing pass of one symbol drops the stored stop of a position held on another symbol, unless the pass raised, which leaves that stop as it was |
| LiveBots.LiveFilterStricterThanBacktest | main_bot_with_ml_filter.py:135 | every confidence the live bot accepts passes the backtests' 0.52 filter, and exactly 0.60 is refused |
| LiveBots.MlDecide | main_bot_with_ml_filter.py:107-150 | with a position the frame is kept and trailing proceeds. With fewer than 100 bars the symbol is skipped. Otherwise the classifier is asked only about a candidate. An order is sent exactly when the confidence exceeds 0.60 and a tick exists. It is the entry on the candidate's side at that tick, with the ATR `atr_normalized * ask` and the lot sized for that ATR. An order whose DONE report raised ends the turn |
| LiveBots.UnsizedMlOrderRaises | main_bot_with_ml_filter.py:140-150 | when the lot cannot be sized the order is still sent, without a volume, and a DONE reply raises and ends the turn before trailing |
| LiveBots.StaleTrailAtr | main_bot_with_ml_filter.py:160-173 | with no usable `df` the ATR comes from 20 fresh bars. Any other frame is used as it is: a raw frame has no `atr_normalized` column and raises |
| LiveBots.MlTrail | main_bot_with_ml_filter.py:156-173 | trailing runs exactly when a tick exists and an ATR could be read. The turn crashes exactly when the column is missing or the trailing pass raised |
| LiveBots.MlTurnFrom | main_bot_with_ml_filter.py:104-173 | the turn's signal and order are those of the decision, and trailing follows the frame left by the decision. A raise, by the order or by the trailing pass, crashes the turn |
| LiveBots.FlatTurnLeavesItsTable | main_bot_with_ml_filter.py:115-122 | after analysing a symbol, `df` is that symbol's table |
| LiveBots.StaleFrameTrailAtr | main_bot_with_ml_filter.py:171-173 | a symbol with a position trails with the ATR of whatever table `df` still holds |
| LiveBots.StaleFrameSetsNextSymbolsAtr | main_bot_with_ml_filter.py:115-173 | that ATR comes from the previous symbol's bars |
| LiveBots.HeldPositionRaisesOnSecondCycle | main_bot_with_ml_filter.py:160-173 | a position held on two cycles trails the first time with the ATR of the 20-bar fallback, which stays in `df`. The first turn crashes only if its trailing pass raised. The second turn raises on the missing column |
| LiveBots.MlTurnOwnData | main_bot_with_ml_filter.py:156-173 | with `df` reset for every symbol, the turn crashes only when a DONE report raised, never on a missing column. It trails with an ATR from its own bars |
| LiveBots.BarsNeeded | main_bot.py:87 | the bar count is five more than the longest lookback |
| LiveBots.TakeSnapshot | main_bot.py:94-115 | the snapshot carries the tick's quotes. RSI, VRSI, CCI, both EMAs, MACD, both bands, ATR and AO are each defined exactly when their window fits. The ADX and both DIs need at least 2 * period bars, and the MFI needs more than period bars. The VWAP is undefined exactly when the tick volumes sum to zero. RSI and VRSI lie in [0, 100] |
| LiveBots.PromptShowsQuotes | main_bot.py:104-121 | the ask and bid prices always reach the prompt |
| LiveBots.ExitSignal | main_bot.py:21-51 | an exit happens exactly when the bid is under EMA20 for a buy or the ask over it for a sell, with all three non-zero, or when the MACD has the opposite sign |
| LiveBots.NonZeroMacdClosesOneSide | main_bot.py:40-49 | a non-zero MACD closes one of the two sides |
| LiveBots.EmaInsideSpreadClosesBoth | main_bot.py:30-38 | an EMA20 strictly inside the spread closes both sides |
| LiveBots.ZeroIndicatorsCloseNothing | main_bot.py:30-49 | a zero EMA20 fails Python's truth test, and a zero MACD closes nothing |
| LiveBots.Exiting | main_bot.py:147-148 | the positions closed are exactly the bot's positions whose exit signal holds |
| LiveBots.Exits | main_bot.py:147-151 | each exiting position gets a close on the opposite side for its full volume and ticket when a tick exists, and no close raises |
| LiveBots.MainEntry | main_bot.py:120-144 | an entry is sent exactly when the signal trades, the lot is positive and the ATR positive. Its send never raises, since it carries the lot. A successful entry stores its SL under the new order's ticket, and anything else keeps the table |
| LiveBots.MainTurn | main_bot.py:84-154 | too few bars or no tick does nothing. Entries happen only without a position and follow the reply's signal. With a position nothing is opened. Trailing runs with `get_atr`, and the turn raises exactly when the trailing pass did |
| LiveBots.MainClosesExactlyTheExiting | main_bot.py:145-151 | the closes sent are, in order, those of the bot's positions whose exit signal holds |
| Simulation.Bracket | test/backtester_optimizado_v2.py:116-124 | SL and TP lie on the losing and winning sides of the price at SL and TP multiples of the ATR |
| Simulation.ExitOn | test/backtester_optimizado_v2.py:74-88 | the trade stays open exactly when neither level is touched. When both are touched on one bar, the rule picks which one wins |
| Simulation.BothLevelsOnOneBar | models/data_generator_for_ml.py:60-75 | the backtests take the stop, while the training data labels the trade a winner |
| Simulation.RunOrdered | test/backtester_optimizado_v2.py:71-126 | closed trades follow one another. A backtest never re-enters on the bar that closed a trade, while the training loop may |
| Simulation.RunFaithful | test/backtester_optimizado_v2.py:71-126 | every closed trade was opened by an offer and closed on the first later bar that touched a level |
| Simulation.RunCovers | test/backtester_optimizado_v2.py:90-126 | no offer is ignored while no trade is open |
| Simulation.TradesFaithful | test/backtester_optimizado_v2.py:71-126 | each trade in the list is faithful and starts after the previous one ends |
| Simulation.NoOffersNoTrades | test/backtester_optimizado_v2.py:90-126 | without offers there are no trades |
| Report.Profit | test/backtester_optimizado_v2.py:140 | profit is the price move times +1 for a buy and -1 for a sell |
| Report.GrossLoss | test/backtester_optimizado_v2.py:147 | the gross loss is non-negative and zero exactly when no trade lost anything |
| Report.Winners | test/backtester_optimizado_v2.py:144 | every trade wins exactly when the count equals the number of trades |
| Report.ProfitFactor | test/backtester_optimizado_v2.py:146-148 | infinite exactly when nothing was lost, otherwise the ratio whose product with the gross loss is the gross profit |
| Report.WinRate | test/backtester_optimizado_v2.py:145 | the rate lies in [0, 100]. It is 100 exactly when every trade won and 0 exactly when none did |
| Report.Summarise | test/backtester_optimizado_v2.py:135-153 | no summary exactly without trades. The total counts the trades, the net pips times the point equal the net profit in price, and the factor equals the one computed in price |
| Report.NetPips | test/backtester_optimizado_v2.py:141-152 | the net result in points times the point is the net profit in price |
| Report.SumInPips | test/backtester_optimizado_v2.py:141-152 | the summed points times the point give the summed price profits |
| Report.Objective | test/optimizer.py:110-124 | 0 without trades, infinite only when trades exist and none lost |
| Report.PipFactorMatchesPriceFactor | test/backtester_optimizado_v2.py:141-148 | counting in points instead of price changes neither the profit factor nor the win rate |
| Report.WinIffTarget | test/backtester_optimizado_v2.py:140-144 | with oriented levels, a trade wins exactly when it leaves at the take-profit |
| Report.BracketOriented | test/backtester.py:120-130 | a positive ATR and positive multipliers put SL and TP on opposite sides of the entry |
| Backtests.V4Entry | test/backtester_optimizado_v2.py:90-126 | an entry is offered exactly when the confluence holds. It opens at the bar's open with the ATR bracket |
| Backtests.OptimizedV2Trades | test/backtester_optimizado_v2.py:15-126 | every trade opens on a row whose confluence at ADX 20 matches its side, at that row's open, with SL 2 and TP 4 ATRs away |
| Backtests.HybridEntry | test/backtester_hibrido.py:100-122 | an entry is offered exactly when the V4 rule fires and the classifier's confidence is at least 0.52 |
| Backtests.HybridTrades | test/backtester_hibrido.py:82-122 | every hybrid trade passed both the confluence and the classifier |
| Backtests.PermissiveFilterIsPlainV4 | test/backtester_hibrido.py:107-122 | a classifier that always passes gives the plain V4 backtest |
| Backtests.StrictFilterTradesNothing | test/backtester_hibrido.py:107-122 | a classifier that never passes gives no trades |
| Backtests.DailyReport | test/backtest_diario.py:42-155 | no rates for the day, or no trade, prints no summary. A summary counts the hybrid trades of the day |
| Backtests.TrialPeriods | test/optimizer.py:20-58 | every point of the search space gives valid periods, with the ATR fixed at 14 |
| Backtests.TrialObjective | test/optimizer.py:72-124 | 0 without trades, otherwise the price profit factor of the trial's trades |
| Backtests.OptimizedV2IsATrial | test/optimizer.py:20-124 | the optimized V2 backtest is the optimizer's run at a point of its search space, and its printed factor is that trial's objective |
| Backtests.Examples | models/data_generator_for_ml.py:56-98 | one example per labelled trade. Its label is 1 exactly when the exit bar touched the take-profit, and its features are those of the entry row |
| Backtests.TechnicalSignal | test/backtester.py:21-51 | BUY exactly when MACD and RSI are defined, the close is above the 200 EMA, the histogram is positive and RSI is under 70. SELL exactly when they are defined, the close is below the EMA, the histogram is negative and RSI is over 30 |
| Backtests.TechnicalOffer | test/backtester.py:84-130 | no entry during the warm-up. An entry needs a BUY or SELL signal on the earlier bars and a positive ATR. After the warm-up, such a signal and ATR always give the entry on that side, at the bar's open, with the ATR bracket |
| Backtests.TechnicalOfferNoLookAhead | test/backtester.py:86-130 | changing bars after the open of bar i does not change the decision at i |
| Backtests.TechnicalTradesAfterWarmUp | test/backtester.py:84-130 | every trade starts after the warm-up, closes later and has oriented levels |

## Left out

- Calls into MetaTrader 5 (`initialize`, `symbol_select`, `copy_rates_*`, `positions_get`, `symbol_info_tick`, `order_send`) are inputs. They are bars, ticks, positions and a broker reply function.
- `order_send` answering `None` is not modelled. The broker function always returns a reply, so the `AttributeError` that `result.retcode` raises on `None` (mt5_manager.py:27) cannot arise.
- The sleeps, the logging and printing, and the `while True` loop with its catch-all handler are not modelled. One symbol's turn is modelled, not the fold over `SYMBOLS` within a cycle. An exception is reported by the turn that raised it, and the symbols it skips for the rest of the cycle are not modelled.
- The language-model request is not modelled. Its reply text, or its absence on an API error, is an input.
- The classifier in `predict_proba` is a function input. Loading it with `joblib` and the early return when it is missing are not modelled.
- JSON text and the file itself are not modelled. The file is a sequence of key/value pairs, or unreadable. `FileNotFoundError` and other read errors both give an empty table.
- Indicators.Bollinger: Dafny's reals have no square root, so `sqrt` is a parameter. Only the band symmetry and ordering use it, assuming it maps non-negative values to non-negative values.
- `MAX_RETRIES` is a parameter. So are `EMA_SHORT_PERIOD`, `EMA_LONG_PERIOD`, `VRSI_PERIOD` and `CCI_PERIOD`, which `main_bot.py` reads but `config.py` does not define.
- Floating point is not modelled. IEEE infinities and NaN both become `None`. The `float('inf')` profit factor is its own constructor. `round` is round-half-to-even on reals.
- The file-state evolution of the ML bot across cycles is not modelled. Each trailing pass loads the file afresh and the table is an input.
- The crash of `test/backtest_diario.py` when `symbol_info` is `None` is not modelled. The point size is a positive parameter.
- `reporte_diario.py`, `test/get_data.py`, `ml_trainer.py` and `ml_filter_trainer.py` are not part of this model. They produce data or models and make no trading decision.
- `ORDER_TIME_GTC`, `ORDER_FILLING_FOK` and the action description are fixed request fields and are left implicit.

## Findings

| source | as written | input that shows it | evidently intended | confidence | as-written member | corrected member |
|---|---|---|---|---|---|---|
| indicators.py:78-81 | -DM is taken from a rising low (`low.diff() > 0`), so it can exceed the true range and -DI can exceed 100 | two bars (low 0, high 1, close 1) then (low 1, high 1, close 1), period 1: -DI = 1e11 | Wilder's -DM = previous low - low when that exceeds +DM and is positive, which keeps both DIs below 100 | high, not executed | Adx.MinusDiExceedsHundred | Adx.WilderIndexesBelowHundred |
| main_bot_with_ml_filter.py:162-173 | the trailing ATR reads whatever `df` is left over, from another symbol or an earlier cycle. After the 20-bar fallback, `df` has no `atr_normalized` column and the next cycle raises `KeyError` | a position held on a symbol for two cycles, or a flat symbol analysed just before a held one | each symbol trails with an ATR computed from its own bars | high, not executed | LiveBots.HeldPositionRaisesOnSecondCycle | LiveBots.MlTurnOwnData |
| mt5_manager.py:28-32 | the success message formats `request['volume']`, which a stop modification (lines 154-158) does not carry. A DONE reply to it raises `KeyError` before `(True, result)` is returned. The new stop is not stored, the remaining positions are skipped, nothing is pruned or saved, and the bot's catch-all handler ends the cycle | a managed position in profit whose trailing modification the broker answers with DONE | the message omits the volume when the request has none, and the stop is stored | high, not executed | TrailingStops.DoneReplyLosesUpdate | TrailingStops.DoneReplyStoresStop |

=== FILE: adx.dfy ===
/** `get_adx_di` (indicators.py): Wilder-style directional movement with
    `ewm(com=period-1, adjust=False)` smoothing and a 1e-9 guard in every
    denominator. The source takes -DM from a rising low; `DmRule` selects
    between that rule as written and Wilder's falling-low rule, which is the
    evidently intended one. */
module Adx {
  import opened Wrappers
  import opened RealMath
  import opened Smoothing
  import opened Market
  import opened Indicators

  /** The guard added to the denominators. */
  const Epsilon: real := 0.000000001

  /** AsWritten: +DM = up if up > low.diff() and up > 0; -DM = low.diff()
      if it exceeds the filtered +DM and is positive. Wilder: with
      down = previous low - low, +DM = up if up > down and up > 0, and
      -DM = down if down > up and down > 0. */
  datatype DmRule = AsWritten | Wilder

  /** The three last values `get_adx_di` returns; None stands for NaN. */
  datatype AdxReading = AdxReading(adx: Option<real>, plusDi: Option<real>, minusDi: Option<real>)

  /** A bar whose close lies within its low and high. */
  predicate WellFormedBar(b: Bar) {
    b.low <= b.close <= b.high
  }

  predicate WellFormed(bars: seq<Bar>) {
    forall k :: 0 <= k < |bars| ==> WellFormedBar(bars[k])
  }

  /** (+DM, -DM) of bar k. The first bar has no difference; its comparisons
      with NaN fail and both moves are 0. At most one move is non-zero. */
  function DirectionalMove(bars: seq<Bar>, k: nat, rule: DmRule): (m: (real, real))
    requires k < |bars|
    ensures m.0 >= 0.0 && m.1 >= 0.0
    ensures m.0 == 0.0 || m.1 == 0.0
  {
    if k == 0 then (0.0, 0.0)
    else
      var up := bars[k].high - bars[k - 1].high;
      var lowChange := bars[k].low - bars[k - 1].low;
      match rule
      case AsWritten =>
        var plus := if up > lowChange && up > 0.0 then up else 0.0;
        (plus, if lowChange > plus && lowChange > 0.0 then Abs(lowChange) else 0.0)
      case Wilder =>
        var down := -lowChange;
        (if up > down && up > 0.0 then up else 0.0, if down > up && down > 0.0 then down else 0.0)
  }

  function PlusDms(bars: seq<Bar>, rule: DmRule): (ps: seq<real>)
    ensures |ps| == |bars|
    ensures forall k :: 0 <= k < |bars| ==> ps[k] == DirectionalMove(bars, k, rule).0
  {
    seq(|bars|, k requires 0 <= k < |bars| => DirectionalMove(bars, k, rule).0)
  }

  function MinusDms(bars: seq<Bar>, rule: DmRule): (ms: seq<real>)
    ensures |ms| == |bars|
    ensures forall k :: 0 <= k < |bars| ==> ms[k] == DirectionalMove(bars, k, rule).1
  {
    seq(|bars|, k requires 0 <= k < |bars| => DirectionalMove(bars, k, rule).1)
  }

  /** 100 * (x / y); None where IEEE division by zero gives an infinity or NaN. */
  function Percent(x: real, y: real): (r: Option<real>)
    ensures r.None? <==> y == 0.0
  {
    match Div(x, y)
    case None => None
    case Some(q) => Some(Scale(100.0, q))
  }

  /** A directional index: 100 * smoothed DM / (ATR + 1e-9), row by row. */
  function IndexSeries(smoothedDm: seq<real>, atr: seq<real>): (di: seq<Option<real>>)
    requires |smoothedDm| == |atr|
    ensures |di| == |atr|
    ensures forall k :: 0 <= k < |atr| ==> di[k] == Percent(smoothedDm[k], atr[k] + Epsilon)
  {
    seq(|atr|, k requires 0 <= k < |atr| => Percent(smoothedDm[k], atr[k] + Epsilon))
  }

  /** 100 * |+DI - -DI| / (+DI + -DI + 1e-9); NaN when either index is. */
  function Dx(p: Option<real>, m: Option<real>): (r: Option<real>)
    ensures p.None? || m.None? ==> r.None?
  {
    if p.None? || m.None? then None else Percent(Abs(p.value - m.value), p.value + m.value + Epsilon)
  }

  function DxSeries(ps: seq<Option<real>>, ms: seq<Option<real>>): (dx: seq<Option<real>>)
    requires |ps| == |ms|
    ensures |dx| == |ps|
    ensures forall k :: 0 <= k < |ps| ==> dx[k] == Dx(ps[k], ms[k])
  {
    seq(|ps|, k requires 0 <= k < |ps| => Dx(ps[k], ms[k]))
  }

  /** The ADX and both directional indexes at the last bar under a -DM rule. */
  function AdxDiWith(bars: seq<Bar>, period: nat, rule: DmRule): (r: Option<AdxReading>)
    requires period >= 1
    ensures r.None? <==> |bars| < 2 * period
  {
    if |bars| < 2 * period then None
    else
      var a := ComAlpha(period);
      var atr := Ewm(TrueRanges(bars), a);
      var plusDi := IndexSeries(Ewm(PlusDms(bars, rule), a), atr);
      var minusDi := IndexSeries(Ewm(MinusDms(bars, rule), a), atr);
      var adx := EwmNa(DxSeries(plusDi, minusDi), a);
      var n := |bars| - 1;
      Some(AdxReading(adx[n], plusDi[n], minusDi[n]))
  }

  /** `get_adx_di(df, period)` as written. */
  function AdxDi(bars: seq<Bar>, period: nat): (r: Option<AdxReading>)
    requires period >= 1
    ensures r.None? <==> |bars| < 2 * period
  {
    AdxDiWith(bars, period, AsWritten)
  }

  // ----- lemmas -----

  /** The true ranges of bars whose low is not above their high are non-negative. */
  lemma TrueRangesNonNegative(bars: seq<Bar>)
    requires WellFormed(bars)
    ensures AllNonNegative(TrueRanges(bars))
  {
    forall k | 0 < k < |bars|
      ensures TrueRanges(bars)[k] >= 0.0
    {
      TrueRangeFacts(bars, k);
    }
  }

  lemma PercentNonNegative(x: real, y: real)
    requires x >= 0.0 && y > 0.0
    ensures Percent(x, y).Some? && Percent(x, y).value >= 0.0
  {
    DivNonNegative(x, y);
    ScaleNonNegative(100.0, x / y);
  }

  /** 100 * x / y stays below 100 when 0 <= x < y. */
  lemma PercentBelowHundred(x: real, y: real)
    requires 0.0 <= x < y
    ensures Percent(x, y).Some? && 0.0 <= Percent(x, y).value < 100.0
  {
    var q := x / y;
    assert q * y == x;
    DivNonNegative(x, y);
    if q >= 1.0 {
      ScaleLe(y, 1.0, q);
      assert false;
    }
  }

  /** Both indexes non-negative give a DX in [0, 100). */
  lemma DxWithin(p: real, m: real)
    requires p >= 0.0 && m >= 0.0
    ensures Dx(Some(p), Some(m)).Some? && 0.0 <= Dx(Some(p), Some(m)).value < 100.0
  {
    PercentBelowHundred(Abs(p - m), p + m + Epsilon);
  }

  /** The defined values of a series whose rows are all defined. */
  function Values(xs: seq<Option<real>>): (vs: seq<real>)
    requires forall k :: 0 <= k < |xs| ==> xs[k].Some?
    ensures Lift(vs) == xs
  {
    seq(|xs|, k requires 0 <= k < |xs| => xs[k].value)
  }

  /** On bars whose close lies within their range, every value is defined,
      both indexes are non-negative and the ADX lies in [0, 100]. */
  lemma AdxDiWellFormed(bars: seq<Bar>, period: nat, rule: DmRule)
    requires period >= 1 && |bars| >= 2 * period
    requires WellFormed(bars)
    ensures var r := AdxDiWith(bars, period, rule).value;
            r.adx.Some? && 0.0 <= r.adx.value <= 100.0 &&
            r.plusDi.Some? && r.plusDi.value >= 0.0 &&
            r.minusDi.Some? && r.minusDi.value >= 0.0
  {
    var a := ComAlpha(period);
    var trs := TrueRanges(bars);
    TrueRangesNonNegative(bars);
    EwmNonNegative(trs, a);
    var atr := Ewm(trs, a);
    var ps, ms := PlusDms(bars, rule), MinusDms(bars, rule);
    assert AllNonNegative(ps) && AllNonNegative(ms);
    EwmNonNegative(ps, a);
    EwmNonNegative(ms, a);
    var pS, mS := Ewm(ps, a), Ewm(ms, a);
    var plusDi, minusDi := IndexSeries(pS, atr), IndexSeries(mS, atr);
    forall k | 0 <= k < |bars|
      ensures plusDi[k].Some? && plusDi[k].value >= 0.0 && minusDi[k].Some? && minusDi[k].value >= 0.0
    {
      PercentNonNegative(pS[k], atr[k] + Epsilon);
      PercentNonNegative(mS[k], atr[k] + Epsilon);
    }
    var dx := DxSeries(plusDi, minusDi);
    forall k | 0 <= k < |bars|
      ensures dx[k].Some? && 0.0 <= dx[k].value <= 100.0
    {
      DxWithin(plusDi[k].value, minusDi[k].value);
    }
    var vs := Values(dx);
    assert AllWithin(vs, 0.0, 100.0);
    EwmNaNoGaps(vs, a);
    EwmWithin(vs, a, 0.0, 100.0);
  }

  /** Under Wilder's rule each move is at most the bar's true range, given
      that the previous close lies within the previous bar's range. */
  lemma WilderMovesWithinTrueRange(bars: seq<Bar>, k: nat)
    requires k < |bars| && WellFormed(bars)
    ensures DirectionalMove(bars, k, Wilder).0 <= TrueRange(bars, k)
    ensures DirectionalMove(bars, k, Wilder).1 <= TrueRange(bars, k)
  {
  }

  /** Under Wilder's rule both directional indexes stay below 100. */
  lemma WilderIndexesBelowHundred(bars: seq<Bar>, period: nat)
    requires period >= 1 && |bars| >= 2 * period
    requires WellFormed(bars)
    ensures var r := AdxDiWith(bars, period, Wilder).value;
            r.plusDi.Some? && 0.0 <= r.plusDi.value < 100.0 &&
            r.minusDi.Some? && 0.0 <= r.minusDi.value < 100.0
  {
    var a := ComAlpha(period);
    var trs := TrueRanges(bars);
    var ps, ms := PlusDms(bars, Wilder), MinusDms(bars, Wilder);
    forall k | 0 <= k < |bars|
      ensures ps[k] <= trs[k] && ms[k] <= trs[k]
    {
      WilderMovesWithinTrueRange(bars, k);
    }
    assert PointwiseLe(ps, trs) && PointwiseLe(ms, trs);
    EwmMonotone(ps, trs, a);
    EwmMonotone(ms, trs, a);
    assert AllNonNegative(ps) && AllNonNegative(ms);
    EwmNonNegative(ps, a);
    EwmNonNegative(ms, a);
    var n := |bars| - 1;
    var atr := Ewm(trs, a);
    PercentBelowHundred(Ewm(ps, a)[n], atr[n] + Epsilon);
    PercentBelowHundred(Ewm(ms, a)[n], atr[n] + Epsilon);
  }

  /** Two consistent bars: a range [0, 1] closing at 1, then a flat bar at 1. */
  function RisingLowBars(): seq<Bar> {
    [Bar(1.0, 1.0, 0.0, 1.0, 1.0), Bar(1.0, 1.0, 1.0, 1.0, 1.0)]
  }

  /** As written, the low rising from 0 to 1 counts as a -DM of 1 on a bar
      whose true range is 0. */
  lemma RisingLowCountsAsMinusDm()
    ensures WellFormed(RisingLowBars())
    ensures DirectionalMove(RisingLowBars(), 1, AsWritten).1 == 1.0
    ensures TrueRange(RisingLowBars(), 1) == 0.0
  {
  }

  lemma EwmOfTwoWithUnitAlpha(x0: real, x1: real)
    ensures Ewm([x0, x1], 1.0) == [x0, x1]
  {
    assert [x0, x1][..1] == [x0];
    ScaleOne(x1);
  }

  lemma RisingLowSeries()
    ensures TrueRanges(RisingLowBars()) == [1.0, 0.0]
    ensures MinusDms(RisingLowBars(), AsWritten) == [0.0, 1.0]
  {
    RisingLowCountsAsMinusDm();
  }

  lemma PercentOfOneOverEpsilon()
    ensures Percent(1.0, 0.0 + Epsilon) == Some(100000000000.0)
  {
    assert 1.0 / Epsilon == 1000000000.0;
  }

  lemma RisingLowSmoothed()
    ensures Ewm(TrueRanges(RisingLowBars()), ComAlpha(1))[1] == 0.0
    ensures Ewm(MinusDms(RisingLowBars(), AsWritten), ComAlpha(1))[1] == 1.0
  {
    RisingLowSeries();
    assert ComAlpha(1) == 1.0;
    EwmOfTwoWithUnitAlpha(1.0, 0.0);
    EwmOfTwoWithUnitAlpha(0.0, 1.0);
  }

  /** With period 1, a last smoothed -DM of 1 over a last ATR of 0 gives a -DI of 1e11. */
  lemma MinusDiOverZeroRange(bars: seq<Bar>)
    requires |bars| >= 2
    requires Ewm(TrueRanges(bars), ComAlpha(1))[|bars| - 1] == 0.0
    requires Ewm(MinusDms(bars, AsWritten), ComAlpha(1))[|bars| - 1] == 1.0
    ensures AdxDi(bars, 1).Some?
    ensures AdxDi(bars, 1).value.minusDi == Some(100000000000.0)
  {
    PercentOfOneOverEpsilon();
  }

  /** As written, -DI reaches 1e11 on those two bars with period 1. */
  lemma MinusDiExceedsHundred()
    ensures AdxDi(RisingLowBars(), 1).Some?
    ensures AdxDi(RisingLowBars(), 1).value.minusDi == Some(100000000000.0)
  {
    RisingLowSmoothed();
    MinusDiOverZeroRange(RisingLowBars());
  }
}

=== FILE: backtests.dfy ===
/** The offline scripts: the four V4 backtests (optimised, hybrid with the
    ML filter, daily, and the optimizer's objective), the ML data generator,
    and the older technical backtester. Each builds its offers bar by bar
    and runs them through the shared simulation. The classifier is a
    parameter: its confidence that a candidate is a winner. */
module Backtests {
  import opened Wrappers
  import opened RealMath
  import opened Smoothing
  import opened Market
  import Config
  import Indicators
  import opened V4Rules
  import opened Simulation
  import opened Report

  /** The bars of the filtered table, in order. */
  function RowBars(t: seq<Row>): (bs: seq<Bar>)
    ensures |bs| == |t| && forall i :: 0 <= i < |t| ==> bs[i] == t[i].bar
  {
    seq(|t|, i requires 0 <= i < |t| => t[i].bar)
  }

  /** The V4 entry at a row: the confluence signal, entered at the row's
      open with the stop-loss and take-profit `slMult` and `tpMult` ATRs away. */
  function V4Entry(row: Row, adxThreshold: real, slMult: real, tpMult: real): (e: Option<Entry>)
    ensures e.Some? <==> Confluence(RowReading(row), adxThreshold) != Hold
    ensures e.Some? ==> Confluence(RowReading(row), adxThreshold) == Trade(e.value.side) && e.value.price == row.bar.open
    ensures e.Some? ==> (e.value.sl, e.value.tp) == Bracket(e.value.side, row.bar.open, row.atr, slMult, tpMult)
  {
    match Confluence(RowReading(row), adxThreshold)
    case Hold => None
    case Trade(side) =>
      var b := Bracket(side, row.bar.open, row.atr, slMult, tpMult);
      Some(Entry(side, row.bar.open, b.0, b.1))
  }

  function V4Offers(t: seq<Row>, adxThreshold: real, slMult: real, tpMult: real): (os: seq<Option<Entry>>)
    ensures |os| == |t| && forall i :: 0 <= i < |t| ==> os[i] == V4Entry(t[i], adxThreshold, slMult, tpMult)
  {
    seq(|t|, i requires 0 <= i < |t| => V4Entry(t[i], adxThreshold, slMult, tpMult))
  }

  /** The trades of the V4 rule over a filtered table. */
  function V4Trades(t: seq<Row>, policy: Policy, adxThreshold: real, slMult: real, tpMult: real): seq<ClosedTrade> {
    Trades(policy, RowBars(t), V4Offers(t, adxThreshold, slMult, tpMult))
  }

  // ----- backtester_optimizado_v2.py -----

  const V2AdxThreshold: real := 20.0
  const V2SlMult: real := 2.0
  const V2TpMult: real := 4.0

  /** The optimised V4 backtest: config periods, ADX above 20, SL 2 and TP 4 ATRs. */
  function OptimizedV2Trades(bars: seq<Bar>): (ts: seq<ClosedTrade>)
    ensures forall j :: 0 <= j < |ts| ==>
              var t := Table(bars, LivePeriods, false);
              var c := ts[j];
              c.entryIndex < c.exitIndex < |t| &&
              Confluence(RowReading(t[c.entryIndex]), V2AdxThreshold) == Trade(c.entry.side) &&
              c.entry.price == t[c.entryIndex].bar.open &&
              (c.entry.sl, c.entry.tp) == Bracket(c.entry.side, c.entry.price, t[c.entryIndex].atr, V2SlMult, V2TpMult)
  {
    var t := Table(bars, LivePeriods, false);
    var os := V4Offers(t, V2AdxThreshold, V2SlMult, V2TpMult);
    RunInvariant(Backtest, RowBars(t), os, |t|);
    V4Trades(t, Backtest, V2AdxThreshold, V2SlMult, V2TpMult)
  }

  // ----- backtester_hibrido.py and backtest_diario.py -----

  const HybridConfidence: real := 0.52

  /** The hybrid entry: a V4 candidate (ADX above 20) that the classifier
      rates a winner with confidence at least 0.52. */
  function HybridEntry(row: Row, classifier: Features -> real): (e: Option<Entry>)
    requires row.atrNormalized.Some?
    ensures e.Some? <==> V4Entry(row, 20.0, 2.0, 4.0).Some? && classifier(FeaturesOf(row)) >= HybridConfidence
    ensures e.Some? ==> e == V4Entry(row, 20.0, 2.0, 4.0)
  {
    var candidate := V4Entry(row, 20.0, 2.0, 4.0);
    if candidate.Some? && classifier(FeaturesOf(row)) >= HybridConfidence then candidate else None
  }

  function HybridOffers(t: seq<Row>, classifier: Features -> real): (os: seq<Option<Entry>>)
    requires forall i :: 0 <= i < |t| ==> t[i].atrNormalized.Some?
    ensures |os| == |t| && forall i :: 0 <= i < |t| ==> os[i] == HybridEntry(t[i], classifier)
  {
    seq(|t|, i requires 0 <= i < |t| => HybridEntry(t[i], classifier))
  }

  /** The research table with the `atr_normalized` column. */
  function HybridTable(bars: seq<Bar>): (t: seq<Row>)
    ensures forall i :: 0 <= i < |t| ==> t[i].atrNormalized.Some?
  {
    Table(bars, ResearchPeriods, true)
  }

  /** The hybrid backtest's trades. */
  function HybridTrades(bars: seq<Bar>, classifier: Features -> real): (ts: seq<ClosedTrade>)
    ensures forall j :: 0 <= j < |ts| ==>
              var t := HybridTable(bars);
              ts[j].entryIndex < ts[j].exitIndex < |t| &&
              classifier(FeaturesOf(t[ts[j].entryIndex])) >= HybridConfidence &&
              Confluence(RowReading(t[ts[j].entryIndex]), 20.0) == Trade(ts[j].entry.side)
  {
    var t := HybridTable(bars);
    var os := HybridOffers(t, classifier);
    RunInvariant(Backtest, RowBars(t), os, |t|);
    Trades(Backtest, RowBars(t), os)
  }

  /** A classifier that passes every candidate leaves the plain V4 backtest
      on the research table. */
  lemma PermissiveFilterIsPlainV4(bars: seq<Bar>, classifier: Features -> real)
    requires forall f :: classifier(f) >= HybridConfidence
    ensures HybridTrades(bars, classifier) == V4Trades(HybridTable(bars), Backtest, 20.0, 2.0, 4.0)
  {
    var t := HybridTable(bars);
    assert HybridOffers(t, classifier) == V4Offers(t, 20.0, 2.0, 4.0);
  }

  /** A classifier that never reaches 0.52 makes no trade. */
  lemma StrictFilterTradesNothing(bars: seq<Bar>, classifier: Features -> real)
    requires forall f :: classifier(f) < HybridConfidence
    ensures HybridTrades(bars, classifier) == []
  {
    var t := HybridTable(bars);
    NoOffersNoTrades(Backtest, RowBars(t), HybridOffers(t, classifier), |t|);
  }

  /** `run_daily_backtest`: the hybrid backtest over the day's bars; no
      report when the terminal returns no bars or no trade is made. */
  function DailyReport(bars: Option<seq<Bar>>, classifier: Features -> real, point: real): (r: Option<Summary>)
    requires point > 0.0
    ensures bars.None? || bars == Some([]) ==> r.None?
    ensures r.Some? ==> bars.Some? && r.value.total == |HybridTrades(bars.value, classifier)| > 0
  {
    if bars.None? || |bars.value| == 0 then None
    else Summarise(HybridTrades(bars.value, classifier), point)
  }

  // ----- optimizer.py -----

  /** One optuna trial's parameters. */
  datatype Trial = Trial(adxPeriod: nat, adxThreshold: int, rsiPeriod: nat, macdFast: nat, macdSlow: nat,
                         macdSignal: nat, slMult: real, tpMult: real)

  /** The ranges `suggest_int` and `suggest_float` draw from. */
  predicate InSearchSpace(p: Trial) {
    10 <= p.adxPeriod <= 20 && 18 <= p.adxThreshold <= 30 && 10 <= p.rsiPeriod <= 20 &&
    8 <= p.macdFast <= 20 && 21 <= p.macdSlow <= 35 && 6 <= p.macdSignal <= 12 &&
    1.5 <= p.slMult <= 3.0 && 2.5 <= p.tpMult <= 6.0
  }

  /** The trial's periods; the ATR period stays 14. */
  function TrialPeriods(p: Trial): (ps: Periods)
    requires InSearchSpace(p)
    ensures ValidPeriods(ps) && ps.atr == 14
  {
    Periods(p.rsiPeriod, p.macdFast, p.macdSlow, p.macdSignal, p.adxPeriod, 14)
  }

  function TrialTrades(bars: seq<Bar>, p: Trial): seq<ClosedTrade>
    requires InSearchSpace(p)
  {
    V4Trades(Table(bars, TrialPeriods(p), false), Backtest, p.adxThreshold as real, p.slMult, p.tpMult)
  }

  /** `objective(trial)`: the profit factor in price units of the trial's
      backtest, 0.0 without trades. */
  function TrialObjective(bars: seq<Bar>, p: Trial): (f: Factor)
    requires InSearchSpace(p)
    ensures TrialTrades(bars, p) == [] ==> f == Finite(0.0)
    ensures TrialTrades(bars, p) != [] ==> f == ProfitFactor(Profits(TrialTrades(bars, p)))
  {
    Objective(TrialTrades(bars, p))
  }

  /** The configuration the optimised backtest runs, as a trial. */
  const V2Trial: Trial := Trial(Config.AdxPeriod, 20, Config.RsiPeriod, Config.MacdFast, Config.MacdSlow,
                                Config.MacdSignal, V2SlMult, V2TpMult)

  /** The optimised backtest is one point of the optimizer's search space,
      and the factor it prints in pips is that trial's objective. */
  lemma OptimizedV2IsATrial(bars: seq<Bar>, point: real)
    requires point > 0.0
    ensures InSearchSpace(V2Trial)
    ensures OptimizedV2Trades(bars) == TrialTrades(bars, V2Trial)
    ensures OptimizedV2Trades(bars) != [] ==>
              Summarise(OptimizedV2Trades(bars), point).value.factor == TrialObjective(bars, V2Trial)
  {
    assert TrialPeriods(V2Trial) == LivePeriods;
  }

  // ----- models/data_generator_for_ml.py -----

  /** One row of the training file: the features at entry and the label. */
  datatype Example = Example(rsi: real, macdHist: real, adx: real, atrNormalized: Option<real>, isWinner: int)

  /** The research table without the `atr_normalized` column. */
  function LabelTable(bars: seq<Bar>): seq<Row> {
    Table(bars, ResearchPeriods, false)
  }

  function LabelTrades(bars: seq<Bar>): seq<ClosedTrade> {
    V4Trades(LabelTable(bars), Labelling, 20.0, 2.0, 4.0)
  }

  /** `generate_trade_data`: for each finished trade, the features of its
      entry row and whether the take-profit was touched on its exit bar. */
  function Examples(bars: seq<Bar>): (es: seq<Example>)
    ensures |es| == |LabelTrades(bars)|
    ensures forall j :: 0 <= j < |es| ==> es[j].isWinner == 0 || es[j].isWinner == 1
    ensures forall j :: 0 <= j < |es| ==>
              var t := LabelTable(bars);
              var c := LabelTrades(bars)[j];
              c.entryIndex < c.exitIndex < |t| &&
              (es[j].isWinner == 1 <==> HitsTarget(c.entry, t[c.exitIndex].bar)) &&
              es[j].rsi == t[c.entryIndex].rsi && es[j].adx == t[c.entryIndex].adx &&
              es[j].macdHist == t[c.entryIndex].hist &&
              es[j].atrNormalized == Div(t[c.entryIndex].atr, t[c.entryIndex].bar.close)
  {
    var t := LabelTable(bars);
    var os := V4Offers(t, 20.0, 2.0, 4.0);
    var cs := LabelTrades(bars);
    RunInvariant(Labelling, RowBars(t), os, |t|);
    seq(|cs|, j requires 0 <= j < |cs| =>
      var row := t[cs[j].entryIndex];
      Example(row.rsi, row.hist, row.adx, Div(row.atr, row.bar.close), if cs[j].hitTarget then 1 else 0))
  }

  // ----- test/backtester.py -----

  const EmaTrendPeriod: nat := 200

  /** Bars skipped before the first decision: max(200, MACD_SLOW) + 50. */
  const WarmUp: nat := (if EmaTrendPeriod >= Config.MacdSlow then EmaTrendPeriod else Config.MacdSlow) + 50

  /** `get_technical_signal(df)`: BUY above the 200-period EMA with a
      positive histogram and RSI below 70, SELL below it with a negative
      histogram and RSI above 30, else HOLD. */
  function TechnicalSignal(bars: seq<Bar>): (s: Signal)
    requires |bars| > 0
    ensures s != Hold ==> Indicators.Macd(bars, Config.MacdFast, Config.MacdSlow, Config.MacdSignal).Some? &&
                          Indicators.Rsi(bars, Config.RsiPeriod).Some?
    ensures s == Trade(Buy) ==> bars[|bars| - 1].close > Last(Ewm(Closes(bars), SpanAlpha(EmaTrendPeriod))) &&
                                Indicators.Macd(bars, Config.MacdFast, Config.MacdSlow, Config.MacdSignal).value > 0.0 &&
                                Indicators.Rsi(bars, Config.RsiPeriod).value < 70.0
    ensures s == Trade(Sell) ==> bars[|bars| - 1].close < Last(Ewm(Closes(bars), SpanAlpha(EmaTrendPeriod))) &&
                                 Indicators.Macd(bars, Config.MacdFast, Config.MacdSlow, Config.MacdSignal).value < 0.0 &&
                                 Indicators.Rsi(bars, Config.RsiPeriod).value > 30.0
    ensures Indicators.Macd(bars, Config.MacdFast, Config.MacdSlow, Config.MacdSignal).Some? &&
            Indicators.Rsi(bars, Config.RsiPeriod).Some? &&
            bars[|bars| - 1].close > Last(Ewm(Closes(bars), SpanAlpha(EmaTrendPeriod))) &&
            Indicators.Macd(bars, Config.MacdFast, Config.MacdSlow, Config.MacdSignal).value > 0.0 &&
            Indicators.Rsi(bars, Config.RsiPeriod).value < 70.0
            ==> s == Trade(Buy)
    ensures Indicators.Macd(bars, Config.MacdFast, Config.MacdSlow, Config.MacdSignal).Some? &&
            Indicators.Rsi(bars, Config.RsiPeriod).Some? &&
            bars[|bars| - 1].close < Last(Ewm(Closes(bars), SpanAlpha(EmaTrendPeriod))) &&
            Indicators.Macd(bars, Config.MacdFast, Config.MacdSlow, Config.MacdSignal).value < 0.0 &&
            Indicators.Rsi(bars, Config.RsiPeriod).value > 30.0
            ==> s == Trade(Sell)
  {
    var close := bars[|bars| - 1].close;
    var ema := Last(Ewm(Closes(bars), SpanAlpha(EmaTrendPeriod)));
    var macd := Indicators.Macd(bars, Config.MacdFast, Config.MacdSlow, Config.MacdSignal);
    var rsi := Indicators.Rsi(bars, Config.RsiPeriod);
    if macd.None? || rsi.None? then Hold
    else if close > ema && macd.value > 0.0 && rsi.value < 70.0 then Trade(Buy)
    else if close < ema && macd.value < 0.0 && rsi.value > 30.0 then Trade(Sell)
    else Hold
  }

  /** The entry at bar i: decided on the bars before it, entered at its
      open, skipped when the ATR is missing or not positive. */
  function TechnicalOffer(bars: seq<Bar>, i: nat): (e: Option<Entry>)
    requires i < |bars|
    ensures i < WarmUp ==> e.None?
    ensures e.Some? ==> e.value.price == bars[i].open && TechnicalSignal(bars[..i]) == Trade(e.value.side)
    ensures e.Some? ==> Indicators.Atr(bars[..i], Config.AtrPeriod).Some? && Indicators.Atr(bars[..i], Config.AtrPeriod).value > 0.0
    ensures i >= WarmUp && TechnicalSignal(bars[..i]).Trade? &&
            Indicators.Atr(bars[..i], Config.AtrPeriod).Some? && Indicators.Atr(bars[..i], Config.AtrPeriod).value > 0.0 ==>
            var side := TechnicalSignal(bars[..i]).side;
            var b := Bracket(side, bars[i].open, Indicators.Atr(bars[..i], Config.AtrPeriod).value, Config.SlAtrMult, Config.TpAtrMult);
            e == Some(Entry(side, bars[i].open, b.0, b.1))
  {
    if i < WarmUp then None
    else
      var history := bars[..i];
      match TechnicalSignal(history)
      case Hold => None
      case Trade(side) =>
        var atr := Indicators.Atr(history, Config.AtrPeriod);
        if atr.None? || atr.value <= 0.0 then None
        else
          var b := Bracket(side, bars[i].open, atr.value, Config.SlAtrMult, Config.TpAtrMult);
          Some(Entry(side, bars[i].open, b.0, b.1))
  }

  function TechnicalOffers(bars: seq<Bar>): (os: seq<Option<Entry>>)
    ensures |os| == |bars| && forall i :: 0 <= i < |bars| ==> os[i] == TechnicalOffer(bars, i)
  {
    seq(|bars|, i requires 0 <= i < |bars| => TechnicalOffer(bars, i))
  }

  function TechnicalTrades(bars: seq<Bar>): seq<ClosedTrade> {
    Trades(Backtest, bars, TechnicalOffers(bars))
  }

  /** The offer at bar i reads only the earlier bars and bar i's open. */
  lemma TechnicalOfferNoLookAhead(bars: seq<Bar>, other: seq<Bar>, i: nat)
    requires i < |bars| && i < |other|
    requires bars[..i] == other[..i] && bars[i].open == other[i].open
    ensures TechnicalOffer(bars, i) == TechnicalOffer(other, i)
  {
  }

  /** Every technical trade enters after the warm-up and at a positive ATR
      with the configured multipliers, so its levels straddle the entry. */
  lemma TechnicalTradesAfterWarmUp(bars: seq<Bar>, j: nat)
    requires j < |TechnicalTrades(bars)|
    ensures var c := TechnicalTrades(bars)[j];
            WarmUp <= c.entryIndex < c.exitIndex < |bars| && Oriented(c.entry)
  {
    var c := TechnicalTrades(bars)[j];
    TradesFaithful(Backtest, bars, TechnicalOffers(bars), j);
    var atr := Indicators.Atr(bars[..c.entryIndex], Config.AtrPeriod).value;
    BracketOriented(c.entry.side, bars[c.entryIndex].open, atr, Config.SlAtrMult, Config.TpAtrMult);
  }
}

=== FILE: gpt_signal.dfy ===
/** The decision half of `get_gpt_signal` (signal_generator.py): the prompt's
    data list and the normalisation of the model's free-text reply. The
    request to the language model is not modelled; its reply is an input. */
module GptSignal {
  import opened Wrappers
  import opened Market
  import opened PyText

  /** The accepted tokens; anything else means HOLD. */
  function Classify(token: string): Signal {
    if token == "BUY" then Trade(Buy)
    else if token == "SELL" then Trade(Sell)
    else Hold
  }

  /** The signal for a reply. `None` stands for every failure before a reply
      text exists: an API error, a missing message content, or any other
      exception, all of which the source turns into HOLD. */
  function SignalFromReply(reply: Option<string>): Signal {
    match reply
    case None => Hold
    case Some(text) =>
      var words := Split(Upper(Strip(text)));
      // `split()[0]` on an empty list raises, and the handler answers HOLD.
      if |words| == 0 then Hold else Classify(words[0])
  }

  /** The reply is decided by its first white-space-separated word alone,
      upper-cased; a reply without a word is HOLD. */
  lemma ReplyDecidedByFirstWord(text: string)
    ensures SignalFromReply(Some(text)) ==
            (if |FirstWord(text)| == 0 then Hold else Classify(Upper(FirstWord(text))))
  {
    var stripped := Strip(text);
    SplitHead(Upper(stripped));
    UpperFirstWord(stripped);
    StripFirstWord(text);
  }

  /** BUY exactly when the first word upper-cases to BUY, SELL exactly when it
      upper-cases to SELL, HOLD otherwise. */
  lemma ReplyClassification(text: string)
    ensures SignalFromReply(Some(text)) == Trade(Buy) <==> Upper(FirstWord(text)) == "BUY"
    ensures SignalFromReply(Some(text)) == Trade(Sell) <==> Upper(FirstWord(text)) == "SELL"
    ensures SignalFromReply(Some(text)) == Hold <==>
            Upper(FirstWord(text)) != "BUY" && Upper(FirstWord(text)) != "SELL"
  {
    ReplyDecidedByFirstWord(text);
  }

  /** A reply made only of white space (or empty) is HOLD. */
  lemma BlankReplyHolds(text: string)
    requires forall k :: 0 <= k < |text| ==> IsSpace(text[k])
    ensures SignalFromReply(Some(text)) == Hold
  {
    ReplyDecidedByFirstWord(text);
    assert SkipSpaces(text, 0) == |text|;
  }

  /** Lower-case "buy" followed by more words is BUY. */
  lemma BuyNowIsBuy()
    ensures SignalFromReply(Some("buy now")) == Trade(Buy)
  {
    ReplyDecidedByFirstWord("buy now");
    FirstWordOfBuyNow();
    UpperOfBuy();
  }

  lemma FirstWordOfBuyNow()
    ensures FirstWord("buy now") == "buy"
  {
    var t := "buy now";
    assert SkipSpaces(t, 0) == 0;
    assert SkipWord(t, 3) == 3;
    assert SkipWord(t, 0) == 3;
  }

  lemma UpperOfBuy()
    ensures Upper("buy") == "BUY"
  {
    var u := Upper("buy");
    assert u[0] == 'B' && u[1] == 'U' && u[2] == 'Y';
  }

  /** A token with trailing punctuation is not a signal word. */
  lemma PunctuatedBuyHolds()
    ensures SignalFromReply(Some("BUY.")) == Hold
  {
    ReplyDecidedByFirstWord("BUY.");
    FirstWordOfPunctuatedBuy();
  }

  lemma FirstWordOfPunctuatedBuy()
    ensures Upper(FirstWord("BUY.")) == "BUY."
  {
    var t := "BUY.";
    assert SkipSpaces(t, 0) == 0;
    assert SkipWord(t, 0) == 4;
    assert FirstWord(t) == t;
    var u := Upper(t);
    assert u[0] == 'B' && u[1] == 'U' && u[2] == 'Y' && u[3] == '.';
  }

  /** The `k=v` entries of the prompt's data line: the indicator values that
      are not None, in their original order. */
  function PromptEntries(data: seq<(string, Option<real>)>): (es: seq<(string, real)>)
    ensures |es| <= |data|
    ensures forall name, v :: (name, v) in es <==> (name, Some(v)) in data
    decreases |data|
  {
    if |data| == 0 then []
    else
      var rest := PromptEntries(data[..|data| - 1]);
      var last := data[|data| - 1];
      assert data == data[..|data| - 1] + [last];
      match last.1
      case None => rest
      case Some(v) => rest + [(last.0, v)]
  }

  /** The entries keep the data's order: those of a concatenation are the
      first part's followed by the second's. */
  lemma {:induction false} PromptEntriesAppend(a: seq<(string, Option<real>)>, b: seq<(string, Option<real>)>)
    ensures PromptEntries(a + b) == PromptEntries(a) + PromptEntries(b)
    decreases |b|
  {
    if |b| == 0 {
      assert a + b == a;
    } else {
      var init := b[..|b| - 1];
      PromptEntriesAppend(a, init);
      assert (a + b)[..|a + b| - 1] == a + init;
      assert (a + b)[|a + b| - 1] == b[|b| - 1];
    }
  }

  /** One present value gives one entry, and a missing one gives none. */
  lemma PromptEntriesSingle(name: string, v: Option<real>)
    ensures PromptEntries([(name, v)]) == if v.Some? then [(name, v.value)] else []
  {
  }
}

=== FILE: indicators.dfy ===
/** The indicators of indicators.py as functions of a bar window. Each
    returns None below its length guard. pandas' rolling windows are full
    at the last row once the guard passes, so a rolling statistic at the
    last row is the statistic of the last `period` values (RealMath.LastN).
    `get_adx_di` is in the Adx module. */
module Indicators {
  import opened Wrappers
  import opened RealMath
  import opened Smoothing
  import opened Market
  import Config

  // ----- derived series -----

  /** `(high + low + close) / 3` of every bar. */
  function TypicalPrices(bars: seq<Bar>): (tps: seq<real>)
    ensures |tps| == |bars|
    ensures forall k :: 0 <= k < |bars| ==> tps[k] == (bars[k].high + bars[k].low + bars[k].close) / 3.0
  {
    seq(|bars|, k requires 0 <= k < |bars| => (bars[k].high + bars[k].low + bars[k].close) / 3.0)
  }

  /** `diff(1).dropna()`: the change from each value to the next. */
  function Diffs(xs: seq<real>): (ds: seq<real>)
    requires |xs| > 0
    ensures |ds| == |xs| - 1
    ensures forall k :: 0 <= k < |ds| ==> ds[k] == xs[k + 1] - xs[k]
  {
    seq(|xs| - 1, k requires 0 <= k < |xs| - 1 => xs[k + 1] - xs[k])
  }

  /** `delta.where(delta > 0, 0.0)`. */
  function Gains(ds: seq<real>): (gs: seq<real>)
    ensures |gs| == |ds|
    ensures forall k :: 0 <= k < |ds| ==> gs[k] == if ds[k] > 0.0 then ds[k] else 0.0
  {
    seq(|ds|, k requires 0 <= k < |ds| => if ds[k] > 0.0 then ds[k] else 0.0)
  }

  /** `-delta.where(delta < 0, 0.0)`. */
  function Losses(ds: seq<real>): (ls: seq<real>)
    ensures |ls| == |ds|
    ensures forall k :: 0 <= k < |ds| ==> ls[k] == if ds[k] < 0.0 then -ds[k] else 0.0
  {
    seq(|ds|, k requires 0 <= k < |ds| => if ds[k] < 0.0 then -ds[k] else 0.0)
  }

  // ----- RSI and volume RSI -----

  /** 100 / d for d >= 1 lies in (0, 100]. */
  lemma PercentOfAtLeastOne(d: real)
    requires d >= 1.0
    ensures 0.0 < 100.0 / d <= 100.0
  {
    var q := 100.0 / d;
    assert q * d == 100.0;
    DivBounds(100.0, d, 0.0, 100.0);
    if q <= 0.0 {
      ScaleLe(d, q, 0.0);
      assert false;
    }
  }

  /** The RSI of the last smoothed gain `g` and loss `l`: a zero loss gives
      100 when something was gained and 50 otherwise. */
  function RsiFromAverages(g: real, l: real): (r: real)
    requires g >= 0.0 && l >= 0.0
    ensures 0.0 <= r <= 100.0
    ensures r == 100.0 <==> l == 0.0 && g > 0.0
    ensures l == 0.0 && g == 0.0 ==> r == 50.0
  {
    if l == 0.0 then (if g > 0.0 then 100.0 else 50.0)
    else
      DivNonNegative(g, l);
      PercentOfAtLeastOne(1.0 + g / l);
      100.0 - 100.0 / (1.0 + g / l)
  }

  /** The smoothed average of a non-negative series under `ewm(com=period-1,
      min_periods=period)` at the last row. */
  function WilderAverage(xs: seq<real>, period: nat): (m: real)
    requires period >= 1 && |xs| >= period
    requires AllNonNegative(xs)
    ensures m >= 0.0
  {
    AdjustedEwmNonNegative(xs, ComAlpha(period));
    AdjustedEwmLast(xs, ComAlpha(period))
  }

  /** The RSI computation shared by `get_rsi` (on closes) and `get_vrsi`
      (on tick volumes). */
  function RsiOf(xs: seq<real>, period: nat): (r: Option<real>)
    requires period >= 1
    ensures r.None? <==> |xs| < period + 1
    ensures r.Some? ==> 0.0 <= r.value <= 100.0
  {
    if |xs| < period + 1 then None
    else
      var ds := Diffs(xs);
      Some(RsiFromAverages(WilderAverage(Gains(ds), period), WilderAverage(Losses(ds), period)))
  }

  /** `get_rsi(df, period)`. */
  function Rsi(bars: seq<Bar>, period: nat): (r: Option<real>)
    requires period >= 1
    ensures r.None? <==> |bars| < period + 1
    ensures r.Some? ==> 0.0 <= r.value <= 100.0
  {
    RsiOf(Closes(bars), period)
  }

  /** `get_vrsi(df, period)`. */
  function Vrsi(bars: seq<Bar>, period: nat): (r: Option<real>)
    requires period >= 1
    ensures r.None? <==> |bars| < period + 1
    ensures r.Some? ==> 0.0 <= r.value <= 100.0
  {
    RsiOf(TickVolumes(bars), period)
  }

  /** A smoothed average of non-negative values (period >= 2, so every
      weight is positive) is zero exactly when every value is zero. */
  lemma WilderAverageZeroIff(xs: seq<real>, period: nat)
    requires period >= 2 && |xs| >= period
    requires AllNonNegative(xs)
    ensures WilderAverage(xs, period) == 0.0 <==> forall k :: 0 <= k < |xs| ==> xs[k] == 0.0
  {
    var a := ComAlpha(period);
    assert a < 1.0;
    AdjustedNumeratorZeroIff(xs, a);
    var n := AdjustedNumerator(xs, a);
    var d := AdjustedDenominator(|xs|, a);
    assert (n / d) * d == n;
  }

  /** RSI saturates at 100 exactly when the series never falls and rises at
      least once; a series that never moves gives 50. */
  lemma RsiSaturation(xs: seq<real>, period: nat)
    requires period >= 2 && |xs| >= period + 1
    ensures RsiOf(xs, period) == Some(100.0) <==>
            (forall k :: 0 <= k < |xs| - 1 ==> xs[k] <= xs[k + 1]) &&
            (exists k :: 0 <= k < |xs| - 1 && xs[k] < xs[k + 1])
    ensures (forall k :: 0 <= k < |xs| - 1 ==> xs[k] == xs[k + 1]) ==> RsiOf(xs, period) == Some(50.0)
  {
    var ds := Diffs(xs);
    var gs, ls := Gains(ds), Losses(ds);
    WilderAverageZeroIff(gs, period);
    WilderAverageZeroIff(ls, period);
    assert (forall k :: 0 <= k < |ls| ==> ls[k] == 0.0) <==> (forall k :: 0 <= k < |xs| - 1 ==> xs[k] <= xs[k + 1]);
    assert (forall k :: 0 <= k < |gs| ==> gs[k] == 0.0) <==> !(exists k :: 0 <= k < |xs| - 1 && xs[k] < xs[k + 1]);
  }

  // ----- CCI -----

  /** `abs(x - m)` for every value of a window. */
  function Deviations(w: seq<real>, m: real): (ds: seq<real>)
    ensures |ds| == |w|
    ensures forall k :: 0 <= k < |w| ==> ds[k] == Abs(w[k] - m)
  {
    seq(|w|, k requires 0 <= k < |w| => Abs(w[k] - m))
  }

  /** `get_cci(df, period)`: the distance of the last typical price from the
      window's mean, in units of 0.015 mean absolute deviations; 0 when the
      mean deviation is 0. */
  function Cci(bars: seq<Bar>, period: nat): (r: Option<real>)
    requires period >= 1
    ensures r.None? <==> |bars| < period
  {
    if |bars| < period then None
    else
      var w := LastN(TypicalPrices(bars), period);
      var ma := Mean(w);
      var md := Mean(Deviations(w, ma));
      if md == 0.0 then Some(0.0) else Some((w[period - 1] - ma) / Scale(0.015, md))
  }

  /** x / (0.015 * m) for |x| <= n * m and m > 0 is at most n / 0.015 in magnitude. */
  lemma CciQuotientBound(x: real, m: real, n: real)
    requires m > 0.0 && n > 0.0
    requires Abs(x) <= Scale(n, m)
    ensures Abs(x / Scale(0.015, m)) <= n / 0.015
  {
    var d := Scale(0.015, m);
    var q := x / d;
    assert q * d == x;
    var b := n / 0.015;
    assert Scale(b, d) == Scale(n, m);
    assert Scale(d, b) == Scale(b, d);
    assert Scale(d, -b) == -Scale(d, b);
    assert Scale(d, q) == x;
    if q > b {
      ScaleLt(d, b, q);
      assert false;
    }
    if q < -b {
      ScaleLt(d, q, -b);
      assert false;
    }
  }

  /** The CCI of a window of n bars never exceeds n / 0.015 in magnitude:
      the last value's deviation is one of the n deviations the mean
      deviation averages. */
  lemma CciBounded(bars: seq<Bar>, period: nat)
    requires period >= 1 && |bars| >= period
    ensures Abs(Cci(bars, period).value) <= (period as real) / 0.015
  {
    var w := LastN(TypicalPrices(bars), period);
    var ma := Mean(w);
    var devs := Deviations(w, ma);
    var md := Mean(devs);
    if md != 0.0 {
      assert AllNonNegative(devs);
      SumAtLeastElement(devs, period - 1);
      SumNonNegative(devs);
      var n := period as real;
      assert md * n == Sum(devs);
      DivNonNegative(Sum(devs), n);
      CciQuotientBound(w[period - 1] - ma, md, n);
    }
  }

  /** A window of equal typical prices has CCI 0. */
  lemma CciFlatWindow(bars: seq<Bar>, period: nat)
    requires period >= 1 && |bars| >= period
    requires forall k :: |bars| - period <= k < |bars| ==>
               TypicalPrices(bars)[k] == TypicalPrices(bars)[|bars| - 1]
    ensures Cci(bars, period) == Some(0.0)
  {
    var w := LastN(TypicalPrices(bars), period);
    var c := w[period - 1];
    assert AllWithin(w, c, c);
    MeanWithin(w, c, c);
    var devs := Deviations(w, Mean(w));
    assert forall k :: 0 <= k < period ==> devs[k] == 0.0;
    assert AllNonNegative(devs);
    SumZeroIffAllZero(devs);
  }

  // ----- VWAP -----

  /** Sum over k of weights[k] * xs[k]. */
  function WeightedSum(xs: seq<real>, weights: seq<real>): real
    requires |xs| == |weights|
    decreases |xs|
  {
    if |xs| == 0 then 0.0
    else WeightedSum(xs[..|xs| - 1], weights[..|xs| - 1]) + Scale(weights[|xs| - 1], xs[|xs| - 1])
  }

  /** With non-negative weights, a weighted sum of values in [lo, hi] lies
      between lo and hi times the total weight. */
  lemma {:induction false} WeightedSumWithin(xs: seq<real>, weights: seq<real>, lo: real, hi: real)
    requires |xs| == |weights|
    requires AllWithin(xs, lo, hi) && AllNonNegative(weights)
    ensures Scale(Sum(weights), lo) <= WeightedSum(xs, weights) <= Scale(Sum(weights), hi)
    decreases |xs|
  {
    if |xs| > 0 {
      var n := |xs| - 1;
      var p, q := xs[..n], weights[..n];
      assert AllWithin(p, lo, hi) && AllNonNegative(q);
      WeightedSumWithin(p, q, lo, hi);
      ScaleLe(weights[n], lo, xs[n]);
      ScaleLe(weights[n], xs[n], hi);
      ScaleSum(Sum(q), weights[n], lo);
      ScaleSum(Sum(q), weights[n], hi);
      AddLe(Scale(Sum(q), lo), WeightedSum(p, q), Scale(weights[n], lo), Scale(weights[n], xs[n]),
            Scale(Sum(weights), lo), WeightedSum(xs, weights));
      AddLe(WeightedSum(p, q), Scale(Sum(q), hi), Scale(weights[n], xs[n]), Scale(weights[n], hi),
            WeightedSum(xs, weights), Scale(Sum(weights), hi));
    }
  }

  /** `get_vwap(df)`: the volume-weighted mean close of the whole frame;
      None when the total tick volume is 0. */
  function Vwap(bars: seq<Bar>): (r: Option<real>)
    ensures r.None? <==> Sum(TickVolumes(bars)) == 0.0
  {
    var vs := TickVolumes(bars);
    if Sum(vs) == 0.0 then None else Some(WeightedSum(Closes(bars), vs) / Sum(vs))
  }

  /** With non-negative volumes the VWAP lies within the range of the closes. */
  lemma VwapWithin(bars: seq<Bar>, lo: real, hi: real)
    requires AllNonNegative(TickVolumes(bars))
    requires AllWithin(Closes(bars), lo, hi)
    requires Vwap(bars).Some?
    ensures lo <= Vwap(bars).value <= hi
  {
    var vs := TickVolumes(bars);
    WeightedSumWithin(Closes(bars), vs, lo, hi);
    SumNonNegative(vs);
    DivBounds(WeightedSum(Closes(bars), vs), Sum(vs), lo, hi);
  }

  // ----- EMA and MACD -----

  /** `get_ema(df, period)`: the last value of `ewm(span=period, adjust=False)` of the closes. */
  function Ema(bars: seq<Bar>, period: nat): (r: Option<real>)
    requires period >= 1
    ensures r.None? <==> |bars| < period
  {
    if |bars| < period then None else Some(Last(Ewm(Closes(bars), SpanAlpha(period))))
  }

  /** The EMA lies within the range of the closes. */
  lemma EmaWithin(bars: seq<Bar>, period: nat, lo: real, hi: real)
    requires period >= 1 && |bars| >= period
    requires AllWithin(Closes(bars), lo, hi)
    ensures lo <= Ema(bars, period).value <= hi
  {
    EwmWithin(Closes(bars), SpanAlpha(period), lo, hi);
  }

  /** The MACD histogram series: the MACD line (fast EMA minus slow EMA) minus
      its signal EMA. */
  function MacdHistogram(xs: seq<real>, fast: nat, slow: nat, signal: nat): (h: seq<real>)
    requires fast >= 1 && slow >= 1 && signal >= 1
    ensures |h| == |xs|
  {
    var line := Minus(Ewm(xs, SpanAlpha(fast)), Ewm(xs, SpanAlpha(slow)));
    Minus(line, Ewm(line, SpanAlpha(signal)))
  }

  /** `get_macd(df, fast, slow, signal)`: the last histogram value; None below
      max(fast, slow, signal) bars. */
  function Macd(bars: seq<Bar>, fast: nat, slow: nat, signal: nat): (r: Option<real>)
    requires fast >= 1 && slow >= 1 && signal >= 1
    ensures r.None? <==> |bars| < fast || |bars| < slow || |bars| < signal
  {
    if |bars| < fast || |bars| < slow || |bars| < signal then None
    else Some(Last(MacdHistogram(Closes(bars), fast, slow, signal)))
  }

  /** A flat series has a zero histogram everywhere. */
  lemma MacdFlat(xs: seq<real>, fast: nat, slow: nat, signal: nat, c: real)
    requires fast >= 1 && slow >= 1 && signal >= 1
    requires forall k :: 0 <= k < |xs| ==> xs[k] == c
    ensures forall k :: 0 <= k < |xs| ==> MacdHistogram(xs, fast, slow, signal)[k] == 0.0
  {
    EwmConstant(xs, SpanAlpha(fast), c);
    EwmConstant(xs, SpanAlpha(slow), c);
    var line := Minus(Ewm(xs, SpanAlpha(fast)), Ewm(xs, SpanAlpha(slow)));
    EwmConstant(line, SpanAlpha(signal), 0.0);
  }

  /** Adding a constant to every price leaves the histogram unchanged. */
  lemma MacdShiftInvariant(xs: seq<real>, fast: nat, slow: nat, signal: nat, c: real)
    requires fast >= 1 && slow >= 1 && signal >= 1
    ensures MacdHistogram(Shift(xs, c), fast, slow, signal) == MacdHistogram(xs, fast, slow, signal)
  {
    EwmShift(xs, SpanAlpha(fast), c);
    EwmShift(xs, SpanAlpha(slow), c);
    var line := Minus(Ewm(xs, SpanAlpha(fast)), Ewm(xs, SpanAlpha(slow)));
    assert Minus(Ewm(Shift(xs, c), SpanAlpha(fast)), Ewm(Shift(xs, c), SpanAlpha(slow))) == line;
  }

  // ----- Bollinger bands -----

  /** `(x - m)^2` for every value of a window. */
  function SquaredDeviations(w: seq<real>, m: real): (ds: seq<real>)
    ensures |ds| == |w|
    ensures AllNonNegative(ds)
  {
    seq(|w|, k requires 0 <= k < |w| => Scale(w[k] - m, w[k] - m))
  }

  /** The sample variance (ddof = 1); None (NaN in pandas) for a single value. */
  function SampleVariance(w: seq<real>): (v: Option<real>)
    requires |w| >= 1
    ensures v.None? <==> |w| == 1
    ensures v.Some? ==> v.value >= 0.0
  {
    if |w| == 1 then None
    else
      var s := Sum(SquaredDeviations(w, Mean(w)));
      SumNonNegative(SquaredDeviations(w, Mean(w)));
      DivNonNegative(s, (|w| - 1) as real);
      Some(s / (|w| - 1) as real)
  }

  /** `get_bollinger(df, period, dev)`: (upper, lower) = sma +- dev * std of the
      last `period` closes, with an undefined std taken as 0. Dafny's reals
      have no square root, so the caller supplies `sqrt`. */
  function Bollinger(bars: seq<Bar>, period: nat, dev: real, sqrt: real -> real): (r: (Option<real>, Option<real>))
    requires period >= 1
    ensures r.0.None? <==> |bars| < period
    ensures r.1.None? <==> |bars| < period
  {
    if |bars| < period then (None, None)
    else
      var w := LastN(Closes(bars), period);
      var std := match SampleVariance(w) case None => 0.0 case Some(v) => sqrt(v);
      (Some(Mean(w) + Scale(dev, std)), Some(Mean(w) - Scale(dev, std)))
  }

  /** The bands are symmetric around the moving average of the closes. */
  lemma BollingerSymmetric(bars: seq<Bar>, period: nat, dev: real, sqrt: real -> real)
    requires period >= 1 && |bars| >= period
    ensures var r := Bollinger(bars, period, dev, sqrt);
            r.0.value - Mean(LastN(Closes(bars), period)) == Mean(LastN(Closes(bars), period)) - r.1.value
  {
  }

  /** For dev >= 0 and a non-negative square root the upper band is not
      below the lower one. */
  lemma BollingerOrdered(bars: seq<Bar>, period: nat, dev: real, sqrt: real -> real)
    requires period >= 1 && |bars| >= period && dev >= 0.0
    requires forall v :: v >= 0.0 ==> sqrt(v) >= 0.0
    ensures var r := Bollinger(bars, period, dev, sqrt); r.1.value <= r.0.value
  {
    var w := LastN(Closes(bars), period);
    var std := match SampleVariance(w) case None => 0.0 case Some(v) => sqrt(v);
    ScaleNonNegative(dev, std);
  }

  /** With a one-bar window the std is undefined, taken as 0, and both bands
      are the last close. */
  lemma BollingerSingleBar(bars: seq<Bar>, dev: real, sqrt: real -> real)
    requires |bars| >= 1
    ensures Bollinger(bars, 1, dev, sqrt) == (Some(bars[|bars| - 1].close), Some(bars[|bars| - 1].close))
  {
    var w := LastN(Closes(bars), 1);
    assert Sum(w) == w[0] by { assert w[..0] == []; }
  }

  // ----- ATR -----

  /** The true range of bar k: `max(h - l, |h - pc|, |l - pc|)` with pc the
      previous close; for the first bar only h - l is defined, and pandas'
      row maximum skips the missing values. */
  function TrueRange(bars: seq<Bar>, k: nat): real
    requires k < |bars|
  {
    var b := bars[k];
    if k == 0 then b.high - b.low
    else Max3(b.high - b.low, Abs(b.high - bars[k - 1].close), Abs(b.low - bars[k - 1].close))
  }

  function TrueRanges(bars: seq<Bar>): (trs: seq<real>)
    ensures |trs| == |bars|
    ensures forall k :: 0 <= k < |bars| ==> trs[k] == TrueRange(bars, k)
  {
    seq(|bars|, k requires 0 <= k < |bars| => TrueRange(bars, k))
  }

  /** A true range after the first bar is never negative, and is zero exactly
      when the bar's high and low both equal the previous close. */
  lemma TrueRangeFacts(bars: seq<Bar>, k: nat)
    requires 0 < k < |bars|
    ensures TrueRange(bars, k) >= 0.0
    ensures TrueRange(bars, k) == 0.0 <==> bars[k].high == bars[k - 1].close && bars[k].low == bars[k - 1].close
  {
  }

  /** `get_atr(df, period)`: the mean of the last `period` true ranges. */
  function Atr(bars: seq<Bar>, period: nat): (r: Option<real>)
    requires period >= 1
    ensures r.None? <==> |bars| < period + 1
  {
    if |bars| < period + 1 then None else Some(Mean(LastN(TrueRanges(bars), period)))
  }

  /** The window never holds the first bar, so every true range in it is
      non-negative, and so is the ATR. */
  lemma AtrWindowNonNegative(bars: seq<Bar>, period: nat)
    requires period >= 1 && |bars| >= period + 1
    ensures AllNonNegative(LastN(TrueRanges(bars), period))
  {
    var w := LastN(TrueRanges(bars), period);
    forall k | 0 <= k < period
      ensures w[k] >= 0.0
    {
      TrueRangeFacts(bars, |bars| - period + k);
    }
  }

  lemma AtrNonNegative(bars: seq<Bar>, period: nat)
    requires period >= 1 && |bars| >= period + 1
    ensures Atr(bars, period).value >= 0.0
  {
    var w := LastN(TrueRanges(bars), period);
    AtrWindowNonNegative(bars, period);
    SumNonNegative(w);
    DivNonNegative(Sum(w), period as real);
  }

  /** The ATR is 0 exactly when every bar of the window has its high and its
      low at the previous close. */
  lemma AtrZeroIff(bars: seq<Bar>, period: nat)
    requires period >= 1 && |bars| >= period + 1
    ensures Atr(bars, period) == Some(0.0) <==>
            forall k :: |bars| - period <= k < |bars| ==>
              bars[k].high == bars[k - 1].close && bars[k].low == bars[k - 1].close
  {
    var w := LastN(TrueRanges(bars), period);
    AtrWindowNonNegative(bars, period);
    SumZeroIffAllZero(w);
    MeanZeroIff(w);
    FlatWindowIff(bars, period);
  }

  lemma FlatWindowIff(bars: seq<Bar>, period: nat)
    requires period >= 1 && |bars| >= period + 1
    ensures (forall j :: 0 <= j < period ==> LastN(TrueRanges(bars), period)[j] == 0.0) <==>
            forall k :: |bars| - period <= k < |bars| ==>
              bars[k].high == bars[k - 1].close && bars[k].low == bars[k - 1].close
  {
    var w := LastN(TrueRanges(bars), period);
    var off := |bars| - period;
    if forall k :: off <= k < |bars| ==> bars[k].high == bars[k - 1].close && bars[k].low == bars[k - 1].close {
      forall j | 0 <= j < period
        ensures w[j] == 0.0
      {
        TrueRangeFacts(bars, off + j);
      }
    }
    if forall j :: 0 <= j < period ==> w[j] == 0.0 {
      forall k | off <= k < |bars|
        ensures bars[k].high == bars[k - 1].close && bars[k].low == bars[k - 1].close
      {
        assert w[k - off] == 0.0;
        TrueRangeFacts(bars, k);
      }
    }
  }

  // ----- Awesome oscillator -----

  /** `(high + low) / 2` of every bar. */
  function MedianPrices(bars: seq<Bar>): (hl2: seq<real>)
    ensures |hl2| == |bars|
    ensures forall k :: 0 <= k < |bars| ==> hl2[k] == (bars[k].high + bars[k].low) / 2.0
  {
    seq(|bars|, k requires 0 <= k < |bars| => (bars[k].high + bars[k].low) / 2.0)
  }

  /** `get_ao(df)`: the AO_FAST-bar mean of the median price minus its
      AO_SLOW-bar mean. */
  function Ao(bars: seq<Bar>): (r: Option<real>)
    ensures r.None? <==> |bars| < Config.AoSlow
  {
    if |bars| < Config.AoSlow then None
    else
      var hl2 := MedianPrices(bars);
      Some(Mean(LastN(hl2, Config.AoFast)) - Mean(LastN(hl2, Config.AoSlow)))
  }

  /** When the median prices of the last AO_SLOW bars lie in [lo, hi], the AO
      is at most hi - lo in magnitude; a flat window gives 0. */
  lemma AoBounded(bars: seq<Bar>, lo: real, hi: real)
    requires |bars| >= Config.AoSlow
    requires AllWithin(LastN(MedianPrices(bars), Config.AoSlow), lo, hi)
    ensures Abs(Ao(bars).value) <= hi - lo
  {
    var hl2 := MedianPrices(bars);
    var slow := LastN(hl2, Config.AoSlow);
    var fast := LastN(hl2, Config.AoFast);
    assert forall k :: 0 <= k < Config.AoFast ==> fast[k] == slow[k + Config.AoSlow - Config.AoFast];
    assert AllWithin(fast, lo, hi);
    MeanWithin(fast, lo, hi);
    MeanWithin(slow, lo, hi);
  }

  // ----- MFI -----

  /** Money flow of bar k (typical price times tick volume), kept only when
      the typical price moved in the chosen direction from the previous bar;
      the first bar has no previous one and counts 0. */
  function DirectionalFlow(bars: seq<Bar>, k: nat, up: bool): real
    requires k < |bars|
  {
    var tps := TypicalPrices(bars);
    if k == 0 then 0.0
    else if (up && tps[k] > tps[k - 1]) || (!up && tps[k] < tps[k - 1]) then Scale(tps[k], bars[k].tickVolume)
    else 0.0
  }

  function DirectionalFlows(bars: seq<Bar>, up: bool): (fs: seq<real>)
    ensures |fs| == |bars|
    ensures forall k :: 0 <= k < |bars| ==> fs[k] == DirectionalFlow(bars, k, up)
  {
    seq(|bars|, k requires 0 <= k < |bars| => DirectionalFlow(bars, k, up))
  }

  /** 100 - 100 / (1 + pos / neg), None when 1 + pos / neg is 0, where IEEE
      arithmetic produces an infinity. */
  function FlowIndex(pos: real, neg: real): (r: Option<real>)
    requires neg != 0.0
    ensures pos >= 0.0 && neg > 0.0 ==> r.Some? && 0.0 <= r.value < 100.0
  {
    var d := 1.0 + pos / neg;
    if d == 0.0 then None
    else
      PercentOfNonNegativeRatio(pos, neg);
      Some(100.0 - 100.0 / d)
  }

  lemma PercentOfNonNegativeRatio(pos: real, neg: real)
    requires neg != 0.0
    ensures pos >= 0.0 && neg > 0.0 ==> 0.0 < 100.0 / (1.0 + pos / neg) <= 100.0
  {
    if pos >= 0.0 && neg > 0.0 {
      DivNonNegative(pos, neg);
      PercentOfAtLeastOne(1.0 + pos / neg);
    }
  }

  /** The money flow of the last `period` bars in one direction. */
  function FlowSum(bars: seq<Bar>, period: nat, up: bool): real
    requires period <= |bars|
  {
    Sum(LastN(DirectionalFlows(bars, up), period))
  }

  /** `get_mfi(df, period)`. Zero negative flow gives 100 when the positive
      flow is positive and 50 otherwise; otherwise the index is undefined
      only where the two flows cancel, which IEEE arithmetic turns into a
      division by zero. */
  function Mfi(bars: seq<Bar>, period: nat): (r: Option<real>)
    requires period >= 1
    ensures |bars| < period + 1 ==> r.None?
    ensures |bars| >= period + 1 && FlowSum(bars, period, false) == 0.0 ==>
              r == Some(if FlowSum(bars, period, true) > 0.0 then 100.0 else 50.0)
    ensures |bars| >= period + 1 && r.None? ==>
              FlowSum(bars, period, false) != 0.0 && FlowSum(bars, period, true) == -FlowSum(bars, period, false)
  {
    if |bars| < period + 1 then None
    else
      var pos := FlowSum(bars, period, true);
      var neg := FlowSum(bars, period, false);
      if neg == 0.0 then Some(if pos > 0.0 then 100.0 else 50.0)
      else
        CancellingFlows(pos, neg);
        FlowIndex(pos, neg)
  }

  lemma CancellingFlows(pos: real, neg: real)
    requires neg != 0.0
    ensures 1.0 + pos / neg == 0.0 ==> pos == -neg
  {
    var q := pos / neg;
    assert q * neg == pos;
  }

  /** With non-negative prices and volumes the MFI is defined from period + 1
      bars on and lies in [0, 100]. */
  lemma MfiWithin(bars: seq<Bar>, period: nat)
    requires period >= 1 && |bars| >= period + 1
    requires forall k :: 0 <= k < |bars| ==> TypicalPrices(bars)[k] >= 0.0 && bars[k].tickVolume >= 0.0
    ensures Mfi(bars, period).Some?
    ensures 0.0 <= Mfi(bars, period).value <= 100.0
  {
    var ps := LastN(DirectionalFlows(bars, true), period);
    var ns := LastN(DirectionalFlows(bars, false), period);
    forall k | 0 <= k < period
      ensures ps[k] >= 0.0 && ns[k] >= 0.0
    {
      var j := |bars| - period + k;
      ScaleNonNegative(TypicalPrices(bars)[j], bars[j].tickVolume);
    }
    assert AllNonNegative(ps) && AllNonNegative(ns);
    SumNonNegative(ps);
    SumNonNegative(ns);
  }
}

=== FILE: live_bots.dfy ===
/** One symbol's turn in each of the three live bots: main_bot_final.py
    (the V4 rule alone), main_bot_with_ml_filter.py (the V4 rule filtered by
    a classifier) and main_bot.py (a chat model's answer, with exits on
    indicators). A turn reads what the terminal reports for the symbol and
    returns the orders it sent, the trailing-stop pass it ran and the state
    that pass left. The broker's replies are consumed through a cursor as in
    Orders; the classifier and the chat model's reply are inputs. */
module LiveBots {
  import opened Wrappers
  import opened RealMath
  import opened Smoothing
  import opened Market
  import Config
  import Indicators
  import Adx
  import V4Rules
  import Simulation
  import Report
  import Backtests
  import opened Orders
  import RiskSizing
  import TrailingStops
  import StateStore
  import GptSignal

  /** What the terminal reports during one symbol's turn: its positions
      before and after acting, the bars `get_rates` returned (empty when the
      call failed), the 20 bars of the ML bot's second fetch, the quote read
      before opening, the quote `close_position` reads for each ticket, the
      symbol's properties and the conversion pairs' quotes the lot sizing
      reads, the chat model's reply, and the quote read before trailing. */
  datatype Terminal = Terminal(
    positions: seq<Position>,
    bars: seq<Bar>,
    fallbackBars: seq<Bar>,
    entryTick: Option<Tick>,
    closeTick: int -> Option<Tick>,
    info: Option<SymbolInfo>,
    quotes: map<string, Tick>,
    reply: Option<string>,
    positionsAfter: seq<Position>,
    trailTick: Option<Tick>)

  /** Whether `manage_trailing_stops` was called, and with which ATR. */
  datatype Trailing = NotRun | Ran(atr: Option<real>, result: TrailingStops.TrailResult)

  /** What a turn did: the signal it acted on, the order it opened, the
      positions it closed, the trailing pass, the state of the trailing
      stops afterwards, the next broker reply, and whether reporting a DONE
      reply raised, which ends the bot's whole cycle in its catch-all
      handler. */
  datatype Turn = Turn(
    signal: Signal,
    order: Option<Submission>,
    closed: seq<Submission>,
    trailing: Trailing,
    state: map<int, real>,
    cursor: nat,
    raised: bool)

  /** A turn that did nothing. */
  function Idle(state: map<int, real>, cursor: nat): Turn {
    Turn(Hold, None, [], NotRun, state, cursor, false)
  }

  /** The symbol has no position carrying the bot's magic number. */
  predicate Flat(term: Terminal) {
    |Mine(term.positions, Config.MagicNumber)| == 0
  }

  predicate PositiveLot(lot: Option<real>) {
    lot.Some? && lot.value > 0.0
  }

  /** The broker replies an order consumed. */
  function Used(s: Option<Submission>): nat {
    if s.Some? then s.value.outcome.used else 0
  }

  /** The stop is not on the winning side of the price, nor the target on
      the losing side. */
  predicate AroundPrice(side: Side, price: real, sl: real, tp: real) {
    if side == Buy then sl <= price <= tp else tp <= price <= sl
  }

  /** `open_position` for a signal: at the ask for a buy and at the bid for a
      sell, the stop `atr * SL_ATR_MULT` and the target `atr * TP_ATR_MULT`
      away from that price. */
  function EntryOrder(symbol: string, side: Side, tick: Tick, atr: real, lot: Option<real>,
                      maxRetries: nat, broker: nat -> TradeResult, cursor: nat): (s: Submission)
    ensures s.request.Some? && s.request.value.Deal?
    ensures var d := s.request.value;
            d.symbol == symbol && d.orderType == side && d.volume == lot && d.position.None? &&
            d.magic == Config.MagicNumber && d.price == (if side == Buy then tick.ask else tick.bid) &&
            d.sl.Some? && d.tp.Some?
    ensures var d := s.request.value;
            Abs(d.sl.value - d.price) == Abs(Scale(atr, Config.SlAtrMult)) &&
            Abs(d.tp.value - d.price) == Abs(Scale(atr, Config.TpAtrMult))
    ensures var d := s.request.value;
            atr >= 0.0 ==> AroundPrice(side, d.price, d.sl.value, d.tp.value)
    ensures var d := s.request.value;
            atr > 0.0 ==> Report.Oriented(Simulation.Entry(side, d.price, d.sl.value, d.tp.value))
    ensures s.outcome == Send(LogsVolume, s.request.value, maxRetries, broker, cursor)
    ensures s.outcome.raised ==> lot.None?
  {
    var price := if side == Buy then tick.ask else tick.bid;
    var b := Simulation.Bracket(side, price, atr, Config.SlAtrMult, Config.TpAtrMult);
    var s := OpenPosition(symbol, side, lot, price, b.0, b.1, maxRetries, broker, cursor);
    if atr > 0.0 then
      Report.BracketOriented(side, price, atr, Config.SlAtrMult, Config.TpAtrMult);
      s
    else s
  }

  // ----- main_bot_final.py -----

  /** `bars_needed` of the V4 bots. */
  const V4Bars: nat := 100

  /** The last value of the ATR column the final bot adds to its frame. */
  function FinalAtr(bars: seq<Bar>): real
    requires |bars| > 0
  {
    Last(V4Rules.AtrColumn(bars, Config.AtrPeriod))
  }

  /** The final bot opens an order: enough bars, no position of its own, a
      V4 signal, a quote, and a positive lot. */
  predicate FinalOpens(account: Account, term: Terminal) {
    |term.bars| >= V4Bars && Flat(term) && V4Rules.SignalV4(term.bars).Trade? && term.entryTick.Some? &&
    PositiveLot(RiskSizing.LotSize(term.info, account, Some(FinalAtr(term.bars)), term.quotes))
  }

  /** The final bot's turn ends early, before trailing: too few bars, or a
      signal without a quote. */
  predicate FinalStopsEarly(term: Terminal) {
    |term.bars| < V4Bars || (Flat(term) && V4Rules.SignalV4(term.bars).Trade? && term.entryTick.None?)
  }

  /** One symbol's turn of main_bot_final.py; `state` is the dictionary
      loaded once at start-up and shared by every symbol. */
  function FinalTurn(symbol: string, account: Account, term: Terminal, state: map<int, real>,
                     maxRetries: nat, broker: nat -> TradeResult, cursor: nat): (t: Turn)
    ensures |term.bars| < V4Bars ==> t == Idle(state, cursor)
    ensures t.order.Some? <==> FinalOpens(account, term)
    ensures t.order.Some? ==>
              t.order == Some(EntryOrder(symbol, V4Rules.SignalV4(term.bars).side, term.entryTick.value,
                                          FinalAtr(term.bars),
                                          RiskSizing.LotSize(term.info, account, Some(FinalAtr(term.bars)), term.quotes),
                                          maxRetries, broker, cursor))
    ensures t.closed == []
    ensures t.trailing.Ran? <==> !FinalStopsEarly(term) && term.trailTick.Some?
    ensures t.trailing.Ran? ==> t.trailing.atr == Some(FinalAtr(term.bars)) && t.state == t.trailing.result.state
    ensures t.trailing.NotRun? ==> t.state == state
    ensures t.raised <==> t.trailing.Ran? && t.trailing.result.raised
  {
    var bars := term.bars;
    if |bars| < V4Bars then Idle(state, cursor)
    else
      var atr := FinalAtr(bars);
      var signal := if Flat(term) then V4Rules.SignalV4(bars) else Hold;
      if signal.Trade? && term.entryTick.None? then Turn(signal, None, [], NotRun, state, cursor, false)
      else
        var lot := RiskSizing.LotSize(term.info, account, Some(atr), term.quotes);
        var order := if signal.Trade? && PositiveLot(lot)
                      then Some(EntryOrder(symbol, signal.side, term.entryTick.value, atr, lot, maxRetries, broker, cursor))
                      else None;
        var next := cursor + Used(order);
        match term.trailTick
        case None => Turn(signal, order, [], NotRun, state, next, false)
        case Some(tick) =>
          var r := TrailingStops.Manage(symbol, term.positionsAfter, Some(atr), tick, state,
                                        TrailingStops.Configured, maxRetries, broker, next);
          Turn(signal, order, [], Ran(Some(atr), r), r.state, r.cursor, r.raised)
  }

  /** On well-formed bars the ATR is never negative, so every order the
      final bot opens has its stop below and its target above a buy's price
      (above and below a sell's). */
  lemma FinalEntryAroundPrice(symbol: string, account: Account, term: Terminal, state: map<int, real>,
                              maxRetries: nat, broker: nat -> TradeResult, cursor: nat)
    requires Adx.WellFormed(term.bars)
    requires FinalOpens(account, term)
    ensures var t := FinalTurn(symbol, account, term, state, maxRetries, broker, cursor);
            var d := t.order.value.request.value;
            AroundPrice(d.orderType, d.price, d.sl.value, d.tp.value)
  {
    AtrColumnNonNegative(term.bars, Config.AtrPeriod);
  }

  lemma AtrColumnNonNegative(bars: seq<Bar>, period: nat)
    requires period >= 1 && Adx.WellFormed(bars) && |bars| > 0
    ensures Last(V4Rules.AtrColumn(bars, period)) >= 0.0
  {
    Adx.TrueRangesNonNegative(bars);
    EwmNonNegative(Indicators.TrueRanges(bars), SpanAlpha(period));
  }

  /** The final bot never adds to a position of its own, and a symbol that
      holds one still has its stops trailed. */
  lemma FinalHoldsWhileInPosition(symbol: string, account: Account, term: Terminal, state: map<int, real>,
                                  maxRetries: nat, broker: nat -> TradeResult, cursor: nat)
    requires !Flat(term) && |term.bars| >= V4Bars && term.trailTick.Some?
    ensures var t := FinalTurn(symbol, account, term, state, maxRetries, broker, cursor);
            t.order.None? && t.trailing.Ran? && t.cursor == t.trailing.result.cursor
  {
  }

  /** The dictionary is shared by all symbols, and a trailing pass keeps
      only the tickets of the symbol it manages: after a turn whose ATR is
      positive, another symbol's tracked stops are gone, unless the pass
      raised before pruning, which leaves them as they were. */
  lemma FinalTurnForgetsOtherSymbols(symbol: string, account: Account, term: Terminal, state: map<int, real>,
                                     maxRetries: nat, broker: nat -> TradeResult, cursor: nat, ticket: int)
    requires |term.bars| >= V4Bars && term.trailTick.Some? && !FinalStopsEarly(term)
    requires FinalAtr(term.bars) > 0.0
    requires forall p :: p in term.positionsAfter && p.ticket == ticket ==> p.symbol != symbol
    ensures var t := FinalTurn(symbol, account, term, state, maxRetries, broker, cursor);
            (!t.raised ==> ticket !in t.state) && (t.raised ==> (ticket in t.state <==> ticket in state))
  {
    var t := FinalTurn(symbol, account, term, state, maxRetries, broker, cursor);
    TrailingStops.ManageKeys(symbol, term.positionsAfter, Some(FinalAtr(term.bars)), term.trailTick.value, state,
                             TrailingStops.Configured, maxRetries, broker, cursor + Used(t.order));
  }

  // ----- main_bot_with_ml_filter.py -----

  /** What the variable `df` holds when the trailing step reads it: nothing
      yet, bars as fetched, or the candidate's table after `dropna`. The
      variable outlives the symbol and the cycle that assigned it. */
  datatype Frame = Unset | Raw(bars: seq<Bar>) | Analysed(rows: seq<V4Rules.Row>)

  /** `'df' not in locals() or df.empty`. */
  predicate Blank(f: Frame) {
    f.Unset? || (f.Raw? && |f.bars| == 0) || (f.Analysed? && |f.rows| == 0)
  }

  /** The trailing step's ATR: none when the second fetch returned nothing,
      or the `KeyError` of a frame without the `atr_normalized` column. */
  datatype TrailAtr = NoBars | AtrOf(value: real) | MissingColumn

  /** Lines 160-173 as written: a blank frame is replaced by a fresh 20-bar
      fetch whose last ATR is used; any other frame is read as the
      candidate's table, whatever symbol or cycle it came from. */
  function StaleTrailAtr(frame: Frame, fallback: seq<Bar>): (r: (TrailAtr, Frame))
    ensures Blank(frame) ==> r.1 == Raw(fallback)
    ensures Blank(frame) ==> (r.0.NoBars? <==> |fallback| == 0)
    ensures Blank(frame) && |fallback| > 0 ==> r.0 == AtrOf(FinalAtr(fallback))
    ensures !Blank(frame) ==> r.1 == frame && !r.0.NoBars?
    ensures frame.Raw? && !Blank(frame) ==> r.0 == MissingColumn
  {
    if Blank(frame) then
      if |fallback| == 0 then (NoBars, Raw(fallback)) else (AtrOf(FinalAtr(fallback)), Raw(fallback))
    else
      match frame
      case Raw(_) => (MissingColumn, frame)
      case Analysed(rows) =>
        var last := rows[|rows| - 1];
        match last.atrNormalized
        case None => (MissingColumn, frame)
        case Some(v) => (AtrOf(Scale(v, last.bar.close)), frame)
  }

  /** The ML bot's turn: the trailing outcome, the frame it leaves, and
      whether the turn raised, which ends the whole cycle. */
  datatype MlTurn = MlTurn(turn: Turn, confidence: Option<real>, frame: Frame, crashed: bool)

  /** The trailing step of an ML turn. `stored` is the state file, which the
      step loads afresh. The step raises on a frame without the column, or
      when the trailing pass raised. */
  function MlTrail(frame: Frame, symbol: string, term: Terminal, stored: StateStore.FileContent,
                   maxRetries: nat, broker: nat -> TradeResult, cursor: nat): (r: (Trailing, Frame, bool, nat))
    ensures term.trailTick.None? ==> r == (NotRun, frame, false, cursor)
    ensures r.2 <==> term.trailTick.Some? &&
                     (StaleTrailAtr(frame, term.fallbackBars).0.MissingColumn? || (r.0.Ran? && r.0.result.raised))
    ensures r.0.Ran? <==> term.trailTick.Some? && StaleTrailAtr(frame, term.fallbackBars).0.AtrOf?
    ensures r.0.Ran? ==> r.0.atr == Some(StaleTrailAtr(frame, term.fallbackBars).0.value) && r.3 == r.0.result.cursor
    ensures r.0.NotRun? ==> r.3 == cursor
    ensures term.trailTick.Some? ==> r.1 == StaleTrailAtr(frame, term.fallbackBars).1
  {
    match term.trailTick
    case None => (NotRun, frame, false, cursor)
    case Some(tick) =>
      var (a, f) := StaleTrailAtr(frame, term.fallbackBars);
      match a
      case NoBars => (NotRun, f, false, cursor)
      case MissingColumn => (NotRun, f, true, cursor)
      case AtrOf(v) =>
        var res := TrailingStops.Manage(symbol, term.positionsAfter, Some(v), tick, StateStore.Load(stored),
                                        TrailingStops.Configured, maxRetries, broker, cursor);
        (Ran(Some(v), res), f, res.raised, res.cursor)
  }

  /** The ML bot takes a candidate only when the classifier's confidence is
      strictly above ML_CONFIDENCE_THRESHOLD. */
  predicate Confident(confidence: real) {
    confidence > Config.MlConfidenceThreshold
  }

  /** The first part of an ML turn: the candidate, the classifier's
      confidence in it, the order, the frame left in `df`, and whether the
      turn goes on to the trailing step (`continue` skips it, and an order
      whose DONE report raised ends the cycle). */
  datatype MlDecision = MlDecision(signal: Signal, confidence: Option<real>, order: Option<Submission>,
                                   frame: Frame, proceed: bool)

  /** Lines 107-154: a symbol holding a position goes straight to trailing;
      a flat one fetches 100 bars, asks the V4 rule for a candidate and the
      classifier for its confidence, and opens at the quote with the ATR
      recovered as `atr_normalized * ask`. The lot goes to `open_position`
      even when it could not be computed. */
  function MlDecide(frame: Frame, symbol: string, account: Account, term: Terminal,
                    classifier: V4Rules.Features -> real,
                    maxRetries: nat, broker: nat -> TradeResult, cursor: nat): (d: MlDecision)
    ensures !Flat(term) ==> d == MlDecision(Hold, None, None, frame, true)
    ensures Flat(term) && |term.bars| < V4Bars ==> d == MlDecision(Hold, None, None, Raw(term.bars), false)
    ensures Flat(term) && |term.bars| >= V4Bars ==>
              d.frame == Analysed(V4Rules.Table(term.bars, V4Rules.LivePeriods, true)) &&
              d.signal == V4Rules.Candidate(term.bars).0
    ensures d.confidence.Some? <==> Flat(term) && |term.bars| >= V4Bars && V4Rules.Candidate(term.bars).0.Trade?
    ensures d.confidence.Some? ==>
              d.confidence == Some(classifier(V4Rules.FeaturesOf(V4Rules.Candidate(term.bars).1.value)))
    ensures d.order.Some? <==> d.confidence.Some? && Confident(d.confidence.value) && term.entryTick.Some?
    ensures !d.proceed <==> Flat(term) &&
                            (|term.bars| < V4Bars || (d.confidence.Some? && Confident(d.confidence.value) && term.entryTick.None?) ||
                             (d.order.Some? && d.order.value.outcome.raised))
    ensures d.order.Some? ==>
              d.order.value.request.Some? && d.order.value.request.value.Deal? &&
              d.order.value.request.value.orderType == d.signal.side && d.signal.Trade?
    ensures d.order.Some? ==>
              (var row := V4Rules.Candidate(term.bars).1.value;
               var tick := term.entryTick.value;
               var atr := Scale(row.atrNormalized.value, tick.ask);
               d.order.value == EntryOrder(symbol, d.signal.side, tick, atr,
                                           RiskSizing.LotSize(term.info, account, Some(atr), term.quotes),
                                           maxRetries, broker, cursor))
  {
    if !Flat(term) then MlDecision(Hold, None, None, frame, true)
    else
      var bars := term.bars;
      if |bars| < V4Bars then MlDecision(Hold, None, None, Raw(bars), false)
      else
        var analysed := Analysed(V4Rules.Table(bars, V4Rules.LivePeriods, true));
        var cand := V4Rules.Candidate(bars);
        if cand.0 == Hold then MlDecision(Hold, None, None, analysed, true)
        else
          var row := cand.1.value;
          var confidence := classifier(V4Rules.FeaturesOf(row));
          if !Confident(confidence) then MlDecision(cand.0, Some(confidence), None, analysed, true)
          else if term.entryTick.None? then MlDecision(cand.0, Some(confidence), None, analysed, false)
          else
            var tick := term.entryTick.value;
            var atr := Scale(row.atrNormalized.value, tick.ask);
            var lot := RiskSizing.LotSize(term.info, account, Some(atr), term.quotes);
            var sub := EntryOrder(symbol, cand.0.side, tick, atr, lot, maxRetries, broker, cursor);
            MlDecision(cand.0, Some(confidence), Some(sub), analysed, !sub.outcome.raised)
  }

  /** When the lot cannot be computed, the ML bot still sends the order, with
      no volume: a DONE reply then raises while the success is reported,
      and the turn ends before the trailing step. */
  lemma UnsizedMlOrderRaises(frame: Frame, symbol: string, account: Account, term: Terminal,
                             classifier: V4Rules.Features -> real,
                             maxRetries: nat, broker: nat -> TradeResult, cursor: nat)
    requires Flat(term) && |term.bars| >= V4Bars && term.entryTick.Some?
    requires V4Rules.Candidate(term.bars).0.Trade? && V4Rules.Candidate(term.bars).1.Some?
    requires Confident(classifier(V4Rules.FeaturesOf(V4Rules.Candidate(term.bars).1.value)))
    requires var row := V4Rules.Candidate(term.bars).1.value;
             RiskSizing.LotSize(term.info, account, Some(Scale(row.atrNormalized.value, term.entryTick.value.ask)), term.quotes).None?
    requires maxRetries > 0 && broker(cursor).retcode == RetcodeDone
    ensures var d := MlDecide(frame, symbol, account, term, classifier, maxRetries, broker, cursor);
            d.order.Some? && d.order.value.request.value.volume.None? && d.order.value.outcome.raised && !d.proceed
  {
    var d := MlDecide(frame, symbol, account, term, classifier, maxRetries, broker, cursor);
    SendStep(LogsVolume, d.order.value.request.value, maxRetries, broker, cursor);
  }

  /** One symbol's turn of main_bot_with_ml_filter.py, starting from the
      frame the previous turn left. The turn crashes when a DONE report
      raised, for the order or in the trailing pass, or when the trailing
      step reads a frame without the `atr_normalized` column. */
  function MlTurnFrom(frame: Frame, symbol: string, account: Account, term: Terminal,
                      classifier: V4Rules.Features -> real, stored: StateStore.FileContent,
                      maxRetries: nat, broker: nat -> TradeResult, cursor: nat): (r: MlTurn)
    ensures var d := MlDecide(frame, symbol, account, term, classifier, maxRetries, broker, cursor);
            r.turn.signal == d.signal && r.turn.order == d.order && r.confidence == d.confidence && r.turn.closed == []
    ensures var d := MlDecide(frame, symbol, account, term, classifier, maxRetries, broker, cursor);
            if d.proceed
            then (r.turn.trailing.Ran? <==> term.trailTick.Some? && StaleTrailAtr(d.frame, term.fallbackBars).0.AtrOf?) &&
                 (r.turn.trailing.Ran? ==> r.turn.trailing.atr == Some(StaleTrailAtr(d.frame, term.fallbackBars).0.value)) &&
                 (r.crashed <==> term.trailTick.Some? &&
                                 (StaleTrailAtr(d.frame, term.fallbackBars).0.MissingColumn? || r.turn.raised)) &&
                 r.frame == (if term.trailTick.Some? then StaleTrailAtr(d.frame, term.fallbackBars).1 else d.frame)
            else r.turn.trailing.NotRun? && (r.crashed <==> r.turn.raised) && r.frame == d.frame
    ensures r.turn.raised <==> (r.turn.order.Some? && r.turn.order.value.outcome.raised) ||
                               (r.turn.trailing.Ran? && r.turn.trailing.result.raised)
    ensures r.turn.raised ==> r.crashed
  {
    var d := MlDecide(frame, symbol, account, term, classifier, maxRetries, broker, cursor);
    var orderRaised := d.order.Some? && d.order.value.outcome.raised;
    if !d.proceed then
      MlTurn(Turn(d.signal, d.order, [], NotRun, StateStore.Load(stored), cursor + Used(d.order), orderRaised),
             d.confidence, d.frame, orderRaised)
    else
      var trail := MlTrail(d.frame, symbol, term, stored, maxRetries, broker, cursor + Used(d.order));
      var state := if trail.0.Ran? then trail.0.result.state else StateStore.Load(stored);
      var trailRaised := trail.0.Ran? && trail.0.result.raised;
      MlTurn(Turn(d.signal, d.order, [], trail.0, state, trail.3, trailRaised), d.confidence, trail.1, trail.2)
  }

  /** The frame a flat symbol's analysis leaves behind: the candidate's
      table. */
  lemma FlatTurnLeavesItsTable(frame: Frame, symbol: string, account: Account, term: Terminal,
                               classifier: V4Rules.Features -> real, stored: StateStore.FileContent,
                               maxRetries: nat, broker: nat -> TradeResult, cursor: nat)
    requires Flat(term) && |term.bars| >= V4Bars
    requires |V4Rules.Table(term.bars, V4Rules.LivePeriods, true)| > 0
    ensures MlTurnFrom(frame, symbol, account, term, classifier, stored, maxRetries, broker, cursor).frame ==
            Analysed(V4Rules.Table(term.bars, V4Rules.LivePeriods, true))
  {
  }

  /** As written, a symbol that holds a position trails its stops with the
      ATR the last row of whatever table is left in `df`, whatever this
      symbol's own bars are. */
  lemma StaleFrameTrailAtr(rows: seq<V4Rules.Row>, symbol: string, account: Account, term: Terminal,
                           classifier: V4Rules.Features -> real, stored: StateStore.FileContent,
                           maxRetries: nat, broker: nat -> TradeResult, cursor: nat)
    requires |rows| > 0 && rows[|rows| - 1].atrNormalized.Some?
    requires !Flat(term) && term.trailTick.Some?
    ensures var last := rows[|rows| - 1];
            var r := MlTurnFrom(Analysed(rows), symbol, account, term, classifier, stored, maxRetries, broker, cursor);
            r.turn.trailing.Ran? && r.turn.trailing.atr == Some(Scale(last.atrNormalized.value, last.bar.close))
  {
    var d := MlDecide(Analysed(rows), symbol, account, term, classifier, maxRetries, broker, cursor);
    assert d.frame == Analysed(rows) && d.proceed;
  }

  /** When the table in `df` is an earlier flat symbol's, that ATR is the
      other symbol's: a value of the ATR column of its bars. */
  lemma StaleFrameSetsNextSymbolsAtr(prevBars: seq<Bar>, symbol: string, account: Account, term: Terminal,
                                     classifier: V4Rules.Features -> real, stored: StateStore.FileContent,
                                     maxRetries: nat, broker: nat -> TradeResult, cursor: nat)
    requires |V4Rules.Table(prevBars, V4Rules.LivePeriods, true)| > 0
    requires !Flat(term) && term.trailTick.Some?
    ensures var t := V4Rules.Table(prevBars, V4Rules.LivePeriods, true);
            var r := MlTurnFrom(Analysed(t), symbol, account, term, classifier, stored, maxRetries, broker, cursor);
            r.turn.trailing.Ran? && r.turn.trailing.atr == Some(t[|t| - 1].atr) &&
            t[|t| - 1].atr in V4Rules.AtrColumn(prevBars, Config.AtrPeriod)
  {
    var t := V4Rules.Table(prevBars, V4Rules.LivePeriods, true);
    V4Rules.NormalizedRow(prevBars, V4Rules.LivePeriods, t[|t| - 1]);
    StaleFrameTrailAtr(t, symbol, account, term, classifier, stored, maxRetries, broker, cursor);
  }

  /** As written, a symbol holding a position over two cycles raises on the
      second: the first turn finds `df` blank and leaves the 20 fetched bars
      in it, which lack the `atr_normalized` column the second turn reads.
      The first turn trails with those bars' ATR, and crashes only if its
      trailing pass raised. */
  lemma HeldPositionRaisesOnSecondCycle(symbol: string, account: Account, first: Terminal, second: Terminal,
                                        classifier: V4Rules.Features -> real, stored: StateStore.FileContent,
                                        maxRetries: nat, broker: nat -> TradeResult, cursor: nat)
    requires !Flat(first) && first.trailTick.Some? && |first.fallbackBars| > 0
    requires !Flat(second) && second.trailTick.Some?
    ensures var r1 := MlTurnFrom(Unset, symbol, account, first, classifier, stored, maxRetries, broker, cursor);
            var r2 := MlTurnFrom(r1.frame, symbol, account, second, classifier, stored, maxRetries, broker, r1.turn.cursor);
            r1.turn.trailing.Ran? && r1.turn.trailing.atr == Some(FinalAtr(first.fallbackBars)) &&
            r1.frame == Raw(first.fallbackBars) && (r1.crashed <==> r1.turn.trailing.result.raised) &&
            r2.crashed && r2.turn.trailing.NotRun?
  {
  }

  /** The evident intent of lines 156-173: `df` belongs to the symbol's own
      turn, so the trailing ATR comes from this symbol's bars, and a turn
      never reads a missing column: it crashes only when a DONE report
      raised. */
  function MlTurnOwnData(symbol: string, account: Account, term: Terminal,
                         classifier: V4Rules.Features -> real, stored: StateStore.FileContent,
                         maxRetries: nat, broker: nat -> TradeResult, cursor: nat): (r: MlTurn)
    ensures r.crashed <==> r.turn.raised
    ensures r.turn.trailing.Ran? ==>
              r.turn.trailing.atr.Some? &&
              (r.turn.trailing.atr.value in V4Rules.AtrColumn(term.bars, Config.AtrPeriod) ||
               r.turn.trailing.atr.value in V4Rules.AtrColumn(term.fallbackBars, Config.AtrPeriod))
    ensures !Flat(term) && term.trailTick.Some? && |term.fallbackBars| > 0 ==>
              r.turn.trailing.Ran? && r.turn.trailing.atr == Some(FinalAtr(term.fallbackBars))
  {
    var r := MlTurnFrom(Unset, symbol, account, term, classifier, stored, maxRetries, broker, cursor);
    OwnDataFacts(symbol, account, term, classifier, stored, maxRetries, broker, cursor);
    r
  }

  lemma OwnDataFacts(symbol: string, account: Account, term: Terminal,
                     classifier: V4Rules.Features -> real, stored: StateStore.FileContent,
                     maxRetries: nat, broker: nat -> TradeResult, cursor: nat)
    ensures var r := MlTurnFrom(Unset, symbol, account, term, classifier, stored, maxRetries, broker, cursor);
            (r.crashed <==> r.turn.raised) &&
            (r.turn.trailing.Ran? ==>
              r.turn.trailing.atr.Some? &&
              (r.turn.trailing.atr.value in V4Rules.AtrColumn(term.bars, Config.AtrPeriod) ||
               r.turn.trailing.atr.value in V4Rules.AtrColumn(term.fallbackBars, Config.AtrPeriod)))
  {
    var d := MlDecide(Unset, symbol, account, term, classifier, maxRetries, broker, cursor);
    assert d.frame == Unset || d.frame == Raw(term.bars) || d.frame == Analysed(V4Rules.Table(term.bars, V4Rules.LivePeriods, true));
    assert d.frame == Raw(term.bars) ==> !d.proceed;
    if d.proceed {
      OwnFrameAtr(d.frame, term.bars, term.fallbackBars);
    }
  }

  /** The trailing ATR of a frame that is blank or this symbol's own table
      is never a missing column, and is a value of one of this symbol's ATR
      columns. */
  lemma OwnFrameAtr(frame: Frame, bars: seq<Bar>, fallback: seq<Bar>)
    requires frame == Unset || frame == Analysed(V4Rules.Table(bars, V4Rules.LivePeriods, true))
    ensures var a := StaleTrailAtr(frame, fallback).0;
            !a.MissingColumn? &&
            (a.AtrOf? ==> a.value in V4Rules.AtrColumn(bars, Config.AtrPeriod) ||
                          a.value in V4Rules.AtrColumn(fallback, Config.AtrPeriod))
  {
    if Blank(frame) {
      if |fallback| > 0 {
        var xs := V4Rules.AtrColumn(fallback, Config.AtrPeriod);
        assert xs[|xs| - 1] in xs;
      }
    } else {
      var t := frame.rows;
      V4Rules.NormalizedRow(bars, V4Rules.LivePeriods, t[|t| - 1]);
    }
  }

  /** Every candidate the live filter takes, the hybrid backtest's filter
      takes too, but not the other way round: the live threshold is higher
      and strict, so a confidence of exactly 0.60 is traded in the backtest
      and filtered out live. */
  lemma LiveFilterStricterThanBacktest(confidence: real)
    ensures Confident(confidence) ==> confidence >= Backtests.HybridConfidence
    ensures !Confident(Config.MlConfidenceThreshold) && Config.MlConfidenceThreshold >= Backtests.HybridConfidence
  {
  }

  // ----- main_bot.py -----

  /** The periods main_bot.py reads but config.py does not define. */
  datatype ExtraPeriods = ExtraPeriods(emaShort: nat, emaLong: nat, vrsi: nat, cci: nat)

  predicate ValidExtra(x: ExtraPeriods) {
    x.emaShort >= 1 && x.emaLong >= 1 && x.vrsi >= 1 && x.cci >= 1
  }

  function MaxNat(a: nat, b: nat): nat {
    if a >= b then a else b
  }

  /** `bars_needed`: five more than the longest period. */
  function BarsNeeded(x: ExtraPeriods): (n: nat)
    ensures n >= x.emaLong + 5 && n >= Config.BbPeriod + 5 && n >= Config.AtrPeriod + 5 && n >= Config.RsiPeriod + 5
    ensures n >= Config.MacdSlow + 5 && n >= Config.AdxPeriod + 5 && n >= Config.AoSlow + 5
    ensures n == x.emaLong + 5 || n == Config.AoSlow + 5 || n == Config.MacdSlow + 5 || n == Config.BbPeriod + 5
  {
    MaxNat(MaxNat(MaxNat(x.emaLong, Config.BbPeriod), MaxNat(Config.AtrPeriod, Config.RsiPeriod)),
           MaxNat(MaxNat(Config.MacdSlow, Config.AdxPeriod), Config.AoSlow)) + 5
  }

  /** The `indicators_data` dictionary: the quote and every indicator, each
      None when it had too few bars. */
  datatype Snapshot = Snapshot(
    ask: real, bid: real,
    rsi: Option<real>, vrsi: Option<real>, cci: Option<real>,
    ema20: Option<real>, ema50: Option<real>, macd: Option<real>,
    bbu: Option<real>, bbl: Option<real>, atr: Option<real>,
    adx: Option<real>, plusDi: Option<real>, minusDi: Option<real>,
    ao: Option<real>, mfi: Option<real>, vwap: Option<real>)

  function AdxPart(r: Option<Adx.AdxReading>, k: nat): Option<real>
    requires k < 3
  {
    match r
    case None => None
    case Some(a) => if k == 0 then a.adx else if k == 1 then a.plusDi else a.minusDi
  }

  /** Lines 102-115; `sqrt` stands for the square root the standard
      deviation takes. Each indicator is None exactly when it has too few
      bars, the VWAP when the tick volumes sum to zero. */
  function TakeSnapshot(bars: seq<Bar>, tick: Tick, x: ExtraPeriods, sqrt: real -> real): (s: Snapshot)
    requires ValidExtra(x)
    ensures s.ask == tick.ask && s.bid == tick.bid
    ensures s.rsi.Some? <==> |bars| > Config.RsiPeriod
    ensures s.vrsi.Some? <==> |bars| > x.vrsi
    ensures s.rsi.Some? ==> 0.0 <= s.rsi.value <= 100.0
    ensures s.vrsi.Some? ==> 0.0 <= s.vrsi.value <= 100.0
    ensures s.cci.Some? <==> |bars| >= x.cci
    ensures s.ema20.Some? <==> |bars| >= x.emaShort
    ensures s.ema50.Some? <==> |bars| >= x.emaLong
    ensures s.macd.Some? <==> |bars| >= Config.MacdSlow
    ensures s.bbu.Some? <==> |bars| >= Config.BbPeriod
    ensures s.bbl.Some? <==> |bars| >= Config.BbPeriod
    ensures s.atr.Some? <==> |bars| > Config.AtrPeriod
    ensures s.adx.Some? || s.plusDi.Some? || s.minusDi.Some? ==> |bars| >= 2 * Config.AdxPeriod
    ensures s.ao.Some? <==> |bars| >= Config.AoSlow
    ensures |bars| <= Config.RsiPeriod ==> s.mfi.None?
    ensures s.vwap.None? <==> Sum(TickVolumes(bars)) == 0.0
  {
    var bb := Indicators.Bollinger(bars, Config.BbPeriod, Config.BbStdDev, sqrt);
    var adx := Adx.AdxDi(bars, Config.AdxPeriod);
    Snapshot(tick.ask, tick.bid,
             Indicators.Rsi(bars, Config.RsiPeriod), Indicators.Vrsi(bars, x.vrsi), Indicators.Cci(bars, x.cci),
             Indicators.Ema(bars, x.emaShort), Indicators.Ema(bars, x.emaLong),
             Indicators.Macd(bars, Config.MacdFast, Config.MacdSlow, Config.MacdSignal),
             bb.0, bb.1, Indicators.Atr(bars, Config.AtrPeriod),
             AdxPart(adx, 0), AdxPart(adx, 1), AdxPart(adx, 2),
             Indicators.Ao(bars), Indicators.Mfi(bars, Config.RsiPeriod), Indicators.Vwap(bars))
  }

  /** The dictionary's items in order, under the keys the prompt shows. */
  function SnapshotData(s: Snapshot): (d: seq<(string, Option<real>)>)
    ensures |d| == 17
    ensures d[0] == ("ask_price", Some(s.ask)) && d[1] == ("bid_price", Some(s.bid))
  {
    [("ask_price", Some(s.ask)), ("bid_price", Some(s.bid)), ("rsi", s.rsi), ("vrsi", s.vrsi),
     ("cci", s.cci), ("ema20", s.ema20), ("ema50", s.ema50), ("macd", s.macd), ("bbu", s.bbu),
     ("bbl", s.bbl), ("atr", s.atr), ("adx", s.adx), ("di+", s.plusDi), ("di-", s.minusDi),
     ("ao", s.ao), ("mfi", s.mfi), ("vwap", s.vwap)]
  }

  /** The prompt always shows both quotes. */
  lemma PromptShowsQuotes(s: Snapshot)
    ensures ("ask_price", s.ask) in GptSignal.PromptEntries(SnapshotData(s))
    ensures ("bid_price", s.bid) in GptSignal.PromptEntries(SnapshotData(s))
  {
    var d := SnapshotData(s);
    assert d[0] in d && d[1] in d;
  }

  /** Python's truth value of a number: defined and not zero. */
  predicate Truthy(x: Option<real>) {
    x.Some? && x.value != 0.0
  }

  /** The EMA rule of `check_exit_conditions`, tested only when the EMA and
      both quotes are truthy. */
  predicate EmaExit(side: Side, s: Snapshot) {
    Truthy(s.ema20) && s.bid != 0.0 && s.ask != 0.0 &&
    (if side == Buy then s.bid < s.ema20.value else s.ask > s.ema20.value)
  }

  /** The MACD rule: the histogram has turned against the position. */
  predicate MacdExit(side: Side, s: Snapshot) {
    s.macd.Some? && (if side == Buy then s.macd.value < 0.0 else s.macd.value > 0.0)
  }

  /** `check_exit_conditions(position, indicators_data)`. */
  function ExitSignal(side: Side, s: Snapshot): (exit: bool)
    ensures exit ==> (side == Buy ==> (s.ema20.Some? && s.bid < s.ema20.value) || (s.macd.Some? && s.macd.value < 0.0))
    ensures exit ==> (side == Sell ==> (s.ema20.Some? && s.ask > s.ema20.value) || (s.macd.Some? && s.macd.value > 0.0))
    ensures exit <==> EmaExit(side, s) || MacdExit(side, s)
    ensures s.ema20.None? && s.macd.None? ==> !exit
  {
    if Truthy(s.ema20) && s.bid != 0.0 && s.ask != 0.0 && side == Buy && s.bid < s.ema20.value then true
    else if Truthy(s.ema20) && s.bid != 0.0 && s.ask != 0.0 && side == Sell && s.ask > s.ema20.value then true
    else if s.macd.Some? && side == Buy && s.macd.value < 0.0 then true
    else s.macd.Some? && side == Sell && s.macd.value > 0.0
  }

  /** A non-zero histogram closes one side or the other. */
  lemma NonZeroMacdClosesOneSide(s: Snapshot)
    requires s.macd.Some? && s.macd.value != 0.0
    ensures ExitSignal(Buy, s) || ExitSignal(Sell, s)
  {
  }

  /** An EMA inside the spread closes both sides at once. */
  lemma EmaInsideSpreadClosesBoth(s: Snapshot)
    requires Truthy(s.ema20) && s.bid != 0.0 && s.ask != 0.0
    requires s.bid < s.ema20.value < s.ask
    ensures ExitSignal(Buy, s) && ExitSignal(Sell, s)
  {
  }

  /** An EMA of exactly zero counts as missing, so only the histogram can
      close a position then, and a zero histogram closes nothing. */
  lemma ZeroIndicatorsCloseNothing(side: Side, s: Snapshot)
    requires s.ema20 == Some(0.0) && s.macd == Some(0.0)
    ensures !ExitSignal(side, s)
  {
  }

  /** The positions the exit rules select, in order. */
  function Exiting(ps: seq<Position>, s: Snapshot): (es: seq<Position>)
    ensures |es| <= |ps|
    ensures forall p :: p in es <==> p in ps && ExitSignal(p.side, s)
    decreases |ps|
  {
    if |ps| == 0 then []
    else
      var init := ps[..|ps| - 1];
      var p := ps[|ps| - 1];
      assert ps == init + [p];
      if ExitSignal(p.side, s) then Exiting(init, s) + [p] else Exiting(init, s)
  }

  /** `close_position` for each selected position, with the opposite order
      type and the whole volume; a ticket whose quote is missing is not sent. */
  function Exits(symbol: string, ps: seq<Position>, s: Snapshot, closeTick: int -> Option<Tick>,
                 maxRetries: nat, broker: nat -> TradeResult, cursor: nat): (r: (seq<Submission>, nat))
    ensures |r.0| == |Exiting(ps, s)|
    ensures forall i :: 0 <= i < |r.0| ==>
              var p := Exiting(ps, s)[i];
              (r.0[i].request.Some? <==> closeTick(p.ticket).Some?) &&
              (r.0[i].request.Some? ==>
                 r.0[i].request.value.Deal? && r.0[i].request.value.position == Some(p.ticket) &&
                 r.0[i].request.value.orderType == Opposite(p.side) &&
                 r.0[i].request.value.volume == Some(p.volume)) &&
              !r.0[i].outcome.raised
    ensures cursor <= r.1
    decreases |ps|
  {
    if |ps| == 0 then ([], cursor)
    else
      var init := ps[..|ps| - 1];
      var p := ps[|ps| - 1];
      var prev := Exits(symbol, init, s, closeTick, maxRetries, broker, cursor);
      if ExitSignal(p.side, s) then
        var sub := ClosePosition(p, symbol, Opposite(p.side), closeTick(p.ticket), maxRetries, broker, prev.1);
        (prev.0 + [sub], prev.1 + sub.outcome.used)
      else prev
  }

  /** The entry branch of lines 120-144: the order, and the state with the
      new order's stop recorded when the order went through. */
  function MainEntry(symbol: string, account: Account, signal: Signal, tick: Tick, atr: Option<real>,
                     term: Terminal, state: map<int, real>,
                     maxRetries: nat, broker: nat -> TradeResult, cursor: nat): (r: (Option<Submission>, map<int, real>))
    ensures r.0.Some? <==> (signal.Trade? && PositiveLot(RiskSizing.LotSize(term.info, account, atr, term.quotes)) &&
                            atr.Some? && atr.value > 0.0)
    ensures r.0.Some? ==> r.0.value.request.Some? &&
                          r.0.value.outcome == Send(LogsVolume, r.0.value.request.value, maxRetries, broker, cursor)
    ensures r.0.Some? ==> !r.0.value.outcome.raised
    ensures r.0.Some? ==> r.0.value.request.Some? && r.0.value.request.value.Deal? &&
                          r.0.value.request.value.sl.Some? && r.0.value.request.value.tp.Some?
    ensures r.0.Some? ==>
              var d := r.0.value.request.value;
              d.orderType == signal.side && Report.Oriented(Simulation.Entry(d.orderType, d.price, d.sl.value, d.tp.value))
    ensures !(r.0.Some? && r.0.value.outcome.success) ==> r.1 == state
    ensures r.0.Some? && r.0.value.outcome.success ==>
              var order := r.0.value.outcome.result.value.order;
              r.1.Keys == state.Keys + {order} && r.1[order] == r.0.value.request.value.sl.value &&
              forall t :: t in state && t != order ==> r.1[t] == state[t]
  {
    if signal.Hold? then (None, state)
    else
      var lot := RiskSizing.LotSize(term.info, account, atr, term.quotes);
      if !(PositiveLot(lot) && atr.Some? && atr.value > 0.0) then (None, state)
      else
        var sub := EntryOrder(symbol, signal.side, tick, atr.value, lot, maxRetries, broker, cursor);
        if sub.outcome.success && Config.TrailingStopActive then
          (Some(sub), state[sub.outcome.result.value.order := sub.request.value.sl.value])
        else (Some(sub), state)
  }

  /** One symbol's turn of main_bot.py; `state` is the dictionary loaded at
      start-up and shared by every symbol. */
  function MainTurn(symbol: string, account: Account, x: ExtraPeriods, sqrt: real -> real,
                    term: Terminal, state: map<int, real>,
                    maxRetries: nat, broker: nat -> TradeResult, cursor: nat): (t: Turn)
    requires ValidExtra(x)
    ensures |term.bars| + 1 < BarsNeeded(x) || term.entryTick.None? ==> t == Idle(state, cursor)
    ensures t.order.Some? ==> Flat(term) && t.closed == [] && GptSignal.SignalFromReply(term.reply) == t.signal
    ensures t.order.Some? ==> t.order.value.request.Some? && t.order.value.request.value.Deal? &&
                              t.order.value.request.value.sl.Some? && t.order.value.request.value.tp.Some?
    ensures t.order.Some? ==>
              var d := t.order.value.request.value;
              t.signal == Trade(d.orderType) && Report.Oriented(Simulation.Entry(d.orderType, d.price, d.sl.value, d.tp.value))
    ensures Flat(term) ==> t.closed == []
    ensures !Flat(term) ==> t.order.None?
    ensures !(|term.bars| + 1 < BarsNeeded(x) || term.entryTick.None?) ==>
              t.trailing.Ran? && t.state == t.trailing.result.state &&
              t.trailing.atr == Indicators.Atr(term.bars, Config.AtrPeriod)
    ensures t.raised <==> t.trailing.Ran? && t.trailing.result.raised
  {
    if |term.bars| + 1 < BarsNeeded(x) || term.entryTick.None? then Idle(state, cursor)
    else
      var tick := term.entryTick.value;
      var s := TakeSnapshot(term.bars, tick, x, sqrt);
      var mine := Mine(term.positions, Config.MagicNumber);
      var acted := if |mine| == 0 then
                     var signal := GptSignal.SignalFromReply(term.reply);
                     var e := MainEntry(symbol, account, signal, tick, s.atr, term, state, maxRetries, broker, cursor);
                     (signal, e.0, [], e.1, cursor + Used(e.0))
                   else
                     var ex := Exits(symbol, mine, s, term.closeTick, maxRetries, broker, cursor);
                     (Hold, None, ex.0, state, ex.1);
      var r := TrailingStops.Manage(symbol, term.positionsAfter, s.atr, tick, acted.3,
                                    TrailingStops.Configured, maxRetries, broker, acted.4);
      Turn(acted.0, acted.1, acted.2, Ran(s.atr, r), r.state, r.cursor, r.raised)
  }

  /** A symbol with positions of its own sends a closing order for exactly
      the positions the exit rules select, each against its own ticket. */
  lemma MainClosesExactlyTheExiting(symbol: string, account: Account, x: ExtraPeriods, sqrt: real -> real,
                                    term: Terminal, state: map<int, real>,
                                    maxRetries: nat, broker: nat -> TradeResult, cursor: nat)
    requires ValidExtra(x) && !Flat(term)
    requires |term.bars| + 1 >= BarsNeeded(x) && term.entryTick.Some?
    ensures var t := MainTurn(symbol, account, x, sqrt, term, state, maxRetries, broker, cursor);
            var s := TakeSnapshot(term.bars, term.entryTick.value, x, sqrt);
            var es := Exiting(Mine(term.positions, Config.MagicNumber), s);
            |t.closed| == |es| &&
            forall i :: 0 <= i < |es| && t.closed[i].request.Some? ==>
              t.closed[i].request.value.position == Some(es[i].ticket) &&
              es[i] in term.positions && es[i].magic == Config.MagicNumber && ExitSignal(es[i].side, s)
  {
    var s := TakeSnapshot(term.bars, term.entryTick.value, x, sqrt);
    var mine := Mine(term.positions, Config.MagicNumber);
    var es := Exiting(mine, s);
    MainTurnClosesItsExits(symbol, account, x, sqrt, term, state, maxRetries, broker, cursor);
    forall i | 0 <= i < |es|
      ensures es[i] in mine
    {
      assert es[i] in es;
    }
  }

  lemma MainTurnClosesItsExits(symbol: string, account: Account, x: ExtraPeriods, sqrt: real -> real,
                               term: Terminal, state: map<int, real>,
                               maxRetries: nat, broker: nat -> TradeResult, cursor: nat)
    requires ValidExtra(x) && !Flat(term)
    requires |term.bars| + 1 >= BarsNeeded(x) && term.entryTick.Some?
    ensures MainTurn(symbol, account, x, sqrt, term, state, maxRetries, broker, cursor).closed ==
            Exits(symbol, Mine(term.positions, Config.MagicNumber), TakeSnapshot(term.bars, term.entryTick.value, x, sqrt),
                  term.closeTick, maxRetries, broker, cursor).0
  {
  }
}

=== FILE: market.dfy ===
/** The broker's values as the bot sees them: bars, ticks, positions, symbol
    and account information, and the bot's configuration constants. */
module Market {
  /** One candle of `copy_rates_*`: prices and tick volume. */
  datatype Bar = Bar(open: real, high: real, low: real, close: real, tickVolume: real)

  /** The current quote of a symbol. */
  datatype Tick = Tick(bid: real, ask: real)

  /** Direction of a position or an order (POSITION_TYPE_* / ORDER_TYPE_*). */
  datatype Side = Buy | Sell

  /** The strings "BUY", "SELL" and "HOLD" the strategies return. */
  datatype Signal = Trade(side: Side) | Hold

  /** An open position as `positions_get` reports it. */
  datatype Position = Position(
    ticket: int,
    symbol: string,
    side: Side,
    volume: real,
    priceOpen: real,
    sl: real,
    tp: real,
    magic: int)

  /** The fields of `symbol_info` the bot reads. */
  datatype SymbolInfo = SymbolInfo(
    contractSize: real,
    currencyMargin: string,
    volumeMin: real,
    volumeMax: real,
    volumeStep: real,
    point: real)

  /** The fields of `account_info` the bot reads. */
  datatype Account = Account(balance: real, currency: string)

  function Opposite(s: Side): Side {
    if s == Buy then Sell else Buy
  }

  /** +1 for a buy, -1 for a sell: the sign of a price move's profit. */
  function Direction(s: Side): real {
    if s == Buy then 1.0 else -1.0
  }

  function Closes(bars: seq<Bar>): (cs: seq<real>)
    ensures |cs| == |bars|
    ensures forall k :: 0 <= k < |bars| ==> cs[k] == bars[k].close
  {
    seq(|bars|, k requires 0 <= k < |bars| => bars[k].close)
  }

  function Highs(bars: seq<Bar>): (hs: seq<real>)
    ensures |hs| == |bars|
    ensures forall k :: 0 <= k < |bars| ==> hs[k] == bars[k].high
  {
    seq(|bars|, k requires 0 <= k < |bars| => bars[k].high)
  }

  function Lows(bars: seq<Bar>): (ls: seq<real>)
    ensures |ls| == |bars|
    ensures forall k :: 0 <= k < |bars| ==> ls[k] == bars[k].low
  {
    seq(|bars|, k requires 0 <= k < |bars| => bars[k].low)
  }

  function TickVolumes(bars: seq<Bar>): (vs: seq<real>)
    ensures |vs| == |bars|
    ensures forall k :: 0 <= k < |bars| ==> vs[k] == bars[k].tickVolume
  {
    seq(|bars|, k requires 0 <= k < |bars| => bars[k].tickVolume)
  }

  /** The positions of one symbol carrying the bot's magic number. */
  function Mine(positions: seq<Position>, magic: int): (mine: seq<Position>)
    ensures forall p :: p in mine <==> p in positions && p.magic == magic
    decreases |positions|
  {
    if |positions| == 0 then []
    else
      var rest := Mine(positions[..|positions| - 1], magic);
      var p := positions[|positions| - 1];
      assert positions == positions[..|positions| - 1] + [p];
      if p.magic == magic then rest + [p] else rest
  }
}

/** The constants of the bot's configuration module that the modelled code reads. */
module Config {
  const RsiPeriod: nat := 19
  const MacdFast: nat := 20
  const MacdSlow: nat := 26
  const MacdSignal: nat := 6
  const AdxPeriod: nat := 19
  const AoFast: nat := 5
  const AoSlow: nat := 34
  const BbPeriod: nat := 20
  const BbStdDev: real := 2.0
  const AtrPeriod: nat := 14
  const SlAtrMult: real := 1.5441864660177191
  const TpAtrMult: real := 2.504770076551997
  const MagicNumber: int := 123456
  const RiskPercent: real := 0.005
  const DeviationPips: int := 20
  const TrailingStopActive: bool := true
  const TrailingStopDistanceAtr: real := 1.0
  const MinProfitToTrailAtr: real := 0.5
  const MlConfidenceThreshold: real := 0.60
  /** Threshold and RSI levels of the V4 rule (also redefined in main_bot_final.py). */
  const AdxThreshold: real := 20.0
  const RsiBuyThreshold: real := 50.0
  const RsiSellThreshold: real := 50.0
}

=== FILE: orders.dfy ===
/** Order submission (mt5_manager.py): the bounded retry loop of
    `send_trade_request` and the requests built by `open_position` and
    `close_position`. The broker is an input: `broker(n)` is its reply to
    the n-th submission of the session, so a run of the bot consumes
    replies through a cursor. */
module Orders {
  import opened Wrappers
  import opened Market
  import Config

  /** MetaTrader 5 trade return codes the loop distinguishes. */
  const RetcodeRequote: int := 10004
  const RetcodeDone: int := 10009
  const RetcodeNoChanges: int := 10025

  /** The reply of `order_send`: its return code and the order ticket. */
  datatype TradeResult = TradeResult(retcode: int, order: int)

  /** The request dictionaries the bot sends. Every deal is sent with
      ORDER_TIME_GTC and the FOK filling mode, which are left implicit. A
      deal's volume is `None` when the caller passes on a lot that could not
      be computed. */
  datatype TradeRequest =
    | Deal(
        symbol: string,
        volume: Option<real>,
        orderType: Side,
        price: real,
        sl: Option<real>,
        tp: Option<real>,
        position: Option<int>,
        deviation: int,
        magic: int,
        description: string)
    | ModifyStops(symbol: string, ticket: int, newSl: real, keepTp: real, magic: int, description: string)

  /** The return codes `send_trade_request` stops retrying on. */
  predicate Accepted(retcode: int) {
    retcode == RetcodeDone || retcode == RetcodeNoChanges
  }

  /** How `send_trade_request` reports a DONE reply. As written
      (`LogsVolume`) its success message formats `request['volume']` as a
      number before the function returns; `OmitsVolume` is the message
      without the volume, which is what the function evidently intends for
      every request. */
  datatype DoneReport = LogsVolume | OmitsVolume

  /** The success message can format the request's volume: a deal with a
      lot. A stop modification has no "volume" key (KeyError) and a deal
      whose lot could not be computed holds None (TypeError). */
  predicate HasVolume(request: TradeRequest) {
    request.Deal? && request.volume.Some?
  }

  /** A DONE reply to this request raises out of `send_trade_request`. */
  predicate DoneRaises(report: DoneReport, request: TradeRequest) {
    report == LogsVolume && !HasVolume(request)
  }

  /** The (success, result) pair of `send_trade_request`, with the number of
      submissions it made; `raised` when it raised instead of returning, in
      which case there is no pair. */
  datatype SendOutcome = SendOutcome(success: bool, result: Option<TradeResult>, used: nat, raised: bool)

  /** `send_trade_request(request, symbol)` with at most `maxRetries`
      submissions, the first answered by `broker(start)`. A requote and every
      other code that is not accepted lead to the next attempt; the sleeps
      between attempts are timing only. NO_CHANGES returns before the
      success message, so only DONE can raise. */
  function Send(report: DoneReport, request: TradeRequest, maxRetries: nat,
                broker: nat -> TradeResult, start: nat): (o: SendOutcome)
    ensures o.used <= maxRetries
    ensures o.success <==> o.result.Some?
    ensures o.success ==> !o.raised && 1 <= o.used && o.result == Some(broker(start + o.used - 1))
                          && Accepted(broker(start + o.used - 1).retcode)
    ensures o.success && DoneRaises(report, request) ==> o.result.value.retcode == RetcodeNoChanges
    ensures o.raised ==> !o.success && 1 <= o.used && broker(start + o.used - 1).retcode == RetcodeDone
                         && DoneRaises(report, request)
    ensures !o.success && !o.raised ==> o.used == maxRetries
    decreases maxRetries
  {
    if maxRetries == 0 then SendOutcome(false, None, 0, false)
    else
      var reply := broker(start);
      if reply.retcode == RetcodeDone && DoneRaises(report, request) then SendOutcome(false, None, 1, true)
      else if Accepted(reply.retcode) then SendOutcome(true, Some(reply), 1, false)
      else
        var rest := Send(report, request, maxRetries - 1, broker, start + 1);
        rest.(used := rest.used + 1)
  }

  /** Every reply before the last one read, and every reply of an attempt
      sequence that ran out, was a rejection: the loop stops at the first
      accepted code and only there. */
  lemma {:induction false} SendRejectsBefore(report: DoneReport, request: TradeRequest, maxRetries: nat,
                                             broker: nat -> TradeResult, start: nat, k: nat)
    requires var o := Send(report, request, maxRetries, broker, start);
             start <= k < start + o.used && (k < start + o.used - 1 || (!o.success && !o.raised))
    ensures !Accepted(broker(k).retcode)
    decreases maxRetries
  {
    if maxRetries > 0 && k > start {
      SendRejectsBefore(report, request, maxRetries - 1, broker, start + 1, k);
    }
  }

  /** A request together with what sending it produced. */
  datatype Submission = Submission(request: Option<TradeRequest>, outcome: SendOutcome)

  /** `open_position`: a market deal carrying the bot's magic number. */
  function OpenRequest(symbol: string, side: Side, lot: Option<real>, price: real, sl: real, tp: real): TradeRequest {
    Deal(symbol, lot, side, price, Some(sl), Some(tp), None, Config.DeviationPips, Config.MagicNumber,
         if side == Buy then "ABRIR COMPRA" else "ABRIR VENTA")
  }

  function OpenPosition(symbol: string, side: Side, lot: Option<real>, price: real, sl: real, tp: real,
                        maxRetries: nat, broker: nat -> TradeResult, start: nat): Submission
  {
    var request := OpenRequest(symbol, side, lot, price, sl, tp);
    Submission(Some(request), Send(LogsVolume, request, maxRetries, broker, start))
  }

  /** `close_position`: an opposite deal for the whole volume of the position,
      priced at the ask when buying back and at the bid when selling. Without
      a tick nothing is sent and the result is (False, None). */
  function ClosePosition(p: Position, symbol: string, orderType: Side, tick: Option<Tick>,
                         maxRetries: nat, broker: nat -> TradeResult, start: nat): (s: Submission)
    ensures tick.None? <==> s.request.None?
    ensures tick.None? ==> !s.outcome.success && s.outcome.used == 0
    ensures s.request.Some? ==>
              s.request.value.Deal? && s.request.value.position == Some(p.ticket) &&
              s.request.value.orderType == orderType && s.request.value.volume == Some(p.volume) &&
              s.request.value.price == (if orderType == Buy then tick.value.ask else tick.value.bid)
    ensures !s.outcome.raised
  {
    match tick
    case None => Submission(None, SendOutcome(false, None, 0, false))
    case Some(t) =>
      var price := if orderType == Buy then t.ask else t.bid;
      var request := Deal(symbol, Some(p.volume), orderType, price, None, None, Some(p.ticket),
                          Config.DeviationPips, Config.MagicNumber,
                          if orderType == Buy then "CERRAR VENTA" else "CERRAR COMPRA");
      Submission(Some(request), Send(LogsVolume, request, maxRetries, broker, start))
  }

  /** No reply is read beyond the retry budget: replies at or after
      start + maxRetries never influence the outcome. */
  lemma {:induction false} SendIgnoresLaterReplies(report: DoneReport, request: TradeRequest, maxRetries: nat,
                                                   b1: nat -> TradeResult, b2: nat -> TradeResult, start: nat)
    requires forall k :: start <= k < start + maxRetries ==> b1(k) == b2(k)
    ensures Send(report, request, maxRetries, b1, start) == Send(report, request, maxRetries, b2, start)
    decreases maxRetries
  {
    if maxRetries > 0 {
      var reply := b1(start);
      assert reply == b2(start);
      SendStep(report, request, maxRetries, b1, start);
      SendStep(report, request, maxRetries, b2, start);
      if !Accepted(reply.retcode) {
        SendIgnoresLaterReplies(report, request, maxRetries - 1, b1, b2, start + 1);
      }
    }
  }

  /** One attempt of the retry loop. */
  lemma SendStep(report: DoneReport, request: TradeRequest, maxRetries: nat, broker: nat -> TradeResult, start: nat)
    requires maxRetries > 0
    ensures var o := Send(report, request, maxRetries, broker, start);
            var reply := broker(start);
            (reply.retcode == RetcodeDone && DoneRaises(report, request) ==> o == SendOutcome(false, None, 1, true)) &&
            (Accepted(reply.retcode) && !(reply.retcode == RetcodeDone && DoneRaises(report, request)) ==>
               o == SendOutcome(true, Some(reply), 1, false)) &&
            (!Accepted(reply.retcode) ==>
               o == Send(report, request, maxRetries - 1, broker, start + 1).(used := Send(report, request, maxRetries - 1, broker, start + 1).used + 1))
  {
  }

  /** The two reports agree on every request with a volume, and neither
      raises on one. */
  lemma {:induction false} ReportsAgreeWithVolume(request: TradeRequest, maxRetries: nat,
                                                  broker: nat -> TradeResult, start: nat)
    requires HasVolume(request)
    ensures Send(LogsVolume, request, maxRetries, broker, start) == Send(OmitsVolume, request, maxRetries, broker, start)
    ensures !Send(LogsVolume, request, maxRetries, broker, start).raised
    decreases maxRetries
  {
    if maxRetries > 0 && !Accepted(broker(start).retcode) {
      ReportsAgreeWithVolume(request, maxRetries - 1, broker, start + 1);
    }
  }
}

=== FILE: py_text.dfy ===
/** The part of Python's `str` the reply parser uses: `isspace`, `strip`,
    `split()` without arguments and `upper`. Positions are scanned with
    SkipSpaces and SkipWord, so one scan serves all three operations. */
module PyText {
  /** Python's `str.isspace` for a single character (the Unicode white
      space and separator characters). */
  predicate IsSpace(c: char) {
    ('\U{0009}' <= c <= '\U{000D}') || ('\U{001C}' <= c <= '\U{001F}') || c == ' '
    || c == '\U{0085}' || c == '\U{00A0}' || c == '\U{1680}'
    || ('\U{2000}' <= c <= '\U{200A}') || c == '\U{2028}' || c == '\U{2029}'
    || c == '\U{202F}' || c == '\U{205F}' || c == '\U{3000}'
  }

  /** The first index at or after i that does not hold white space. */
  function SkipSpaces(s: string, i: nat): (j: nat)
    requires i <= |s|
    ensures i <= j <= |s|
    ensures forall k :: i <= k < j ==> IsSpace(s[k])
    ensures j < |s| ==> !IsSpace(s[j])
    decreases |s| - i
  {
    if i == |s| || !IsSpace(s[i]) then i else SkipSpaces(s, i + 1)
  }

  /** The first index at or after i that holds white space. */
  function SkipWord(s: string, i: nat): (j: nat)
    requires i <= |s|
    ensures i <= j <= |s|
    ensures forall k :: i <= k < j ==> !IsSpace(s[k])
    ensures j < |s| ==> IsSpace(s[j])
    decreases |s| - i
  {
    if i == |s| || IsSpace(s[i]) then i else SkipWord(s, i + 1)
  }

  /** The end of s once trailing white space is removed. */
  function TrimEnd(s: string, n: nat): (m: nat)
    requires n <= |s|
    ensures m <= n
    ensures forall k :: m <= k < n ==> IsSpace(s[k])
    ensures m > 0 ==> !IsSpace(s[m - 1])
  {
    if n == 0 || !IsSpace(s[n - 1]) then n else TrimEnd(s, n - 1)
  }

  /** `s.strip()`. */
  function Strip(s: string): (t: string)
    ensures |t| <= |s|
  {
    var i := SkipSpaces(s, 0);
    var j := TrimEnd(s, |s|);
    if i < j then s[i..j] else []
  }

  /** The words of s from index i on, as `s.split()` finds them. */
  function SplitFrom(s: string, i: nat): (ws: seq<string>)
    requires i <= |s|
    ensures forall k :: 0 <= k < |ws| ==> |ws[k]| > 0
    decreases |s| - i
  {
    var j := SkipSpaces(s, i);
    if j == |s| then []
    else
      var k := SkipWord(s, j);
      [s[j..k]] + SplitFrom(s, k)
  }

  /** `s.split()`: maximal runs of non-white-space characters. */
  function Split(s: string): (ws: seq<string>)
    ensures forall k :: 0 <= k < |ws| ==> |ws[k]| > 0
  {
    SplitFrom(s, 0)
  }

  /** `c.upper()` for the characters whose upper case is a single ASCII
      letter: a-z, the dotless i (upper case I) and the long s (upper case
      S). Every other character is kept, where Python would change it
      ('é' becomes 'É') or expand it ('ß' becomes 'SS'); none of those can
      occur in a word whose upper case is BUY or SELL, and no upper case
      adds or removes white space. */
  function UpperChar(c: char): (u: char)
    ensures IsSpace(u) <==> IsSpace(c)
  {
    if 'a' <= c <= 'z' then (c as int - 32) as char
    else if c == '\U{0131}' then 'I'
    else if c == '\U{017F}' then 'S'
    else c
  }

  /** `s.upper()` as far as UpperChar follows it, character by character. */
  function Upper(s: string): (u: string)
    ensures |u| == |s|
    ensures forall k :: 0 <= k < |s| ==> u[k] == UpperChar(s[k])
  {
    seq(|s|, k requires 0 <= k < |s| => UpperChar(s[k]))
  }

  /** The first word of s, or the empty string when s is all white space. */
  function FirstWord(s: string): (w: string)
    ensures forall k :: 0 <= k < |w| ==> !IsSpace(w[k])
  {
    var i := SkipSpaces(s, 0);
    s[i..SkipWord(s, i)]
  }

  // ----- lemmas -----

  /** `split()` has a first word exactly when s holds a non-space character,
      and that word is FirstWord(s). */
  lemma SplitHead(s: string)
    ensures |Split(s)| > 0 <==> |FirstWord(s)| > 0
    ensures |Split(s)| > 0 ==> Split(s)[0] == FirstWord(s)
  {
  }

  lemma {:induction false} UpperSkipSpaces(s: string, i: nat)
    requires i <= |s|
    ensures SkipSpaces(Upper(s), i) == SkipSpaces(s, i)
    decreases |s| - i
  {
    if i < |s| && IsSpace(s[i]) {
      UpperSkipSpaces(s, i + 1);
    }
  }

  lemma {:induction false} UpperSkipWord(s: string, i: nat)
    requires i <= |s|
    ensures SkipWord(Upper(s), i) == SkipWord(s, i)
    decreases |s| - i
  {
    if i < |s| && !IsSpace(s[i]) {
      UpperSkipWord(s, i + 1);
    }
  }

  /** Upper-casing and taking the first word commute. */
  lemma UpperFirstWord(s: string)
    ensures FirstWord(Upper(s)) == Upper(FirstWord(s))
  {
    UpperSkipSpaces(s, 0);
    var i := SkipSpaces(s, 0);
    UpperSkipWord(s, i);
  }

  /** Stripping before splitting leaves the first word unchanged. */
  lemma StripFirstWord(s: string)
    ensures FirstWord(Strip(s)) == FirstWord(s)
  {
    var i := SkipSpaces(s, 0);
    var j := TrimEnd(s, |s|);
    var w := SkipWord(s, i);
    if i < j {
      var t := s[i..j];
      assert SkipSpaces(t, 0) == 0;
      SkipWordStops(s, i, j);
      SkipWordShift(s, i, j, 0);
      assert SkipWord(t, 0) == w - i;
      assert t[0..SkipWord(t, 0)] == s[i..w];
    } else {
      assert Strip(s) == [];
    }
  }

  /** A scan for white space stops at the latest at the next space. */
  lemma {:induction false} SkipWordStops(s: string, i: nat, m: nat)
    requires i <= m <= |s|
    requires m < |s| ==> IsSpace(s[m])
    ensures SkipWord(s, i) <= m
    decreases m - i
  {
    if i < m && !IsSpace(s[i]) {
      SkipWordStops(s, i + 1, m);
    }
  }

  /** SkipWord on the slice s[i..j] is SkipWord on s, shifted by i, as long as
      the word ends inside the slice. */
  lemma {:induction false} SkipWordShift(s: string, i: nat, j: nat, k: nat)
    requires i <= j <= |s| && k <= j - i
    requires SkipWord(s, i + k) <= j
    ensures SkipWord(s[i..j], k) == SkipWord(s, i + k) - i
    decreases j - i - k
  {
    var t := s[i..j];
    if k < j - i && !IsSpace(t[k]) {
      assert t[k] == s[i + k];
      SkipWordShift(s, i, j, k + 1);
    } else if k < j - i {
      assert t[k] == s[i + k];
    }
  }
}

=== FILE: real_math.dfy ===
/** Arithmetic helpers over unbounded reals: sums, means, windows, the
    IEEE-style partial quotient and Python's round-half-to-even. */
module RealMath {
  import opened Wrappers

  function Abs(x: real): real {
    if x < 0.0 then -x else x
  }

  function Max(a: real, b: real): real {
    if a >= b then a else b
  }

  function Min(a: real, b: real): real {
    if a <= b then a else b
  }

  function Max3(a: real, b: real, c: real): real {
    Max(Max(a, b), c)
  }

  /** Sum of a sequence, accumulated from the left (as pandas' sum). */
  function Sum(xs: seq<real>): real
    decreases |xs|
  {
    if |xs| == 0 then 0.0 else Sum(xs[..|xs| - 1]) + xs[|xs| - 1]
  }

  function Mean(xs: seq<real>): real
    requires |xs| > 0
  {
    Sum(xs) / (|xs| as real)
  }

  /** The last `n` elements: the window of a pandas `rolling(n)` at the last row. */
  function LastN<T>(xs: seq<T>, n: nat): (w: seq<T>)
    requires n <= |xs|
    ensures |w| == n
    ensures forall k :: 0 <= k < n ==> w[k] == xs[|xs| - n + k]
  {
    xs[|xs| - n..]
  }

  /** A quotient. A zero divisor, which IEEE arithmetic turns into an
      infinity or a NaN, makes the quotient undefined. */
  function Div(a: real, b: real): (r: Option<real>)
    ensures r.None? <==> b == 0.0
    ensures r.Some? ==> r.value * b == a
  {
    if b == 0.0 then None else Some(a / b)
  }

  /** Every element moved by c. */
  function Shift(xs: seq<real>, c: real): (ys: seq<real>)
    ensures |ys| == |xs|
    ensures forall k :: 0 <= k < |xs| ==> ys[k] == xs[k] + c
  {
    seq(|xs|, k requires 0 <= k < |xs| => xs[k] + c)
  }

  /** Element-wise difference of two series of equal length. */
  function Minus(xs: seq<real>, zs: seq<real>): (ds: seq<real>)
    requires |xs| == |zs|
    ensures |ds| == |xs|
    ensures forall k :: 0 <= k < |xs| ==> ds[k] == xs[k] - zs[k]
  {
    seq(|xs|, k requires 0 <= k < |xs| => xs[k] - zs[k])
  }

  predicate AllWithin(xs: seq<real>, lo: real, hi: real) {
    forall k :: 0 <= k < |xs| ==> lo <= xs[k] <= hi
  }

  predicate AllNonNegative(xs: seq<real>) {
    forall k :: 0 <= k < |xs| ==> 0.0 <= xs[k]
  }

  /** Python's built-in `round` on a float: to the nearest integer, ties to even. */
  function RoundHalfEven(x: real): (n: int)
    ensures Abs(x - n as real) <= 0.5
    ensures Abs(x - n as real) == 0.5 ==> n % 2 == 0
  {
    var f := x.Floor;
    var d := x - f as real;
    if d < 0.5 then f
    else if d > 0.5 then f + 1
    else if f % 2 == 0 then f
    else f + 1
  }

  /** A product kept behind a name. Proofs that only move products around
      refer to them through Scale and the small lemmas below, which keeps
      the solver's nonlinear arithmetic out of larger contexts. */
  function Scale(c: real, x: real): real {
    c * x
  }

  lemma ScaleNonNegative(c: real, x: real)
    requires c >= 0.0 && x >= 0.0
    ensures Scale(c, x) >= 0.0
  {
  }

  /** Scaling by a non-negative factor keeps an inequality. */
  lemma ScaleLe(c: real, x: real, y: real)
    requires c >= 0.0 && x <= y
    ensures Scale(c, x) <= Scale(c, y)
  {
    assert c * (y - x) >= 0.0;
    assert c * (y - x) == c * y - c * x;
  }

  /** Scaling by a positive factor keeps a strict inequality. */
  lemma ScaleLt(c: real, x: real, y: real)
    requires c > 0.0 && x < y
    ensures Scale(c, x) < Scale(c, y)
  {
    assert c * (y - x) > 0.0;
    assert c * (y - x) == c * y - c * x;
  }

  /** Scaling by a non-zero factor is zero exactly when the value is zero. */
  lemma ScaleZeroIff(c: real, x: real)
    requires c != 0.0
    ensures Scale(c, x) == 0.0 <==> x == 0.0
  {
  }

  lemma ScaleSum(c1: real, c2: real, x: real)
    ensures Scale(c1 + c2, x) == Scale(c1, x) + Scale(c2, x)
  {
  }

  lemma ScaleDistrib(c: real, x: real, y: real)
    ensures Scale(c, x + y) == Scale(c, x) + Scale(c, y)
  {
  }

  lemma ScaleOne(x: real)
    ensures Scale(1.0, x) == x
  {
  }

  /** The weights 1 - a and a add up to one. */
  lemma ScaleComplement(a: real, x: real)
    ensures Scale(1.0 - a, x) + Scale(a, x) == x
  {
  }

  lemma ScaleAssoc(b: real, d: real, x: real)
    ensures Scale(Scale(b, d), x) == Scale(b, Scale(d, x))
  {
  }

  /** Adding two inequalities, with the sums named by the caller. */
  lemma AddLe(u1: real, v1: real, u2: real, v2: real, s: real, t: real)
    requires u1 <= v1 && u2 <= v2
    requires s == u1 + u2 && t == v1 + v2
    ensures s <= t
  {
  }

  /** Splitting off the last element of a sum. */
  lemma SumSnoc(xs: seq<real>, x: real)
    ensures Sum(xs + [x]) == Sum(xs) + x
  {
    assert (xs + [x])[..|xs|] == xs;
  }

  /** A sum of `n` values inside [lo, hi] lies inside [n*lo, n*hi]. */
  lemma {:induction false} SumWithin(xs: seq<real>, lo: real, hi: real)
    requires AllWithin(xs, lo, hi)
    ensures Scale(|xs| as real, lo) <= Sum(xs) <= Scale(|xs| as real, hi)
    decreases |xs|
  {
    if |xs| > 0 {
      var p := xs[..|xs| - 1];
      assert AllWithin(p, lo, hi);
      SumWithin(p, lo, hi);
      ScaleSum(|p| as real, 1.0, lo);
      ScaleSum(|p| as real, 1.0, hi);
      ScaleOne(lo);
      ScaleOne(hi);
    }
  }

  /** The mean of values inside [lo, hi] is inside [lo, hi]. */
  lemma MeanWithin(xs: seq<real>, lo: real, hi: real)
    requires |xs| > 0
    requires AllWithin(xs, lo, hi)
    ensures lo <= Mean(xs) <= hi
  {
    SumWithin(xs, lo, hi);
    DivBounds(Sum(xs), |xs| as real, lo, hi);
  }

  lemma MeanZeroIff(xs: seq<real>)
    requires |xs| > 0
    ensures Mean(xs) == 0.0 <==> Sum(xs) == 0.0
  {
    assert Mean(xs) * (|xs| as real) == Sum(xs);
  }

  lemma DivBounds(s: real, n: real, lo: real, hi: real)
    requires n > 0.0
    requires Scale(n, lo) <= s <= Scale(n, hi)
    ensures lo <= s / n <= hi
  {
    var q := s / n;
    assert n * lo <= s <= n * hi;
    assert q * n == s;
    assert (q - lo) * n >= 0.0;
    assert (hi - q) * n >= 0.0;
  }

  lemma DivOne(s: real, d: real)
    requires d == 1.0
    ensures s / d == s
  {
  }

  lemma DivNonNegative(s: real, n: real)
    requires n > 0.0 && s >= 0.0
    ensures s / n >= 0.0
  {
    var q := s / n;
    assert q * n == s;
  }

  /** A sum of non-negative values is zero exactly when every value is zero. */
  lemma {:induction false} SumZeroIffAllZero(xs: seq<real>)
    requires AllNonNegative(xs)
    ensures Sum(xs) == 0.0 <==> forall k :: 0 <= k < |xs| ==> xs[k] == 0.0
    decreases |xs|
  {
    if |xs| > 0 {
      var p := xs[..|xs| - 1];
      assert AllNonNegative(p);
      SumZeroIffAllZero(p);
      SumNonNegative(p);
      assert (forall k :: 0 <= k < |xs| ==> xs[k] == 0.0) <==>
             (forall k :: 0 <= k < |p| ==> p[k] == 0.0) && xs[|xs| - 1] == 0.0;
    }
  }

  lemma {:induction false} SumNonNegative(xs: seq<real>)
    requires AllNonNegative(xs)
    ensures Sum(xs) >= 0.0
    decreases |xs|
  {
    if |xs| > 0 {
      var p := xs[..|xs| - 1];
      assert AllNonNegative(p);
      SumNonNegative(p);
    }
  }

  /** In a sum of non-negative values, each value is at most the sum. */
  lemma {:induction false} SumAtLeastElement(xs: seq<real>, k: nat)
    requires AllNonNegative(xs)
    requires k < |xs|
    ensures xs[k] <= Sum(xs)
    decreases |xs|
  {
    var p := xs[..|xs| - 1];
    assert AllNonNegative(p);
    SumNonNegative(p);
    if k < |xs| - 1 {
      SumAtLeastElement(p, k);
      assert p[k] == xs[k];
    }
  }
}

=== FILE: report.dfy ===
/** The results the backtests print and the optimizer maximises: profit of
    each trade in price and in points, win rate and profit factor. A trade
    that made exactly nothing counts among the losers, as the source's
    `profit <= 0` filter does. */
module Report {
  import opened Wrappers
  import opened RealMath
  import opened Market
  import opened Simulation

  /** `(exit_price - entry_price) * (1 if BUY else -1)`. */
  function Profit(c: ClosedTrade): (p: real)
    ensures p == (c.exit - c.entry.price) * Direction(c.entry.side)
  {
    if c.entry.side == Buy then c.exit - c.entry.price else c.entry.price - c.exit
  }

  function Profits(ts: seq<ClosedTrade>): (ps: seq<real>)
    ensures |ps| == |ts| && forall k :: 0 <= k < |ts| ==> ps[k] == Profit(ts[k])
  {
    seq(|ts|, k requires 0 <= k < |ts| => Profit(ts[k]))
  }

  /** `profit / symbol_info.point`. */
  function Pips(profits: seq<real>, point: real): (ps: seq<real>)
    requires point > 0.0
    ensures |ps| == |profits|
    ensures forall k :: 0 <= k < |profits| ==> ps[k] * point == profits[k]
  {
    seq(|profits|, k requires 0 <= k < |profits| => profits[k] / point)
  }

  /** The sum over the winning trades. */
  function GrossProfit(xs: seq<real>): real
    decreases |xs|
  {
    if |xs| == 0 then 0.0
    else GrossProfit(xs[..|xs| - 1]) + Gain(xs[|xs| - 1])
  }

  /** What one trade adds to the gross profit and to the gross loss. */
  function Gain(x: real): real { if x > 0.0 then x else 0.0 }

  function Loss(x: real): real { if x <= 0.0 then -x else 0.0 }

  /** `abs` of the sum over the other trades. */
  function GrossLoss(xs: seq<real>): (l: real)
    ensures l >= 0.0
    ensures l == 0.0 <==> forall k :: 0 <= k < |xs| && xs[k] <= 0.0 ==> xs[k] == 0.0
    decreases |xs|
  {
    if |xs| == 0 then 0.0
    else
      var init := xs[..|xs| - 1];
      assert forall k :: 0 <= k < |init| ==> init[k] == xs[k];
      GrossLoss(init) + Loss(xs[|xs| - 1])
  }

  /** The number of winning trades. */
  function Winners(xs: seq<real>): (w: nat)
    ensures w <= |xs|
    ensures w == |xs| <==> forall k :: 0 <= k < |xs| ==> xs[k] > 0.0
    decreases |xs|
  {
    if |xs| == 0 then 0
    else
      var init := xs[..|xs| - 1];
      assert forall k :: 0 <= k < |init| ==> init[k] == xs[k];
      Winners(init) + (if xs[|xs| - 1] > 0.0 then 1 else 0)
  }

  /** The profit factor; `float('inf')` when nothing was lost. */
  datatype Factor = Finite(value: real) | Infinite

  function ProfitFactor(xs: seq<real>): (f: Factor)
    ensures f.Infinite? <==> forall k :: 0 <= k < |xs| && xs[k] <= 0.0 ==> xs[k] == 0.0
    ensures f.Finite? ==> f.value * GrossLoss(xs) == GrossProfit(xs)
  {
    var loss := GrossLoss(xs);
    if loss > 0.0 then Finite(GrossProfit(xs) / loss) else Infinite
  }

  /** `len(winning) / total * 100`, and 0 without trades. */
  function WinRate(xs: seq<real>): (r: real)
    ensures 0.0 <= r <= 100.0
    ensures |xs| > 0 ==> (r == 100.0 <==> forall k :: 0 <= k < |xs| ==> xs[k] > 0.0)
    ensures r == 0.0 <==> forall k :: 0 <= k < |xs| ==> xs[k] <= 0.0
  {
    if |xs| == 0 then 0.0
    else
      WinnersZeroIff(xs);
      var w := Winners(xs) as real;
      var n := |xs| as real;
      DivBounds(w, n, 0.0, 1.0);
      DivEqOne(w, n);
      ScaleLe(100.0, w / n, 1.0);
      ScaleNonNegative(100.0, w / n);
      ScaleZeroIff(100.0, w / n);
      Scale(100.0, w / n)
  }

  lemma DivEqOne(w: real, n: real)
    requires n > 0.0
    ensures w / n == 1.0 <==> w == n
  {
    var q := w / n;
    assert q * n == w;
  }

  lemma {:induction false} WinnersZeroIff(xs: seq<real>)
    ensures Winners(xs) == 0 <==> forall k :: 0 <= k < |xs| ==> xs[k] <= 0.0
    decreases |xs|
  {
    if |xs| > 0 {
      var init := xs[..|xs| - 1];
      WinnersZeroIff(init);
      assert forall k :: 0 <= k < |init| ==> init[k] == xs[k];
    }
  }

  /** What a backtest prints; None where it prints that no trade was made. */
  datatype Summary = Summary(total: nat, winRate: real, netPips: real, factor: Factor)

  function Summarise(trades: seq<ClosedTrade>, point: real): (s: Option<Summary>)
    requires point > 0.0
    ensures s.None? <==> |trades| == 0
    ensures s.Some? ==> s.value.total == |trades| && 0.0 <= s.value.winRate <= 100.0
    ensures s.Some? ==> s.value.factor == ProfitFactor(Profits(trades))
    ensures s.Some? ==> s.value.netPips * point == Sum(Profits(trades))
  {
    if |trades| == 0 then None
    else
      var pips := Pips(Profits(trades), point);
      PipFactorMatchesPriceFactor(Profits(trades), point);
      Some(Summary(|trades|, WinRate(Profits(trades)), NetPips(trades, point), ProfitFactor(pips)))
  }

  /** `df_trades['pips'].sum()`: the net result in points, which is the net
      profit in price over the point. */
  function NetPips(trades: seq<ClosedTrade>, point: real): (n: real)
    requires point > 0.0
    ensures n * point == Sum(Profits(trades))
  {
    SumInPips(Profits(trades), point);
    Sum(Pips(Profits(trades), point))
  }

  /** The optimizer's objective: the profit factor in price units, 0.0
      without trades. */
  function Objective(trades: seq<ClosedTrade>): (f: Factor)
    ensures |trades| == 0 ==> f == Finite(0.0)
    ensures f.Infinite? ==> |trades| > 0 && forall k :: 0 <= k < |trades| && Profit(trades[k]) <= 0.0 ==> Profit(trades[k]) == 0.0
  {
    if |trades| == 0 then Finite(0.0) else ProfitFactor(Profits(trades))
  }

  // ----- points against price -----

  lemma DivPositiveSign(x: real, point: real)
    requires point > 0.0
    ensures x / point > 0.0 <==> x > 0.0
    ensures x / point <= 0.0 <==> x <= 0.0
  {
    var q := x / point;
    assert q * point == x;
  }

  lemma DivAdd(a: real, b: real, point: real)
    requires point > 0.0
    ensures (a + b) / point == a / point + b / point
  {
  }

  lemma PipsInit(xs: seq<real>, point: real)
    requires point > 0.0 && |xs| > 0
    ensures Pips(xs, point)[..|xs| - 1] == Pips(xs[..|xs| - 1], point)
  {
  }

  lemma GainInPips(x: real, point: real)
    requires point > 0.0
    ensures Gain(x / point) == Gain(x) / point
  {
    DivPositiveSign(x, point);
  }

  lemma LossInPips(x: real, point: real)
    requires point > 0.0
    ensures Loss(x / point) == Loss(x) / point
  {
    DivPositiveSign(x, point);
    assert (-x) / point == -(x / point);
  }

  lemma {:induction false} GrossProfitInPips(xs: seq<real>, point: real)
    requires point > 0.0
    ensures GrossProfit(Pips(xs, point)) == GrossProfit(xs) / point
    decreases |xs|
  {
    if |xs| > 0 {
      var init := xs[..|xs| - 1];
      var x := xs[|xs| - 1];
      var ps := Pips(xs, point);
      GrossProfitInPips(init, point);
      PipsInit(xs, point);
      assert ps[|xs| - 1] == x / point;
      GainInPips(x, point);
      assert GrossProfit(ps) == GrossProfit(init) / point + Gain(x) / point;
      DivAdd(GrossProfit(init), Gain(x), point);
    }
  }

  /** The net result in points is the net result in price over the point. */
  lemma {:induction false} SumInPips(xs: seq<real>, point: real)
    requires point > 0.0
    ensures Sum(Pips(xs, point)) * point == Sum(xs)
    decreases |xs|
  {
    if |xs| > 0 {
      var init := xs[..|xs| - 1];
      var ps := Pips(xs, point);
      SumInPips(init, point);
      PipsInit(xs, point);
      assert Sum(ps) == Sum(Pips(init, point)) + ps[|xs| - 1];
      assert ps[|xs| - 1] * point == xs[|xs| - 1];
      assert Sum(ps) * point == Sum(Pips(init, point)) * point + ps[|xs| - 1] * point;
    }
  }

  lemma {:induction false} GrossLossInPips(xs: seq<real>, point: real)
    requires point > 0.0
    ensures GrossLoss(Pips(xs, point)) == GrossLoss(xs) / point
    decreases |xs|
  {
    if |xs| > 0 {
      var init := xs[..|xs| - 1];
      var x := xs[|xs| - 1];
      var ps := Pips(xs, point);
      GrossLossInPips(init, point);
      PipsInit(xs, point);
      assert ps[|xs| - 1] == x / point;
      LossInPips(x, point);
      assert GrossLoss(ps) == GrossLoss(init) / point + Loss(x) / point;
      DivAdd(GrossLoss(init), Loss(x), point);
    }
  }

  /** Counting in points instead of price changes no profit factor: the
      backtests' factor in pips equals the optimizer's in price. */
  lemma PipFactorMatchesPriceFactor(xs: seq<real>, point: real)
    requires point > 0.0
    ensures ProfitFactor(Pips(xs, point)) == ProfitFactor(xs)
    ensures WinRate(Pips(xs, point)) == WinRate(xs)
  {
    GrossProfitInPips(xs, point);
    GrossLossInPips(xs, point);
    var gp := GrossProfit(xs);
    var gl := GrossLoss(xs);
    DivPositiveSign(gl, point);
    if gl > 0.0 {
      QuotientOfScaled(gp, gl, point);
    }
    WinnersInPips(xs, point);
  }

  lemma QuotientOfScaled(a: real, b: real, point: real)
    requires point > 0.0 && b != 0.0
    ensures (a / point) / (b / point) == a / b
  {
    var q := a / b;
    assert q * b == a;
    assert (q * b) / point == q * (b / point);
  }

  lemma {:induction false} WinnersInPips(xs: seq<real>, point: real)
    requires point > 0.0
    ensures Winners(Pips(xs, point)) == Winners(xs)
    decreases |xs|
  {
    if |xs| > 0 {
      var init := xs[..|xs| - 1];
      WinnersInPips(init, point);
      PipsInit(xs, point);
      DivPositiveSign(xs[|xs| - 1], point);
    }
  }

  // ----- trades and their levels -----

  /** The stop-loss on the losing side of the entry price and the
      take-profit on the winning side. */
  predicate Oriented(e: Entry) {
    if e.side == Buy then e.sl < e.price < e.tp else e.tp < e.price < e.sl
  }

  /** A trade with its levels around the entry price wins exactly when it
      leaves at the take-profit. */
  lemma WinIffTarget(c: ClosedTrade)
    requires Oriented(c.entry)
    requires c.exit == (if c.hitTarget then c.entry.tp else c.entry.sl)
    ensures Profit(c) > 0.0 <==> c.hitTarget
  {
  }

  /** An entry bracketed by a positive ATR and positive multipliers is oriented. */
  lemma BracketOriented(side: Side, price: real, atr: real, slMult: real, tpMult: real)
    requires atr > 0.0 && slMult > 0.0 && tpMult > 0.0
    ensures var b := Bracket(side, price, atr, slMult, tpMult);
            Oriented(Entry(side, price, b.0, b.1))
  {
    ScalePositive(atr, slMult);
    ScalePositive(atr, tpMult);
  }

  lemma ScalePositive(c: real, x: real)
    requires c > 0.0 && x > 0.0
    ensures Scale(c, x) > 0.0
  {
  }
}

=== FILE: risk_sizing.dfy ===
/** Position sizing (`calculate_universal_lot_size`, mt5_manager.py): the
    loss of one lot at the ATR-based stop, converted to the account
    currency, turns a fixed fraction of the balance into a volume that is
    clamped to the symbol's bounds, quantised to its step and floored again. */
module RiskSizing {
  import opened Wrappers
  import opened RealMath
  import opened Market
  import Config

  /** The loss of one lot in the account currency. When the quote currency
      differs, the forward pair's ask multiplies it if positive, otherwise the
      backward pair's bid divides it if positive; `quotes` holds the ticks
      `symbol_info_tick` would find, by pair name. */
  function LossInAccountCurrency(lossQuote: real, quoteCurrency: string, accountCurrency: string,
                                 quotes: map<string, Tick>): (r: Option<real>)
    ensures quoteCurrency == accountCurrency ==> r == Some(lossQuote)
    ensures r.None? <==> quoteCurrency != accountCurrency && !ConversionQuoted(quoteCurrency, accountCurrency, quotes)
  {
    if quoteCurrency == accountCurrency then Some(lossQuote)
    else
      var forward := quoteCurrency + accountCurrency;
      var backward := accountCurrency + quoteCurrency;
      if forward in quotes && quotes[forward].ask > 0.0 then Some(Scale(lossQuote, quotes[forward].ask))
      else if backward in quotes && quotes[backward].bid > 0.0 then Some(lossQuote / quotes[backward].bid)
      else None
  }

  /** Some conversion pair between the two currencies has a usable quote. */
  predicate ConversionQuoted(quoteCurrency: string, accountCurrency: string, quotes: map<string, Tick>) {
    var forward := quoteCurrency + accountCurrency;
    var backward := accountCurrency + quoteCurrency;
    (forward in quotes && quotes[forward].ask > 0.0) || (backward in quotes && quotes[backward].bid > 0.0)
  }

  /** `round(lot / step) * step` when the step is positive, else the lot itself. */
  function Quantise(lot: real, step: real): real {
    if step > 0.0 then Steps(RoundHalfEven(lot / step), step) else lot
  }

  /** k whole steps of the given size. */
  function Steps(k: int, step: real): real {
    Scale(k as real, step)
  }

  /** The loss of one lot at the stop distance atr * SL_ATR_MULT, in the quote currency. */
  function LossPerLot(info: SymbolInfo, atr: real): real {
    Scale(Scale(atr, Config.SlAtrMult), info.contractSize)
  }

  /** The lot before the final floor: balance * RISK_PERCENT / loss, clamped
      to [volume_min, volume_max] and quantised. */
  function RiskLot(info: SymbolInfo, account: Account, loss: real): real
    requires loss > 0.0
  {
    var desired := Scale(account.balance, Config.RiskPercent) / loss;
    Quantise(Max(info.volumeMin, Min(desired, info.volumeMax)), info.volumeStep)
  }

  /** `calculate_universal_lot_size`. `info` is `symbol_info` (None when the
      terminal has none) and `atr` the ATR the caller passes, which is None
      when the caller's indicator had too few bars: multiplying None raises,
      and the handler answers None. */
  function LotSize(info: Option<SymbolInfo>, account: Account, atr: Option<real>,
                   quotes: map<string, Tick>): (lot: Option<real>)
    ensures lot.Some? ==> info.Some? && atr.Some? && lot.value >= info.value.volumeMin
  {
    if info.None? || atr.None? then None
    else
      var si := info.value;
      match LossInAccountCurrency(LossPerLot(si, atr.value), si.currencyMargin, account.currency, quotes)
      case None => None
      case Some(loss) =>
        if loss <= 0.0 then Some(si.volumeMin)
        else Some(Max(si.volumeMin, RiskLot(si, account, loss)))
  }

  // ----- lemmas -----

  /** No lot is computed exactly when the symbol is unknown, the ATR is
      missing, or the currencies differ and neither conversion pair quotes. */
  lemma LotSizeNoneIff(info: Option<SymbolInfo>, account: Account, atr: Option<real>, quotes: map<string, Tick>)
    ensures LotSize(info, account, atr, quotes).None? <==>
            info.None? || atr.None? ||
            (info.value.currencyMargin != account.currency &&
             !ConversionQuoted(info.value.currencyMargin, account.currency, quotes))
  {
  }

  /** A loss per lot that is zero or negative yields volume_min rather than
      no lot. */
  lemma NonPositiveLossGivesMinimum(info: SymbolInfo, account: Account, atr: real, quotes: map<string, Tick>)
    requires var loss := LossInAccountCurrency(LossPerLot(info, atr), info.currencyMargin, account.currency, quotes);
             loss.Some? && loss.value <= 0.0
    ensures LotSize(Some(info), account, Some(atr), quotes) == Some(info.volumeMin)
  {
  }

  /** Quantising moves a lot by at most half a step. */
  lemma QuantiseWithinHalfStep(lot: real, step: real)
    requires step > 0.0
    ensures Abs(Quantise(lot, step) - lot) <= step / 2.0
  {
    var x := lot / step;
    var q := RoundHalfEven(x) as real;
    assert x * step == lot;
    HalfStepBound(q, x, step);
  }

  lemma HalfStepBound(q: real, x: real, step: real)
    requires step > 0.0 && Abs(x - q) <= 0.5
    ensures Abs(Scale(q, step) - x * step) <= step / 2.0
  {
    var d := q - x;
    assert Scale(q, step) - x * step == d * step;
    if d >= 0.0 {
      assert d * step <= 0.5 * step;
    } else {
      assert (-d) * step <= 0.5 * step;
    }
  }

  /** The computed lot lies within half a step of the clamped risk lot
      max(volume_min, min(balance * RISK_PERCENT / loss, volume_max)), and so
      in [volume_min, volume_max + step / 2]: the final floor only pulls a
      lot rounded below volume_min back towards the clamped lot. */
  lemma LotSizeNearClampedLot(info: SymbolInfo, account: Account, atr: real, quotes: map<string, Tick>)
    requires info.volumeStep > 0.0 && info.volumeMin <= info.volumeMax
    requires LotSize(Some(info), account, Some(atr), quotes).Some?
    ensures var lot := LotSize(Some(info), account, Some(atr), quotes).value;
            info.volumeMin <= lot <= info.volumeMax + info.volumeStep / 2.0
    ensures var lot := LotSize(Some(info), account, Some(atr), quotes).value;
            var loss := LossInAccountCurrency(LossPerLot(info, atr), info.currencyMargin, account.currency, quotes).value;
            loss > 0.0 ==>
              Abs(lot - Max(info.volumeMin, Min(Scale(account.balance, Config.RiskPercent) / loss, info.volumeMax)))
                <= info.volumeStep / 2.0
    ensures var loss := LossInAccountCurrency(LossPerLot(info, atr), info.currencyMargin, account.currency, quotes).value;
            loss <= 0.0 ==> LotSize(Some(info), account, Some(atr), quotes).value == info.volumeMin
  {
    var loss := LossInAccountCurrency(LossPerLot(info, atr), info.currencyMargin, account.currency, quotes).value;
    if loss > 0.0 {
      var desired := Scale(account.balance, Config.RiskPercent) / loss;
      var clamped := Max(info.volumeMin, Min(desired, info.volumeMax));
      QuantiseWithinHalfStep(clamped, info.volumeStep);
    }
  }

  /** With a positive step the computed lot is volume_min or a whole number
      of steps: the final floor is the only thing that leaves the grid. */
  lemma LotSizeOnStepGrid(info: SymbolInfo, account: Account, atr: real, quotes: map<string, Tick>)
    requires info.volumeStep > 0.0
    requires LotSize(Some(info), account, Some(atr), quotes).Some?
    ensures var lot := LotSize(Some(info), account, Some(atr), quotes).value;
            lot == info.volumeMin || exists k: int :: lot == Steps(k, info.volumeStep)
  {
    var lot := LotSize(Some(info), account, Some(atr), quotes).value;
    var loss := LossInAccountCurrency(LossPerLot(info, atr), info.currencyMargin, account.currency, quotes).value;
    if loss > 0.0 && lot != info.volumeMin {
      var desired := Scale(account.balance, Config.RiskPercent) / loss;
      var clamped := Max(info.volumeMin, Min(desired, info.volumeMax));
      var k := RoundHalfEven(clamped / info.volumeStep);
      assert lot == Steps(k, info.volumeStep);
    }
  }

  /** Only the floor is re-applied after rounding: with volume_max = 1 and a
      step of 0.6, a large desired lot rounds up to 1.2, above volume_max. */
  lemma LotSizeCanExceedVolumeMax()
    ensures var info := SymbolInfo(1.0, "USD", 0.6, 1.0, 0.6, 0.00001);
            LotSize(Some(info), Account(1000000.0, "USD"), Some(0.001), map[]) == Some(1.2)
  {
    var info := SymbolInfo(1.0, "USD", 0.6, 1.0, 0.6, 0.00001);
    var loss := LossPerLot(info, 0.001);
    assert loss == 0.001 * Config.SlAtrMult;
    var desired := Scale(1000000.0, Config.RiskPercent) / loss;
    assert desired > 1.0;
    assert Max(0.6, Min(desired, 1.0)) == 1.0;
    assert RoundHalfEven(1.0 / 0.6) == 2;
  }
}

=== FILE: simulation.dfy ===
/** The bar-by-bar trade simulation the backtests and the ML data generator
    share: at most one trade is open; each later bar first tests the open
    trade's stop-loss and take-profit against its low and high, and a flat
    book takes the entry the strategy offers at that bar. What a strategy
    would enter at each bar is computed beforehand as `offers`. */
module Simulation {
  import opened Wrappers
  import opened RealMath
  import opened Market

  /** An entry the strategy offers at a bar: side, price, stop-loss, take-profit. */
  datatype Entry = Entry(side: Side, price: real, sl: real, tp: real)

  /** Which exit a bar that touches both levels counts: the backtests test
      the stop first, the data generator the target. */
  datatype ExitRule = StopFirst | TargetFirst

  /** `reenterOnExit`: whether a bar that closes a trade may open the next
      one (the backtests `continue` past it; the data generator does not). */
  datatype Policy = Policy(rule: ExitRule, reenterOnExit: bool)

  const Backtest: Policy := Policy(StopFirst, false)
  const Labelling: Policy := Policy(TargetFirst, true)

  datatype OpenTrade = OpenTrade(entry: Entry, index: nat)

  /** A finished trade; `hitTarget` tells whether it left at the take-profit. */
  datatype ClosedTrade = ClosedTrade(entry: Entry, entryIndex: nat, exit: real, exitIndex: nat, hitTarget: bool)

  datatype Book = Book(open: Option<OpenTrade>, closed: seq<ClosedTrade>)

  /** The stop-loss and take-profit `slMult` and `tpMult` ATRs from the
      entry price, below and above it for a buy, mirrored for a sell. */
  function Bracket(side: Side, price: real, atr: real, slMult: real, tpMult: real): (b: (real, real))
    ensures atr >= 0.0 && slMult >= 0.0 && tpMult >= 0.0 ==>
              (side == Buy ==> b.0 <= price <= b.1) && (side == Sell ==> b.1 <= price <= b.0)
    ensures Abs(b.0 - price) == Abs(Scale(atr, slMult)) && Abs(b.1 - price) == Abs(Scale(atr, tpMult))
  {
    if side == Buy then (price - Scale(atr, slMult), price + Scale(atr, tpMult))
    else (price + Scale(atr, slMult), price - Scale(atr, tpMult))
  }

  predicate HitsStop(e: Entry, b: Bar) {
    if e.side == Buy then b.low <= e.sl else b.high >= e.sl
  }

  predicate HitsTarget(e: Entry, b: Bar) {
    if e.side == Buy then b.high >= e.tp else b.low <= e.tp
  }

  /** The exit a bar causes: Some(true) at the take-profit, Some(false) at
      the stop-loss, None when the bar reaches neither. */
  function ExitOn(rule: ExitRule, e: Entry, b: Bar): (r: Option<bool>)
    ensures r.None? <==> !HitsStop(e, b) && !HitsTarget(e, b)
    ensures r == Some(true) ==> HitsTarget(e, b)
    ensures r == Some(false) ==> HitsStop(e, b)
    ensures HitsStop(e, b) && HitsTarget(e, b) ==> r == Some(rule == TargetFirst)
  {
    match rule
    case StopFirst =>
      if HitsStop(e, b) then Some(false) else if HitsTarget(e, b) then Some(true) else None
    case TargetFirst =>
      if HitsTarget(e, b) then Some(true) else if HitsStop(e, b) then Some(false) else None
  }

  function Close(t: OpenTrade, hit: bool, i: nat): ClosedTrade {
    ClosedTrade(t.entry, t.index, if hit then t.entry.tp else t.entry.sl, i, hit)
  }

  /** One iteration of the simulation loop at bar `i`. */
  function Step(policy: Policy, book: Book, bar: Bar, offer: Option<Entry>, i: nat): Book {
    match book.open
    case Some(t) =>
      (match ExitOn(policy.rule, t.entry, bar)
       case None => book
       case Some(hit) =>
         var closed := book.closed + [Close(t, hit, i)];
         if policy.reenterOnExit && offer.Some? then Book(Some(OpenTrade(offer.value, i)), closed)
         else Book(None, closed))
    case None =>
      if offer.Some? then Book(Some(OpenTrade(offer.value, i)), book.closed) else book
  }

  /** The book after the first `n` bars. */
  function Run(policy: Policy, bars: seq<Bar>, offers: seq<Option<Entry>>, n: nat): Book
    requires |offers| == |bars| && n <= |bars|
  {
    if n == 0 then Book(None, [])
    else Step(policy, Run(policy, bars, offers, n - 1), bars[n - 1], offers[n - 1], n - 1)
  }

  /** The trades a simulation over all bars records; a trade still open at
      the last bar is not among them. */
  function Trades(policy: Policy, bars: seq<Bar>, offers: seq<Option<Entry>>): seq<ClosedTrade>
    requires |offers| == |bars|
  {
    Run(policy, bars, offers, |bars|).closed
  }

  // ----- what every run satisfies -----

  /** Strictly after, or also at the same bar when re-entry is allowed. */
  predicate Follows(reenter: bool, a: nat, b: nat) {
    if reenter then a <= b else a < b
  }

  /** Neither level is reached on any bar strictly between `from` and `to`. */
  predicate Quiet(e: Entry, bars: seq<Bar>, from: nat, to: nat)
    requires to <= |bars|
  {
    forall k :: from < k < to ==> !HitsStop(e, bars[k]) && !HitsTarget(e, bars[k])
  }

  /** A closed trade was offered at its entry bar, left at the first later
      bar that reached a level, at that level, by the exit rule. */
  predicate Faithful(rule: ExitRule, bars: seq<Bar>, offers: seq<Option<Entry>>, c: ClosedTrade)
    requires |offers| == |bars|
  {
    c.entryIndex < c.exitIndex < |bars| &&
    offers[c.entryIndex] == Some(c.entry) &&
    ExitOn(rule, c.entry, bars[c.exitIndex]) == Some(c.hitTarget) &&
    c.exit == (if c.hitTarget then c.entry.tp else c.entry.sl) &&
    Quiet(c.entry, bars, c.entryIndex, c.exitIndex)
  }

  /** The open trade was offered at its entry bar and no bar since reached a level. */
  predicate StillOpen(bars: seq<Bar>, offers: seq<Option<Entry>>, t: OpenTrade, n: nat)
    requires |offers| == |bars| && n <= |bars|
  {
    t.index < n && offers[t.index] == Some(t.entry) && Quiet(t.entry, bars, t.index, n)
  }

  /** Bar i lies within the span of a recorded trade or of the open one. */
  predicate Covered(book: Book, i: nat) {
    (exists j :: 0 <= j < |book.closed| && book.closed[j].entryIndex <= i <= book.closed[j].exitIndex) ||
    (book.open.Some? && book.open.value.index <= i)
  }

  /** Trades follow one another: each exits after it entered, and the next
      one enters after the previous exit. */
  predicate Ordered(reenter: bool, book: Book, n: nat) {
    (forall j :: 0 <= j < |book.closed| ==> book.closed[j].entryIndex < book.closed[j].exitIndex < n) &&
    (forall j :: 0 < j < |book.closed| ==>
       Follows(reenter, book.closed[j - 1].exitIndex, book.closed[j].entryIndex)) &&
    (book.open.Some? ==>
       (book.open.value.index < n &&
        (|book.closed| > 0 ==> Follows(reenter, book.closed[|book.closed| - 1].exitIndex, book.open.value.index))))
  }

  /** Every recorded trade is faithful, and so far the open one is too. */
  predicate AllFaithful(policy: Policy, bars: seq<Bar>, offers: seq<Option<Entry>>, n: nat, book: Book)
    requires |offers| == |bars| && n <= |bars|
  {
    (forall j :: 0 <= j < |book.closed| ==> Faithful(policy.rule, bars, offers, book.closed[j])) &&
    (book.open.Some? ==> StillOpen(bars, offers, book.open.value, n))
  }

  /** No offer among the first n bars was passed over while flat. */
  predicate AllCovered(offers: seq<Option<Entry>>, n: nat, book: Book)
    requires n <= |offers|
  {
    forall i :: 0 <= i < n && offers[i].Some? ==> Covered(book, i)
  }

  predicate Invariant(policy: Policy, bars: seq<Bar>, offers: seq<Option<Entry>>, n: nat, book: Book)
    requires |offers| == |bars| && n <= |bars|
  {
    Ordered(policy.reenterOnExit, book, n) && AllFaithful(policy, bars, offers, n, book) && AllCovered(offers, n, book)
  }

  lemma StepOrdered(policy: Policy, bars: seq<Bar>, offers: seq<Option<Entry>>, i: nat, book: Book)
    requires |offers| == |bars| && i < |bars|
    requires Ordered(policy.reenterOnExit, book, i)
    ensures Ordered(policy.reenterOnExit, Step(policy, book, bars[i], offers[i], i), i + 1)
  {
  }

  lemma StepFaithful(policy: Policy, bars: seq<Bar>, offers: seq<Option<Entry>>, i: nat, book: Book)
    requires |offers| == |bars| && i < |bars|
    requires AllFaithful(policy, bars, offers, i, book)
    ensures AllFaithful(policy, bars, offers, i + 1, Step(policy, book, bars[i], offers[i], i))
  {
    var r := Step(policy, book, bars[i], offers[i], i);
    if book.open.Some? {
      var t := book.open.value;
      var exit := ExitOn(policy.rule, t.entry, bars[i]);
      if exit.None? {
        assert Quiet(t.entry, bars, t.index, i + 1);
      } else {
        assert r.closed == book.closed + [Close(t, exit.value, i)];
        assert Faithful(policy.rule, bars, offers, Close(t, exit.value, i));
      }
    }
  }

  lemma StepCovers(policy: Policy, bars: seq<Bar>, offers: seq<Option<Entry>>, i: nat, book: Book)
    requires |offers| == |bars| && i < |bars|
    requires Ordered(policy.reenterOnExit, book, i)
    requires AllCovered(offers, i, book)
    ensures AllCovered(offers, i + 1, Step(policy, book, bars[i], offers[i], i))
  {
    var r := Step(policy, book, bars[i], offers[i], i);
    assert r.closed[..|book.closed|] == book.closed;
    forall k | 0 <= k < i + 1 && offers[k].Some?
      ensures Covered(r, k)
    {
      if k < i && !(book.open.Some? && book.open.value.index <= k) {
        assert Covered(book, k);
        var j :| 0 <= j < |book.closed| && book.closed[j].entryIndex <= k <= book.closed[j].exitIndex;
        assert r.closed[j] == book.closed[j];
      } else if book.open.Some? && r.open != book.open {
        var n := |book.closed|;
        assert r.closed[n].entryIndex <= k <= r.closed[n].exitIndex;
      }
    }
  }

  lemma {:induction false} RunOrdered(policy: Policy, bars: seq<Bar>, offers: seq<Option<Entry>>, n: nat)
    requires |offers| == |bars| && n <= |bars|
    ensures Ordered(policy.reenterOnExit, Run(policy, bars, offers, n), n)
  {
    if n > 0 {
      RunOrdered(policy, bars, offers, n - 1);
      StepOrdered(policy, bars, offers, n - 1, Run(policy, bars, offers, n - 1));
    }
  }

  lemma {:induction false} RunFaithful(policy: Policy, bars: seq<Bar>, offers: seq<Option<Entry>>, n: nat)
    requires |offers| == |bars| && n <= |bars|
    ensures AllFaithful(policy, bars, offers, n, Run(policy, bars, offers, n))
  {
    if n > 0 {
      RunFaithful(policy, bars, offers, n - 1);
      StepFaithful(policy, bars, offers, n - 1, Run(policy, bars, offers, n - 1));
    }
  }

  lemma {:induction false} RunCovers(policy: Policy, bars: seq<Bar>, offers: seq<Option<Entry>>, n: nat)
    requires |offers| == |bars| && n <= |bars|
    ensures AllCovered(offers, n, Run(policy, bars, offers, n))
  {
    if n > 0 {
      RunCovers(policy, bars, offers, n - 1);
      RunOrdered(policy, bars, offers, n - 1);
      StepCovers(policy, bars, offers, n - 1, Run(policy, bars, offers, n - 1));
    }
  }

  /** Every run keeps the invariant: the trades are ordered, each is the
      offered entry closed at its first touched level, and every bar with an
      offer lies inside some trade's span. */
  lemma RunInvariant(policy: Policy, bars: seq<Bar>, offers: seq<Option<Entry>>, n: nat)
    requires |offers| == |bars| && n <= |bars|
    ensures Invariant(policy, bars, offers, n, Run(policy, bars, offers, n))
  {
    RunOrdered(policy, bars, offers, n);
    RunFaithful(policy, bars, offers, n);
    RunCovers(policy, bars, offers, n);
  }

  /** The recorded trades of a full run, trade by trade. */
  lemma TradesFaithful(policy: Policy, bars: seq<Bar>, offers: seq<Option<Entry>>, j: nat)
    requires |offers| == |bars| && j < |Trades(policy, bars, offers)|
    ensures var c := Trades(policy, bars, offers)[j];
            Faithful(policy.rule, bars, offers, c) &&
            (j > 0 ==> Follows(policy.reenterOnExit, Trades(policy, bars, offers)[j - 1].exitIndex, c.entryIndex))
  {
    RunInvariant(policy, bars, offers, |bars|);
  }

  /** Without offers nothing is ever traded. */
  lemma {:induction false} NoOffersNoTrades(policy: Policy, bars: seq<Bar>, offers: seq<Option<Entry>>, n: nat)
    requires |offers| == |bars| && n <= |bars|
    requires forall i :: 0 <= i < |offers| ==> offers[i].None?
    ensures Run(policy, bars, offers, n) == Book(None, [])
  {
    if n > 0 {
      NoOffersNoTrades(policy, bars, offers, n - 1);
    }
  }

  /** A bar that reaches both levels closes the trade at a loss in the
      backtests and labels it a winner in the data generator. */
  lemma BothLevelsOnOneBar(e: Entry, b: Bar)
    requires HitsStop(e, b) && HitsTarget(e, b)
    ensures ExitOn(StopFirst, e, b) == Some(false) && ExitOn(TargetFirst, e, b) == Some(true)
  {
  }
}

=== FILE: smoothing.dfy ===
/** The exponentially weighted means of pandas used by the indicators:
    `ewm(adjust=False)` without gaps (Ewm), the same with NaN gaps and
    `ignore_na=False` (EwmNa), and `ewm(adjust=True)` at the last row
    (AdjustedEwmLast). */
module Smoothing {
  import opened Wrappers
  import opened RealMath

  predicate ValidAlpha(a: real) {
    0.0 < a <= 1.0
  }

  /** Smoothing factor of `ewm(span=s)`. */
  function SpanAlpha(span: nat): (a: real)
    requires span >= 1
    ensures ValidAlpha(a)
  {
    2.0 / (span as real + 1.0)
  }

  /** Smoothing factor of `ewm(com=period - 1)`. */
  function ComAlpha(period: nat): (a: real)
    requires period >= 1
    ensures ValidAlpha(a)
  {
    1.0 / (period as real)
  }

  /** One step of the `adjust=False` recurrence: the previous mean p and the
      new value x, weighted 1 - a and a. */
  function Smooth(p: real, x: real, a: real): real {
    Scale(1.0 - a, p) + Scale(a, x)
  }

  /** `ewm(alpha=a, adjust=False).mean()` of a gap-free series:
      y[0] = x[0] and y[t] = (1 - a) * y[t-1] + a * x[t]. */
  function Ewm(xs: seq<real>, a: real): (ys: seq<real>)
    ensures |ys| == |xs|
    decreases |xs|
  {
    if |xs| == 0 then []
    else
      var prev := Ewm(xs[..|xs| - 1], a);
      prev + [if |xs| == 1 then xs[0] else Smooth(prev[|xs| - 2], xs[|xs| - 1], a)]
  }

  function Last(xs: seq<real>): real
    requires |xs| > 0
  {
    xs[|xs| - 1]
  }

  /** The smoothed value at row k depends only on rows 0..k. */
  lemma {:induction false} EwmPrefix(xs: seq<real>, a: real, k: nat)
    requires k <= |xs|
    ensures Ewm(xs[..k], a) == Ewm(xs, a)[..k]
    decreases |xs|
  {
    if k < |xs| {
      var p := xs[..|xs| - 1];
      EwmPrefix(p, a, k);
      assert p[..k] == xs[..k];
      assert Ewm(xs, a)[..|xs| - 1] == Ewm(p, a);
      assert Ewm(xs, a)[..k] == Ewm(xs, a)[..|xs| - 1][..k];
    } else {
      assert xs[..k] == xs;
    }
  }

  /** The recurrence of `adjust=False`, stated element-wise. */
  lemma EwmRecurrence(xs: seq<real>, a: real, i: nat)
    requires i < |xs|
    ensures i == 0 ==> Ewm(xs, a)[i] == xs[0]
    ensures i > 0 ==> Ewm(xs, a)[i] == Smooth(Ewm(xs, a)[i - 1], xs[i], a)
  {
    var q := xs[..i + 1];
    EwmPrefix(xs, a, i + 1);
    assert Ewm(q, a)[i] == Ewm(xs, a)[i];
    if i > 0 {
      EwmPrefix(q, a, i);
      assert q[..i] == xs[..i];
      EwmPrefix(xs, a, i);
      assert Ewm(q[..i], a)[i - 1] == Ewm(xs, a)[i - 1];
    }
  }

  /** A convex combination of two values in [lo, hi] is in [lo, hi]. */
  lemma SmoothWithin(a: real, p: real, x: real, lo: real, hi: real)
    requires 0.0 <= a <= 1.0
    requires lo <= p <= hi && lo <= x <= hi
    ensures lo <= Smooth(p, x, a) <= hi
  {
    var b := 1.0 - a;
    ScaleLe(b, lo, p);
    ScaleLe(a, lo, x);
    ScaleLe(b, p, hi);
    ScaleLe(a, x, hi);
    ScaleComplement(a, lo);
    ScaleComplement(a, hi);
    AddLe(Scale(b, lo), Scale(b, p), Scale(a, lo), Scale(a, x), lo, Smooth(p, x, a));
    AddLe(Scale(b, p), Scale(b, hi), Scale(a, x), Scale(a, hi), Smooth(p, x, a), hi);
  }

  /** Exponential smoothing never leaves the range of its input. */
  lemma {:induction false} EwmWithin(xs: seq<real>, a: real, lo: real, hi: real)
    requires 0.0 <= a <= 1.0
    requires AllWithin(xs, lo, hi)
    ensures AllWithin(Ewm(xs, a), lo, hi)
    decreases |xs|
  {
    if |xs| > 0 {
      var p := xs[..|xs| - 1];
      assert AllWithin(p, lo, hi);
      EwmWithin(p, a, lo, hi);
      var prev := Ewm(p, a);
      if |xs| > 1 {
        SmoothWithin(a, prev[|xs| - 2], xs[|xs| - 1], lo, hi);
      }
    }
  }

  /** Smoothing keeps a series non-negative. */
  lemma {:induction false} EwmNonNegative(xs: seq<real>, a: real)
    requires 0.0 <= a <= 1.0
    requires AllNonNegative(xs)
    ensures AllNonNegative(Ewm(xs, a))
    decreases |xs|
  {
    if |xs| > 0 {
      var p := xs[..|xs| - 1];
      assert AllNonNegative(p);
      EwmNonNegative(p, a);
      if |xs| > 1 {
        var prev := Ewm(p, a)[|xs| - 2];
        ScaleNonNegative(1.0 - a, prev);
        ScaleNonNegative(a, xs[|xs| - 1]);
      }
    }
  }

  /** A constant series smooths to itself. */
  lemma EwmConstant(xs: seq<real>, a: real, c: real)
    requires 0.0 <= a <= 1.0
    requires forall k :: 0 <= k < |xs| ==> xs[k] == c
    ensures forall k :: 0 <= k < |xs| ==> Ewm(xs, a)[k] == c
  {
    assert AllWithin(xs, c, c);
    EwmWithin(xs, a, c, c);
  }

  /** Moving the two inputs of a step by c moves its result by c. */
  lemma SmoothShift(p: real, x: real, a: real, c: real)
    ensures Smooth(p + c, x + c, a) == Smooth(p, x, a) + c
  {
    ScaleDistrib(1.0 - a, p, c);
    ScaleDistrib(a, x, c);
    ScaleComplement(a, c);
  }

  /** Smoothing commutes with adding a constant to every value. */
  lemma {:induction false} EwmShift(xs: seq<real>, a: real, c: real)
    ensures Ewm(Shift(xs, c), a) == Shift(Ewm(xs, a), c)
    decreases |xs|
  {
    if |xs| > 0 {
      var n := |xs|;
      var p := xs[..n - 1];
      var sx := Shift(xs, c);
      assert sx[..n - 1] == Shift(p, c);
      EwmShift(p, a, c);
      var e := Ewm(p, a);
      var l := if n == 1 then xs[0] else Smooth(e[n - 2], xs[n - 1], a);
      assert Ewm(xs, a) == e + [l];
      if n > 1 {
        SmoothShift(e[n - 2], xs[n - 1], a, c);
        assert Shift(e, c)[n - 2] == e[n - 2] + c;
      }
      assert Ewm(sx, a) == Shift(e, c) + [l + c];
      ShiftAppend(e, l, c);
    }
  }

  lemma ShiftAppend(e: seq<real>, l: real, c: real)
    ensures Shift(e + [l], c) == Shift(e, c) + [l + c]
  {
    assert forall k :: 0 <= k < |e| ==> (e + [l])[k] == e[k];
  }

  predicate PointwiseLe(xs: seq<real>, zs: seq<real>) {
    |xs| == |zs| && forall k :: 0 <= k < |xs| ==> xs[k] <= zs[k]
  }

  lemma SmoothMonotone(a: real, u: real, v: real, x: real, z: real)
    requires 0.0 <= a <= 1.0
    requires u <= v && x <= z
    ensures Smooth(u, x, a) <= Smooth(v, z, a)
  {
    ScaleLe(1.0 - a, u, v);
    ScaleLe(a, x, z);
    AddLe(Scale(1.0 - a, u), Scale(1.0 - a, v), Scale(a, x), Scale(a, z), Smooth(u, x, a), Smooth(v, z, a));
  }

  /** Smoothing is monotone: a pointwise smaller input gives a pointwise smaller mean. */
  lemma {:induction false} EwmMonotone(xs: seq<real>, zs: seq<real>, a: real)
    requires 0.0 <= a <= 1.0
    requires PointwiseLe(xs, zs)
    ensures PointwiseLe(Ewm(xs, a), Ewm(zs, a))
    decreases |xs|
  {
    if |xs| > 0 {
      var p, q := xs[..|xs| - 1], zs[..|zs| - 1];
      assert PointwiseLe(p, q);
      EwmMonotone(p, q, a);
      if |xs| > 1 {
        var u, v := Ewm(p, a)[|xs| - 2], Ewm(q, a)[|xs| - 2];
        SmoothMonotone(a, u, v, xs[|xs| - 1], zs[|xs| - 1]);
      }
    }
  }

  // ----- ewm(adjust=False, ignore_na=False) over a series with NaN gaps -----

  /** Running state of the pandas recurrence: the current mean (None before
      the first observation) and the weight carried by the old mean. */
  datatype EwmAcc = EwmAcc(mean: Option<real>, oldWeight: real)

  /** The weighted mean of the old mean `w` (weight `ow`) and the new value `c` (weight `a`). */
  function Blend(ow: real, w: real, a: real, c: real): real
    requires ow >= 0.0 && a > 0.0
  {
    (Scale(ow, w) + Scale(a, c)) / (ow + a)
  }

  /** One row of the recurrence. A NaN row keeps the mean and decays the old
      weight; an observation after a gap of g rows is blended with weight
      (1 - a)^(g+1) for the old mean and a for the new value; an observation
      equal to the current mean leaves it as it is. */
  function EwmNaStep(acc: EwmAcc, x: Option<real>, a: real): (r: EwmAcc)
    requires ValidAlpha(a) && acc.oldWeight >= 0.0
    ensures r.oldWeight >= 0.0
    ensures acc.mean.Some? ==> r.mean.Some?
    ensures x.Some? ==> r.mean.Some? && r.oldWeight == 1.0
    ensures x.None? ==> r.mean == acc.mean
  {
    match acc.mean
    case Some(w) =>
      var ow := Scale(acc.oldWeight, 1.0 - a);
      ScaleNonNegative(acc.oldWeight, 1.0 - a);
      (match x
       case None => EwmAcc(Some(w), ow)
       case Some(c) => EwmAcc(Some(if w == c then w else Blend(ow, w, a, c)), 1.0))
    case None => EwmAcc(x, if x.Some? then 1.0 else acc.oldWeight)
  }

  function EwmNaAccs(xs: seq<Option<real>>, a: real): (accs: seq<EwmAcc>)
    requires ValidAlpha(a)
    ensures |accs| == |xs|
    ensures forall k :: 0 <= k < |accs| ==> accs[k].oldWeight >= 0.0
    decreases |xs|
  {
    if |xs| == 0 then []
    else
      var prev := EwmNaAccs(xs[..|xs| - 1], a);
      prev + [EwmNaStep(if |prev| == 0 then EwmAcc(None, 1.0) else prev[|prev| - 1], xs[|xs| - 1], a)]
  }

  /** `ewm(alpha=a, adjust=False).mean()` of a series whose undefined rows are None. */
  function EwmNa(xs: seq<Option<real>>, a: real): (ys: seq<Option<real>>)
    requires ValidAlpha(a)
    ensures |ys| == |xs|
  {
    var accs := EwmNaAccs(xs, a);
    seq(|xs|, k requires 0 <= k < |xs| => accs[k].mean)
  }

  /** Every defined element lies in [lo, hi]. */
  predicate DefinedWithin(xs: seq<Option<real>>, lo: real, hi: real) {
    forall k :: 0 <= k < |xs| && xs[k].Some? ==> lo <= xs[k].value <= hi
  }

  predicate DefinedNonNegative(xs: seq<Option<real>>) {
    forall k :: 0 <= k < |xs| && xs[k].Some? ==> 0.0 <= xs[k].value
  }

  /** A weighted mean of two values in [lo, hi] is in [lo, hi]. */
  lemma BlendWithin(ow: real, w: real, a: real, c: real, lo: real, hi: real)
    requires ow >= 0.0 && a > 0.0
    requires lo <= w <= hi && lo <= c <= hi
    ensures lo <= Blend(ow, w, a, c) <= hi
  {
    var d := ow + a;
    var s := Scale(ow, w) + Scale(a, c);
    ScaleLe(ow, lo, w);
    ScaleLe(a, lo, c);
    ScaleLe(ow, w, hi);
    ScaleLe(a, c, hi);
    ScaleSum(ow, a, lo);
    ScaleSum(ow, a, hi);
    AddLe(Scale(ow, lo), Scale(ow, w), Scale(a, lo), Scale(a, c), Scale(d, lo), s);
    AddLe(Scale(ow, w), Scale(ow, hi), Scale(a, c), Scale(a, hi), s, Scale(d, hi));
    DivBounds(s, d, lo, hi);
  }

  lemma BlendNonNegative(ow: real, w: real, a: real, c: real)
    requires ow >= 0.0 && a > 0.0
    requires 0.0 <= w && 0.0 <= c
    ensures 0.0 <= Blend(ow, w, a, c)
  {
    var s := Scale(ow, w) + Scale(a, c);
    ScaleNonNegative(ow, w);
    ScaleNonNegative(a, c);
    AddLe(0.0, Scale(ow, w), 0.0, Scale(a, c), 0.0, s);
    DivNonNegative(s, ow + a);
  }

  /** One step of the NaN-aware recurrence keeps the mean within [lo, hi]. */
  lemma EwmNaStepWithin(acc: EwmAcc, x: Option<real>, a: real, lo: real, hi: real)
    requires ValidAlpha(a) && acc.oldWeight >= 0.0
    requires acc.mean.Some? ==> lo <= acc.mean.value <= hi
    requires x.Some? ==> lo <= x.value <= hi
    ensures var r := EwmNaStep(acc, x, a); r.mean.Some? ==> lo <= r.mean.value <= hi
  {
    if acc.mean.Some? && x.Some? {
      ScaleNonNegative(acc.oldWeight, 1.0 - a);
      BlendWithin(Scale(acc.oldWeight, 1.0 - a), acc.mean.value, a, x.value, lo, hi);
    }
  }

  /** The NaN-aware mean stays within the range of the defined inputs. */
  lemma {:induction false} EwmNaAccsWithin(xs: seq<Option<real>>, a: real, lo: real, hi: real)
    requires ValidAlpha(a)
    requires DefinedWithin(xs, lo, hi)
    ensures forall k :: 0 <= k < |xs| && EwmNaAccs(xs, a)[k].mean.Some? ==>
              lo <= EwmNaAccs(xs, a)[k].mean.value <= hi
    decreases |xs|
  {
    if |xs| > 0 {
      var p := xs[..|xs| - 1];
      assert DefinedWithin(p, lo, hi);
      EwmNaAccsWithin(p, a, lo, hi);
      var prev := EwmNaAccs(p, a);
      var acc := if |prev| == 0 then EwmAcc(None, 1.0) else prev[|prev| - 1];
      EwmNaStepWithin(acc, xs[|xs| - 1], a, lo, hi);
      assert EwmNaAccs(xs, a) == prev + [EwmNaStep(acc, xs[|xs| - 1], a)];
    }
  }

  lemma EwmNaWithin(xs: seq<Option<real>>, a: real, lo: real, hi: real)
    requires ValidAlpha(a)
    requires DefinedWithin(xs, lo, hi)
    ensures DefinedWithin(EwmNa(xs, a), lo, hi)
  {
    EwmNaAccsWithin(xs, a, lo, hi);
  }

  lemma EwmNaStepNonNegative(acc: EwmAcc, x: Option<real>, a: real)
    requires ValidAlpha(a) && acc.oldWeight >= 0.0
    requires acc.mean.Some? ==> 0.0 <= acc.mean.value
    requires x.Some? ==> 0.0 <= x.value
    ensures var r := EwmNaStep(acc, x, a); r.mean.Some? ==> 0.0 <= r.mean.value
  {
    if acc.mean.Some? && x.Some? {
      ScaleNonNegative(acc.oldWeight, 1.0 - a);
      BlendNonNegative(Scale(acc.oldWeight, 1.0 - a), acc.mean.value, a, x.value);
    }
  }

  lemma {:induction false} EwmNaAccsNonNegative(xs: seq<Option<real>>, a: real)
    requires ValidAlpha(a)
    requires DefinedNonNegative(xs)
    ensures forall k :: 0 <= k < |xs| && EwmNaAccs(xs, a)[k].mean.Some? ==>
              0.0 <= EwmNaAccs(xs, a)[k].mean.value
    decreases |xs|
  {
    if |xs| > 0 {
      var p := xs[..|xs| - 1];
      assert DefinedNonNegative(p);
      EwmNaAccsNonNegative(p, a);
      var prev := EwmNaAccs(p, a);
      var acc := if |prev| == 0 then EwmAcc(None, 1.0) else prev[|prev| - 1];
      EwmNaStepNonNegative(acc, xs[|xs| - 1], a);
      assert EwmNaAccs(xs, a) == prev + [EwmNaStep(acc, xs[|xs| - 1], a)];
    }
  }

  lemma EwmNaNonNegative(xs: seq<Option<real>>, a: real)
    requires ValidAlpha(a)
    requires DefinedNonNegative(xs)
    ensures DefinedNonNegative(EwmNa(xs, a))
  {
    EwmNaAccsNonNegative(xs, a);
  }

  function Lift(vs: seq<real>): (xs: seq<Option<real>>)
    ensures |xs| == |vs|
    ensures forall k :: 0 <= k < |vs| ==> xs[k] == Some(vs[k])
  {
    seq(|vs|, k requires 0 <= k < |vs| => Some(vs[k]))
  }

  /** With old weight 1 - a the blend is the gap-free recurrence. */
  lemma BlendUnit(w: real, a: real, c: real)
    requires ValidAlpha(a)
    ensures Blend(1.0 - a, w, a, c) == Smooth(w, c, a)
  {
    DivOne(Smooth(w, c, a), (1.0 - a) + a);
  }

  /** After an observation the old weight is 1, and the next observation
      blends exactly as the gap-free recurrence does. */
  lemma EwmNaStepNoGap(w: real, x: real, a: real)
    requires ValidAlpha(a)
    ensures EwmNaStep(EwmAcc(Some(w), 1.0), Some(x), a) == EwmAcc(Some(Smooth(w, x, a)), 1.0)
  {
    ScaleOne(1.0 - a);
    BlendUnit(w, a, x);
    if w == x {
      ScaleComplement(a, w);
    }
  }

  /** Without gaps the NaN-aware recurrence is the plain one. */
  lemma {:induction false} EwmNaAccsNoGaps(vs: seq<real>, a: real)
    requires ValidAlpha(a)
    ensures forall k :: 0 <= k < |vs| ==> EwmNaAccs(Lift(vs), a)[k] == EwmAcc(Some(Ewm(vs, a)[k]), 1.0)
    decreases |vs|
  {
    if |vs| > 0 {
      var p := vs[..|vs| - 1];
      assert Lift(vs)[..|vs| - 1] == Lift(p);
      EwmNaAccsNoGaps(p, a);
      var prev := EwmNaAccs(Lift(p), a);
      var n := |vs| - 1;
      var ys := Ewm(vs, a);
      assert ys[..n] == Ewm(p, a);
      assert Lift(vs)[n] == Some(vs[n]);
      assert EwmNaAccs(Lift(vs), a) == prev + [EwmNaStep(if n == 0 then EwmAcc(None, 1.0) else prev[n - 1], Some(vs[n]), a)];
      if n > 0 {
        var w := Ewm(p, a)[n - 1];
        assert prev[n - 1] == EwmAcc(Some(w), 1.0);
        assert ys[n] == Smooth(w, vs[n], a);
        EwmNaStepNoGap(w, vs[n], a);
      } else {
        assert ys[0] == vs[0];
      }
      assert EwmNaAccs(Lift(vs), a)[n] == EwmAcc(Some(ys[n]), 1.0);
    }
  }

  lemma EwmNaNoGaps(vs: seq<real>, a: real)
    requires ValidAlpha(a)
    ensures EwmNa(Lift(vs), a) == Lift(Ewm(vs, a))
  {
    EwmNaAccsNoGaps(vs, a);
  }

  // ----- ewm(adjust=True) at the last row -----

  /** A value followed by a remainder discounted by (1 - a). */
  function Discount(x: real, rest: real, a: real): real {
    x + Scale(1.0 - a, rest)
  }

  /** Sum over k of (1 - a)^k * xs[|xs|-1-k]. */
  function AdjustedNumerator(xs: seq<real>, a: real): real
    decreases |xs|
  {
    if |xs| == 0 then 0.0 else Discount(xs[|xs| - 1], AdjustedNumerator(xs[..|xs| - 1], a), a)
  }

  /** Sum over k < n of (1 - a)^k. */
  function AdjustedDenominator(n: nat, a: real): (d: real)
    requires ValidAlpha(a)
    ensures n > 0 ==> d >= 1.0
    ensures d >= 0.0
  {
    if n == 0 then 0.0
    else
      var rest := AdjustedDenominator(n - 1, a);
      ScaleNonNegative(1.0 - a, rest);
      Discount(1.0, rest, a)
  }

  /** `ewm(alpha=a, adjust=True).mean()` at the last row of a gap-free series. */
  function AdjustedEwmLast(xs: seq<real>, a: real): real
    requires |xs| > 0 && ValidAlpha(a)
  {
    AdjustedNumerator(xs, a) / AdjustedDenominator(|xs|, a)
  }

  /** One step of the adjusted sums keeps D*lo <= N <= D*hi. */
  lemma DiscountWithin(x: real, n: real, d: real, a: real, lo: real, hi: real)
    requires ValidAlpha(a) && lo <= x <= hi
    requires Scale(d, lo) <= n <= Scale(d, hi)
    ensures Scale(Discount(1.0, d, a), lo) <= Discount(x, n, a) <= Scale(Discount(1.0, d, a), hi)
  {
    var b := 1.0 - a;
    ScaleLe(b, Scale(d, lo), n);
    ScaleLe(b, n, Scale(d, hi));
    ScaleSum(1.0, Scale(b, d), lo);
    ScaleSum(1.0, Scale(b, d), hi);
    ScaleOne(lo);
    ScaleOne(hi);
    ScaleAssoc(b, d, lo);
    ScaleAssoc(b, d, hi);
    AddLe(lo, x, Scale(b, Scale(d, lo)), Scale(b, n), Scale(Discount(1.0, d, a), lo), Discount(x, n, a));
    AddLe(x, hi, Scale(b, n), Scale(b, Scale(d, hi)), Discount(x, n, a), Scale(Discount(1.0, d, a), hi));
  }

  lemma {:induction false} AdjustedNumeratorWithin(xs: seq<real>, a: real, lo: real, hi: real)
    requires ValidAlpha(a)
    requires AllWithin(xs, lo, hi)
    ensures Scale(AdjustedDenominator(|xs|, a), lo) <= AdjustedNumerator(xs, a)
    ensures AdjustedNumerator(xs, a) <= Scale(AdjustedDenominator(|xs|, a), hi)
    decreases |xs|
  {
    if |xs| > 0 {
      var p := xs[..|xs| - 1];
      assert AllWithin(p, lo, hi);
      AdjustedNumeratorWithin(p, a, lo, hi);
      DiscountWithin(xs[|xs| - 1], AdjustedNumerator(p, a), AdjustedDenominator(|p|, a), a, lo, hi);
    }
  }

  /** The adjusted mean is a weighted mean: it stays within the range of its input. */
  lemma AdjustedEwmWithin(xs: seq<real>, a: real, lo: real, hi: real)
    requires |xs| > 0 && ValidAlpha(a)
    requires AllWithin(xs, lo, hi)
    ensures lo <= AdjustedEwmLast(xs, a) <= hi
  {
    AdjustedNumeratorWithin(xs, a, lo, hi);
    DivBounds(AdjustedNumerator(xs, a), AdjustedDenominator(|xs|, a), lo, hi);
  }

  /** The adjusted mean of non-negative values is non-negative. */
  lemma AdjustedEwmNonNegative(xs: seq<real>, a: real)
    requires |xs| > 0 && ValidAlpha(a)
    requires AllNonNegative(xs)
    ensures AdjustedEwmLast(xs, a) >= 0.0
  {
    AdjustedNumeratorNonNegative(xs, a);
    DivNonNegative(AdjustedNumerator(xs, a), AdjustedDenominator(|xs|, a));
  }

  lemma {:induction false} AdjustedNumeratorNonNegative(xs: seq<real>, a: real)
    requires ValidAlpha(a)
    requires AllNonNegative(xs)
    ensures AdjustedNumerator(xs, a) >= 0.0
    decreases |xs|
  {
    if |xs| > 0 {
      var p := xs[..|xs| - 1];
      assert AllNonNegative(p);
      AdjustedNumeratorNonNegative(p, a);
      ScaleNonNegative(1.0 - a, AdjustedNumerator(p, a));
    }
  }

  /** With every weight positive (a < 1), the numerator of non-negative values
      is zero exactly when all the values are zero. */
  lemma {:induction false} AdjustedNumeratorZeroIff(xs: seq<real>, a: real)
    requires ValidAlpha(a) && a < 1.0
    requires AllNonNegative(xs)
    ensures AdjustedNumerator(xs, a) == 0.0 <==> forall k :: 0 <= k < |xs| ==> xs[k] == 0.0
    decreases |xs|
  {
    if |xs| > 0 {
      var p := xs[..|xs| - 1];
      assert AllNonNegative(p);
      AdjustedNumeratorZeroIff(p, a);
      AdjustedNumeratorNonNegative(p, a);
      var n := AdjustedNumerator(p, a);
      ScaleNonNegative(1.0 - a, n);
      ScaleZeroIff(1.0 - a, n);
      assert (forall k :: 0 <= k < |xs| ==> xs[k] == 0.0) <==>
             (forall k :: 0 <= k < |p| ==> p[k] == 0.0) && xs[|xs| - 1] == 0.0;
    }
  }
}

=== FILE: state_store.dfy ===
/** The trailing-stop state file (state_manager.py): the map from ticket to
    tracked stop is written as a JSON object whose keys are the tickets'
    decimal text, and read back by converting every key with Python's
    `int`. The file is modelled after JSON decoding: an object is the
    sequence of its (key, value) members in order, with distinct keys. */
module StateStore {
  import opened Wrappers
  import PyText

  datatype FileContent = Missing | Malformed | Object(entries: seq<(string, real)>)

  // ----- Python's int(str) -----

  /** The white space `int` strips around a key. `int` turns every
      non-ASCII character `str.isspace` accepts into a blank and hands the
      text to its ASCII parser, which strips only the blank, tab, line feed,
      vertical tab, form feed and carriage return. */
  predicate IntSpace(c: char) {
    if c as int < 0x80 then c == ' ' || ('\t' <= c <= '\r') else PyText.IsSpace(c)
  }

  /** So `int` strips what `str.isspace` accepts except the ASCII separators
      U+001C to U+001F. */
  lemma IntSpaceIsSpace(c: char)
    ensures IntSpace(c) <==> PyText.IsSpace(c) && !('\U{001C}' <= c <= '\U{001F}')
  {
  }

  /** The digit zero of every block of Unicode decimal digits (general
      category Nd, Unicode 15.0); each block holds the digits 0 to 9 in
      order, and `int` reads a digit of any block. The table is written in
      rows of ten. */
  const DigitZeros: seq<int> :=
    [0x30, 0x660, 0x6F0, 0x7C0, 0x966, 0x9E6, 0xA66, 0xAE6, 0xB66, 0xBE6] +
    [0xC66, 0xCE6, 0xD66, 0xDE6, 0xE50, 0xED0, 0xF20, 0x1040, 0x1090, 0x17E0] +
    [0x1810, 0x1946, 0x19D0, 0x1A80, 0x1A90, 0x1B50, 0x1BB0, 0x1C40, 0x1C50, 0xA620] +
    [0xA8D0, 0xA900, 0xA9D0, 0xA9F0, 0xAA50, 0xABF0, 0xFF10, 0x104A0, 0x10D30, 0x11066] +
    [0x110F0, 0x11136, 0x111D0, 0x112F0, 0x11450, 0x114D0, 0x11650, 0x116C0, 0x11730, 0x118E0] +
    [0x11950, 0x11C50, 0x11D50, 0x11DA0, 0x11F50, 0x16A60, 0x16AC0, 0x16B50, 0x1D7CE, 0x1D7D8] +
    [0x1D7E2, 0x1D7EC, 0x1D7F6, 0x1E140, 0x1E2F0, 0x1E4F0, 0x1E950, 0x1FBF0]

  /** The value of code point c as a digit of the blocks from the i-th on. */
  function BlockValue(c: int, i: nat): (d: Option<nat>)
    requires i <= |DigitZeros|
    ensures d.Some? ==> d.value < 10 && exists k :: i <= k < |DigitZeros| && c == DigitZeros[k] + d.value
    decreases |DigitZeros| - i
  {
    if i == |DigitZeros| then None
    else if DigitZeros[i] <= c < DigitZeros[i] + 10 then Some(c - DigitZeros[i])
    else BlockValue(c, i + 1)
  }

  /** The decimal value of a character; None when it is no decimal digit.
      The ASCII digits are the first block and the only ASCII one. */
  function DecimalValue(c: char): (d: Option<nat>)
    ensures d.Some? ==> d.value < 10
    ensures c as int < 0x80 ==> (d.Some? <==> '0' <= c <= '9')
    ensures '0' <= c <= '9' ==> d == Some(c as int - '0' as int)
  {
    if c as int < 0x80 then
      if '0' <= c <= '9' then Some(c as int - '0' as int) else None
    else BlockValue(c as int, 1)
  }

  predicate IsDigit(c: char) {
    DecimalValue(c).Some?
  }

  function DropLeadingSpace(s: string): (t: string)
    ensures |t| <= |s| && t == s[|s| - |t|..]
    ensures |t| > 0 ==> !IntSpace(t[0])
    ensures |s| > 0 && !IntSpace(s[0]) ==> t == s
  {
    if |s| > 0 && IntSpace(s[0]) then DropLeadingSpace(s[1..]) else s
  }

  function DropTrailingSpace(s: string): (t: string)
    ensures |t| <= |s| && t == s[..|t|]
    ensures |t| > 0 ==> !IntSpace(t[|t| - 1])
    ensures |s| > 0 && !IntSpace(s[|s| - 1]) ==> t == s
  {
    if |s| > 0 && IntSpace(s[|s| - 1]) then DropTrailingSpace(s[..|s| - 1]) else s
  }

  /** Every character is a digit or an underscore. */
  predicate DigitsOrUnderscores(s: string) {
    |s| == 0 || ((IsDigit(s[|s| - 1]) || s[|s| - 1] == '_') && DigitsOrUnderscores(s[..|s| - 1]))
  }

  /** No two underscores are adjacent. */
  predicate NoDoubleUnderscore(s: string) {
    |s| < 2 || (!(s[|s| - 2] == '_' && s[|s| - 1] == '_') && NoDoubleUnderscore(s[..|s| - 1]))
  }

  /** Digits with single underscores between them, as `int` accepts. */
  predicate WellFormedDigits(s: string) {
    |s| > 0 && IsDigit(s[0]) && IsDigit(s[|s| - 1]) && DigitsOrUnderscores(s) && NoDoubleUnderscore(s)
  }

  /** The value of a digit string, underscores ignored. */
  function DigitsValue(s: string): nat {
    if |s| == 0 then 0
    else if IsDigit(s[|s| - 1]) then DigitsValue(s[..|s| - 1]) * 10 + DecimalValue(s[|s| - 1]).value
    else DigitsValue(s[..|s| - 1])
  }

  /** `int(s)` for a key: surrounding white space, one optional ASCII
      sign, then decimal digits of any script with single underscores
      between them; None where `int` raises. */
  function ParseInt(s: string): Option<int> {
    var t := DropTrailingSpace(DropLeadingSpace(s));
    var negative := |t| > 0 && t[0] == '-';
    var body := if |t| > 0 && (t[0] == '-' || t[0] == '+') then t[1..] else t;
    if WellFormedDigits(body) then
      var n: int := DigitsValue(body);
      Some(if negative then -n else n)
    else None
  }

  // ----- str(int) -----

  function DigitChar(d: nat): (c: char)
    requires d < 10
    ensures '0' <= c <= '9' && DecimalValue(c) == Some(d)
  {
    ('0' as int + d) as char
  }

  /** The decimal text of a natural number, without leading zeros. */
  function NatToString(n: nat): (s: string)
    ensures |s| > 0 && forall i :: 0 <= i < |s| ==> '0' <= s[i] <= '9' && IsDigit(s[i])
  {
    if n < 10 then [DigitChar(n)] else NatToString(n / 10) + [DigitChar(n % 10)]
  }

  /** `str(n)` for a ticket. */
  function IntToString(n: int): (s: string)
    ensures |s| > 0 && !IntSpace(s[0]) && !IntSpace(s[|s| - 1])
  {
    if n < 0 then "-" + NatToString(-n) else NatToString(n)
  }

  lemma {:induction false} NatToStringValue(n: nat)
    ensures WellFormedDigits(NatToString(n)) && DigitsValue(NatToString(n)) == n
  {
    if n >= 10 {
      NatToStringValue(n / 10);
      var s := NatToString(n);
      assert s[..|s| - 1] == NatToString(n / 10);
    }
  }

  /** `int(str(n)) == n`. */
  lemma ParseIntToString(n: int)
    ensures ParseInt(IntToString(n)) == Some(n)
  {
    var s := IntToString(n);
    assert DropLeadingSpace(s) == s;
    assert DropTrailingSpace(s) == s;
    if n < 0 {
      NatToStringValue(-n);
      assert s[1..] == NatToString(-n);
    } else {
      NatToStringValue(n);
    }
  }

  // ----- load and save -----

  /** Every key of the object converts. */
  predicate AllKeysParse(entries: seq<(string, real)>) {
    forall i :: 0 <= i < |entries| ==> ParseInt(entries[i].0).Some?
  }

  /** The (ticket, stop) pairs the comprehension produces, in order. */
  function Tickets(entries: seq<(string, real)>): (ps: seq<(int, real)>)
    requires AllKeysParse(entries)
    ensures |ps| == |entries|
    ensures forall i :: 0 <= i < |ps| ==> Some(ps[i].0) == ParseInt(entries[i].0) && ps[i].1 == entries[i].1
  {
    seq(|entries|, i requires 0 <= i < |entries| => (ParseInt(entries[i].0).value, entries[i].1))
  }

  /** The tickets of the pairs are exactly the keys that convert. */
  lemma TicketKeys(entries: seq<(string, real)>)
    requires AllKeysParse(entries)
    ensures forall t :: t in Collect(Tickets(entries)) <==>
              exists i :: 0 <= i < |entries| && ParseInt(entries[i].0) == Some(t)
  {
    var ps := Tickets(entries);
    var m := Collect(ps);
    forall t
      ensures t in m <==> exists i :: 0 <= i < |entries| && ParseInt(entries[i].0) == Some(t)
    {
      if t in m {
        var i :| 0 <= i < |ps| && ps[i].0 == t;
        assert ParseInt(entries[i].0) == Some(t);
      }
      if exists i :: 0 <= i < |entries| && ParseInt(entries[i].0) == Some(t) {
        var i :| 0 <= i < |entries| && ParseInt(entries[i].0) == Some(t);
        assert ps[i].0 == t;
      }
    }
  }

  /** The index i is the last pair for its ticket. */
  predicate LastOfTicket(ps: seq<(int, real)>, i: int)
    requires 0 <= i < |ps|
  {
    forall j :: i < j < |ps| ==> ps[j].0 != ps[i].0
  }

  /** Building a dictionary from pairs: a later pair for the same ticket
      overrides an earlier one. */
  function Collect(ps: seq<(int, real)>): (m: map<int, real>)
    ensures m.Keys == set i | 0 <= i < |ps| :: ps[i].0
    ensures forall i :: 0 <= i < |ps| && LastOfTicket(ps, i) ==> m[ps[i].0] == ps[i].1
  {
    if |ps| == 0 then map[]
    else
      var init := ps[..|ps| - 1];
      var last := ps[|ps| - 1];
      assert forall i :: 0 <= i < |init| ==> init[i] == ps[i];
      var m := Collect(init)[last.0 := last.1];
      assert forall i :: 0 <= i < |init| && LastOfTicket(ps, i) ==> LastOfTicket(init, i);
      m
  }

  /** `load_trailing_stop_state`, `{int(k): v for k, v in entries}`: a
      missing or unreadable file, or any key `int` rejects, gives the empty
      state; the state is never partial. */
  function Load(f: FileContent): (m: map<int, real>)
    ensures f.Object? && AllKeysParse(f.entries) ==>
              forall t :: t in m <==> exists i :: 0 <= i < |f.entries| && ParseInt(f.entries[i].0) == Some(t)
    ensures !(f.Object? && AllKeysParse(f.entries)) ==> m == map[]
  {
    match f
    case Object(entries) =>
      if AllKeysParse(entries) then
        TicketKeys(entries);
        Collect(Tickets(entries))
      else map[]
    case _ => map[]
  }

  /** `order` lists every key of the dictionary exactly once, as its
      insertion order does. */
  predicate InsertionOrder(m: map<int, real>, order: seq<int>) {
    (forall i :: 0 <= i < |order| ==> order[i] in m) &&
    (forall t :: t in m ==> t in order) &&
    (forall i, j :: 0 <= i < j < |order| ==> order[i] != order[j])
  }

  /** `save_trailing_stop_state`: the entries in the dictionary's insertion
      order `order`, each key the ticket's decimal text. */
  function Save(m: map<int, real>, order: seq<int>): (f: FileContent)
    requires InsertionOrder(m, order)
    ensures f.Object? && |f.entries| == |order|
    ensures forall i :: 0 <= i < |order| ==> f.entries[i] == (IntToString(order[i]), m[order[i]])
  {
    Object(seq(|order|, i requires 0 <= i < |order| => (IntToString(order[i]), m[order[i]])))
  }


  /** The pairs of a dictionary in insertion order. */
  function Pairs(m: map<int, real>, order: seq<int>): (ps: seq<(int, real)>)
    requires forall i :: 0 <= i < |order| ==> order[i] in m
    ensures |ps| == |order| && forall i :: 0 <= i < |order| ==> ps[i] == (order[i], m[order[i]])
  {
    seq(|order|, i requires 0 <= i < |order| => (order[i], m[order[i]]))
  }

  /** Rebuilding a dictionary from its pairs in insertion order gives it back. */
  lemma CollectPairs(m: map<int, real>, order: seq<int>)
    requires InsertionOrder(m, order)
    ensures Collect(Pairs(m, order)) == m
  {
    var ps := Pairs(m, order);
    var r := Collect(ps);
    forall t | t in m
      ensures t in r && r[t] == m[t]
    {
      var i :| 0 <= i < |order| && order[i] == t;
      assert LastOfTicket(ps, i);
    }
    assert r.Keys == m.Keys;
  }

  /** Reading back what was saved gives the same state. */
  lemma LoadSave(m: map<int, real>, order: seq<int>)
    requires InsertionOrder(m, order)
    ensures Load(Save(m, order)) == m
  {
    var es := Save(m, order).entries;
    forall i | 0 <= i < |es|
      ensures ParseInt(es[i].0) == Some(order[i])
    {
      ParseIntToString(order[i]);
    }
    assert AllKeysParse(es);
    assert Tickets(es) == Pairs(m, order);
    CollectPairs(m, order);
  }

  /** A key `int` rejects discards the whole file, valid keys included. */
  lemma UnparsableKeyDiscardsAll(entries: seq<(string, real)>)
    requires exists i :: 0 <= i < |entries| && ParseInt(entries[i].0).None?
    ensures Load(Object(entries)) == map[]
  {
  }

  /** `int` strips surrounding whitespace from a key. */
  lemma PaddedKeyParses()
    ensures ParseInt(" 42\n") == Some(42)
  {
    assert DropLeadingSpace(" 42\n") == "42\n";
    assert DropTrailingSpace("42\n") == "42";
    assert "42"[..1] == "4";
    assert "4"[..0] == "";
  }

  /** `int` accepts a sign and single underscores between digits. */
  lemma GroupedKeyParses()
    ensures ParseInt("-1_0") == Some(-10)
  {
    assert DropLeadingSpace("-1_0") == "-1_0";
    assert DropTrailingSpace("-1_0") == "-1_0";
    var body := "-1_0"[1..];
    assert body == "1_0";
    GroupedDigits();
  }

  lemma GroupedDigits()
    ensures WellFormedDigits("1_0") && DigitsValue("1_0") == 10
  {
    assert "1_0"[..2] == "1_";
    assert "1_"[..1] == "1";
    assert "1"[..0] == "";
  }

  /** `int` rejects doubled underscores. */
  lemma DoubleUnderscoreRejected()
    ensures ParseInt("1__0").None?
  {
    assert DropLeadingSpace("1__0") == "1__0";
    assert DropTrailingSpace("1__0") == "1__0";
    assert "1__0"[..3] == "1__";
    assert !NoDoubleUnderscore("1__");
  }

  /** `int` rejects a leading underscore. */
  lemma LeadingUnderscoreRejected()
    ensures ParseInt("_1").None?
  {
    assert DropLeadingSpace("_1") == "_1";
    assert DropTrailingSpace("_1") == "_1";
  }

  /** `int` rejects a bare sign. */
  lemma BareSignRejected()
    ensures ParseInt("+").None?
  {
    assert DropLeadingSpace("+") == "+";
    assert DropTrailingSpace("+") == "+";
  }

  /** A key of digits alone converts to their value. */
  lemma DigitsKey(s: string)
    requires WellFormedDigits(s) && !IntSpace(s[0]) && !IntSpace(s[|s| - 1])
    ensures ParseInt(s) == Some(DigitsValue(s))
  {
    assert DropLeadingSpace(s) == s;
    assert DropTrailingSpace(s) == s;
  }

  /** `int` strips Unicode white space such as the no-break space. */
  lemma NoBreakSpaceKeyParses()
    ensures ParseInt("\U{00A0}7") == Some(7)
  {
    var s := "\U{00A0}7";
    assert PyText.IsSpace('\U{00A0}');
    assert IntSpace(s[0]) && s[1..] == "7";
    SevenKey();
  }

  lemma SevenKey()
    ensures DropLeadingSpace("7") == "7" && ParseInt("7") == Some(7)
  {
    assert "7"[..0] == "";
    assert WellFormedDigits("7") && DigitsValue("7") == 7;
    DigitsKey("7");
  }

  /** `int` reads decimal digits of any script: Arabic-Indic one and two
      give the ticket 12. */
  lemma ArabicIndicKeyParses()
    ensures ParseInt("\U{0661}\U{0662}") == Some(12)
  {
    var s := "\U{0661}\U{0662}";
    assert s[0] == '\U{0661}' && s[1] == '\U{0662}';
    assert DecimalValue('\U{0661}') == Some(1) && DecimalValue('\U{0662}') == Some(2);
    assert s[..1] == "\U{0661}";
    assert s[..1][..0] == "";
    assert DigitsValue(s[..1]) == 1;
    assert |s| == 2 && s[..|s| - 1] == s[..1] && IsDigit(s[1]);
    assert DigitsValue(s) == DigitsValue(s[..1]) * 10 + DecimalValue(s[1]).value;
    assert WellFormedDigits(s) && DigitsValue(s) == 12;
    DigitsKey(s);
  }

  /** The ASCII separators are white space to `str.isspace` but not to
      `int`, which rejects a key that starts with one. */
  lemma SeparatorKeyRejected()
    ensures PyText.IsSpace('\U{001C}')
    ensures ParseInt("\U{001C}7").None?
  {
    assert DropLeadingSpace("\U{001C}7") == "\U{001C}7";
    assert DropTrailingSpace("\U{001C}7") == "\U{001C}7";
  }
}

=== FILE: trailing_stops.dfy ===
/** `manage_trailing_stops` (mt5_manager.py): one pass over the open
    positions of a symbol that adopts untracked positions of the bot at
    their current stop, advances a tracked stop after a successful
    modification, and finally forgets every ticket that is no longer open on
    the symbol. The tracked stops are a map from ticket to price. */
module TrailingStops {
  import opened Wrappers
  import opened RealMath
  import opened Market
  import opened Orders
  import Config

  /** TRAILING_STOP_ACTIVE, TRAILING_STOP_DISTANCE_ATR and
      MIN_PROFIT_TO_TRAIL_ATR, and how `send_trade_request` reports a DONE
      reply to the modification. */
  datatype Settings = Settings(active: bool, distanceAtr: real, minProfitAtr: real, report: DoneReport)

  /** The configuration and the code as written. */
  const Configured: Settings :=
    Settings(Config.TrailingStopActive, Config.TrailingStopDistanceAtr, Config.MinProfitToTrailAtr, LogsVolume)

  /** What a pass needs besides the state: the symbol, the ATR (already
      known to be positive), the quote, the settings and the broker with
      its retry budget. */
  datatype Context = Context(symbol: string, atr: real, tick: Tick, settings: Settings,
                             maxRetries: nat, broker: nat -> TradeResult)

  /** A stop-modification request and what sending it produced. */
  datatype Modification = Modification(request: TradeRequest, outcome: SendOutcome)

  /** The running state of the loop: the tracked stops, whether anything was
      adopted or advanced, the modifications sent, the broker cursor, and
      whether sending a modification raised, which leaves the loop. */
  datatype Pass = Pass(state: map<int, real>, changed: bool, log: seq<Modification>, cursor: nat, raised: bool)

  /** The result of `manage_trailing_stops`: the tracked stops (the caller's
      dictionary, changed in place), whether the state was saved, the
      modifications sent, the broker cursor, and whether the call raised. */
  datatype TrailResult = TrailResult(state: map<int, real>, saved: bool, log: seq<Modification>, cursor: nat, raised: bool)

  /** A position the pass manages: on the symbol and carrying MAGIC_NUMBER. */
  predicate Managed(symbol: string, p: Position) {
    p.symbol == symbol && p.magic == Config.MagicNumber
  }

  /** v is strictly better than `last` for the side: higher for a buy, lower for a sell. */
  predicate Improves(side: Side, v: real, last: real) {
    if side == Buy then v > last else v < last
  }

  predicate AtLeastAsGood(side: Side, v: real, last: real) {
    if side == Buy then v >= last else v <= last
  }

  /** v is strictly on the profitable side of the quote: below the bid for a
      buy, above the ask for a sell. */
  predicate BeyondQuote(side: Side, v: real, tick: Tick) {
    if side == Buy then v < tick.bid else v > tick.ask
  }

  /** The favourable excursion is at least ATR * MIN_PROFIT_TO_TRAIL_ATR. */
  predicate InProfit(p: Position, atr: real, tick: Tick, settings: Settings) {
    var minProfit := Scale(atr, settings.minProfitAtr);
    if p.side == Buy then tick.bid - p.priceOpen >= minProfit else p.priceOpen - tick.ask >= minProfit
  }

  /** The stop one trailing distance behind the current quote. */
  function TrailTarget(side: Side, atr: real, tick: Tick, settings: Settings): real {
    var distance := Scale(atr, settings.distanceAtr);
    if side == Buy then tick.bid - distance else tick.ask + distance
  }

  /** The new stop for a position whose last known stop is `last`, when all
      three conditions hold. */
  function Candidate(p: Position, last: real, ctx: Context): (v: Option<real>)
    ensures v.Some? ==> Improves(p.side, v.value, last) && BeyondQuote(p.side, v.value, ctx.tick)
    ensures v.Some? ==> InProfit(p, ctx.atr, ctx.tick, ctx.settings)
  {
    var target := TrailTarget(p.side, ctx.atr, ctx.tick, ctx.settings);
    if InProfit(p, ctx.atr, ctx.tick, ctx.settings) && Improves(p.side, target, last) && BeyondQuote(p.side, target, ctx.tick)
    then Some(target) else None
  }

  function Description(side: Side): string {
    if side == Buy then "Actualizar Trailing SL (Compra)" else "Actualizar Trailing SL (Venta)"
  }

  /** The loop body for one position. A modification whose sending raised
      leaves its position's stop as it was, and the loop is left: once the
      pass has raised, no later position is looked at. */
  function Step(ctx: Context, pass: Pass, p: Position): (r: Pass)
    ensures pass.raised || !Managed(ctx.symbol, p) ==> r == pass
    ensures !pass.raised && Managed(ctx.symbol, p) ==> r.state.Keys == pass.state.Keys + {p.ticket}
    ensures forall t :: t != p.ticket ==> (t in r.state <==> t in pass.state) &&
                                          (t in pass.state ==> r.state[t] == pass.state[t])
    ensures |pass.log| <= |r.log| <= |pass.log| + 1 && r.log[..|pass.log|] == pass.log
    ensures pass.changed ==> r.changed
    ensures r.raised <==> pass.raised || (|r.log| > |pass.log| && r.log[|pass.log|].outcome.raised)
  {
    if pass.raised || !Managed(ctx.symbol, p) then pass
    else
      var adopted := p.ticket !in pass.state;
      var s := if adopted then pass.state[p.ticket := p.sl] else pass.state;
      match Candidate(p, s[p.ticket], ctx)
      case None => pass.(state := s, changed := pass.changed || adopted)
      case Some(v) =>
        var request := ModifyStops(ctx.symbol, p.ticket, v, p.tp, Config.MagicNumber, Description(p.side));
        var outcome := Send(ctx.settings.report, request, ctx.maxRetries, ctx.broker, pass.cursor);
        Pass(if outcome.success then s[p.ticket := v] else s,
             pass.changed || adopted || outcome.success,
             pass.log + [Modification(request, outcome)],
             pass.cursor + outcome.used,
             outcome.raised)
  }

  /** The loop over the positions in order. */
  function Passes(ctx: Context, init: Pass, ps: seq<Position>): Pass
    decreases |ps|
  {
    if |ps| == 0 then init else Step(ctx, Passes(ctx, init, ps[..|ps| - 1]), ps[|ps| - 1])
  }

  /** The tickets of all positions on the symbol, whatever their magic number. */
  function ActiveTickets(symbol: string, ps: seq<Position>): set<int> {
    set p | p in ps && p.symbol == symbol :: p.ticket
  }

  function ManagedTickets(symbol: string, ps: seq<Position>): (ts: set<int>)
    ensures ts <= ActiveTickets(symbol, ps)
  {
    set p | p in ps && Managed(symbol, p) :: p.ticket
  }

  /** The tracked stops restricted to the given tickets. */
  function Prune(state: map<int, real>, keep: set<int>): (r: map<int, real>)
    ensures r.Keys == state.Keys * keep
    ensures forall t :: t in r ==> r[t] == state[t]
  {
    map t | t in state && t in keep :: state[t]
  }

  /** `manage_trailing_stops(symbol, positions, atr, ask, bid, state)`: `atr`
      is None when the caller's ATR was; `cursor` is the next broker reply.
      When a modification raises, the exception leaves the call with the
      dictionary as the loop left it, unpruned and unsaved. Otherwise the
      stops of tickets no longer open on the symbol are dropped, and the
      state is saved when something was adopted, advanced or dropped. */
  function Manage(symbol: string, positions: seq<Position>, atr: Option<real>, tick: Tick,
                  state: map<int, real>, settings: Settings, maxRetries: nat,
                  broker: nat -> TradeResult, cursor: nat): (r: TrailResult)
    ensures !settings.active || atr.None? || atr.value <= 0.0 ==> r == TrailResult(state, false, [], cursor, false)
    ensures settings.active && atr.Some? && atr.value > 0.0 && !r.raised ==>
              forall t :: t in r.state ==> t in ActiveTickets(symbol, positions)
    ensures r.raised ==> !r.saved
  {
    if !settings.active || atr.None? || atr.value <= 0.0 then TrailResult(state, false, [], cursor, false)
    else
      var ctx := Context(symbol, atr.value, tick, settings, maxRetries, broker);
      var pass := Passes(ctx, Pass(state, false, [], cursor, false), positions);
      if pass.raised then TrailResult(pass.state, false, pass.log, pass.cursor, true)
      else
        var active := ActiveTickets(symbol, positions);
        var pruned := pass.state.Keys - active != {};
        TrailResult(Prune(pass.state, active), pass.changed || pruned, pass.log, pass.cursor, false)
  }

  // ----- properties of the loop -----

  /** Tickets are unique among the positions, as the broker reports them. */
  predicate UniqueTickets(ps: seq<Position>) {
    forall i, j :: 0 <= i < j < |ps| ==> ps[i].ticket != ps[j].ticket
  }

  /** The stop a managed position starts the pass with: the tracked one, or
      its current stop when it is adopted. */
  function Start(state: map<int, real>, p: Position): real {
    if p.ticket in state then state[p.ticket] else p.sl
  }

  /** No ticket outside the managed positions is touched. */
  predicate Unaffected(symbol: string, ps: seq<Position>, t: int) {
    forall i :: 0 <= i < |ps| && Managed(symbol, ps[i]) ==> ps[i].ticket != t
  }

  lemma ManagedTicketsSnoc(symbol: string, ps: seq<Position>, p: Position)
    ensures ManagedTickets(symbol, ps + [p]) ==
            ManagedTickets(symbol, ps) + (if Managed(symbol, p) then {p.ticket} else {})
  {
    assert forall q :: q in ps + [p] <==> q in ps || q == p;
  }

  /** The loop only adds tickets, and only those of managed positions; a
      loop that did not raise has added every managed position's ticket. */
  lemma {:induction false} PassesKeys(ctx: Context, init: Pass, ps: seq<Position>)
    ensures var r := Passes(ctx, init, ps);
            init.state.Keys <= r.state.Keys <= init.state.Keys + ManagedTickets(ctx.symbol, ps) &&
            (!r.raised ==> r.state.Keys == init.state.Keys + ManagedTickets(ctx.symbol, ps))
    decreases |ps|
  {
    if |ps| > 0 {
      var q := ps[..|ps| - 1];
      PassesKeys(ctx, init, q);
      assert ps == q + [ps[|ps| - 1]];
      ManagedTicketsSnoc(ctx.symbol, q, ps[|ps| - 1]);
    }
  }

  /** A pass that has raised is left unchanged by every later position. */
  lemma {:induction false} PassesAfterRaise(ctx: Context, pass: Pass, ps: seq<Position>)
    requires pass.raised
    ensures Passes(ctx, pass, ps) == pass
    decreases |ps|
  {
    if |ps| > 0 {
      PassesAfterRaise(ctx, pass, ps[..|ps| - 1]);
    }
  }

  /** The loop over q + rest is the loop over rest continuing from q's. */
  lemma {:induction false} PassesAppend(ctx: Context, init: Pass, q: seq<Position>, rest: seq<Position>)
    ensures Passes(ctx, init, q + rest) == Passes(ctx, Passes(ctx, init, q), rest)
    decreases |rest|
  {
    if |rest| == 0 {
      assert q + rest == q;
    } else {
      var front := rest[..|rest| - 1];
      PassesAppend(ctx, init, q, front);
      assert (q + rest)[..|q + rest| - 1] == q + front;
      assert (q + rest)[|q + rest| - 1] == rest[|rest| - 1];
    }
  }

  /** Once a modification has raised, the positions after it are never
      looked at: no adoption, no modification, no further broker reply. */
  lemma RaiseEndsPass(ctx: Context, init: Pass, q: seq<Position>, rest: seq<Position>)
    requires Passes(ctx, init, q).raised
    ensures Passes(ctx, init, q + rest) == Passes(ctx, init, q)
  {
    PassesAppend(ctx, init, q, rest);
    PassesAfterRaise(ctx, Passes(ctx, init, q), rest);
  }

  /** A ticket of no managed position keeps its tracked stop. */
  lemma {:induction false} PassesFrame(ctx: Context, init: Pass, ps: seq<Position>, t: int)
    requires Unaffected(ctx.symbol, ps, t) && t in init.state
    ensures t in Passes(ctx, init, ps).state && Passes(ctx, init, ps).state[t] == init.state[t]
    decreases |ps|
  {
    if |ps| > 0 {
      var q := ps[..|ps| - 1];
      assert Unaffected(ctx.symbol, q, t);
      PassesFrame(ctx, init, q, t);
    }
  }

  /** The log only grows, and every entry it gains is a stop modification of
      a managed position, to a stop beyond the quote, sent while the
      position was in profit by the required excursion. A modification
      raises only when the DONE message needs a volume, and then is
      confirmed only by NO_CHANGES. */
  predicate ValidModification(ctx: Context, ps: seq<Position>, m: Modification) {
    m.request.ModifyStops? && m.request.symbol == ctx.symbol && m.request.magic == Config.MagicNumber &&
    (m.outcome.raised ==> DoneRaises(ctx.settings.report, m.request)) &&
    (m.outcome.success ==>
       m.outcome.result.Some? &&
       (DoneRaises(ctx.settings.report, m.request) ==> m.outcome.result.value.retcode == RetcodeNoChanges)) &&
    exists i :: 0 <= i < |ps| && Managed(ctx.symbol, ps[i]) && ps[i].ticket == m.request.ticket &&
                m.request.keepTp == ps[i].tp &&
                BeyondQuote(ps[i].side, m.request.newSl, ctx.tick) &&
                InProfit(ps[i], ctx.atr, ctx.tick, ctx.settings)
  }

  lemma {:induction false} PassesLog(ctx: Context, init: Pass, ps: seq<Position>)
    ensures var r := Passes(ctx, init, ps);
            |init.log| <= |r.log| && r.log[..|init.log|] == init.log &&
            forall j :: |init.log| <= j < |r.log| ==> ValidModification(ctx, ps, r.log[j])
    decreases |ps|
  {
    if |ps| > 0 {
      var q := ps[..|ps| - 1];
      var p := ps[|ps| - 1];
      PassesLog(ctx, init, q);
      var prev := Passes(ctx, init, q);
      var r := Passes(ctx, init, ps);
      forall j | |init.log| <= j < |r.log|
        ensures ValidModification(ctx, ps, r.log[j])
      {
        if j < |prev.log| {
          assert r.log[j] == prev.log[j];
          var m := prev.log[j];
          assert ValidModification(ctx, q, m);
          var i :| 0 <= i < |q| && Managed(ctx.symbol, q[i]) && q[i].ticket == m.request.ticket &&
                   m.request.keepTp == q[i].tp &&
                   BeyondQuote(q[i].side, m.request.newSl, ctx.tick) && InProfit(q[i], ctx.atr, ctx.tick, ctx.settings);
          assert ps[i] == q[i];
        } else {
          assert ps[|ps| - 1] == p;
        }
      }
    }
  }

  /** A pass raises exactly when the last modification it sent raised; no
      earlier one did. */
  lemma {:induction false} PassesRaised(ctx: Context, init: Pass, ps: seq<Position>)
    ensures var r := Passes(ctx, init, ps);
            (forall j :: |init.log| <= j < |r.log| - 1 ==> !r.log[j].outcome.raised) &&
            (r.raised <==> init.raised || (|r.log| > |init.log| && r.log[|r.log| - 1].outcome.raised))
    decreases |ps|
  {
    if |ps| > 0 {
      var q := ps[..|ps| - 1];
      PassesRaised(ctx, init, q);
      PassesLog(ctx, init, q);
    }
  }

  /** With unique tickets, the stop of every managed position the loop
      reached ends at least as good as it started, and differs from it only
      as the stop of a successful modification of that position; a managed
      position is missed only by a loop that raised. */
  predicate TrackedEvolution(ctx: Context, init: Pass, ps: seq<Position>, r: Pass) {
    forall i :: 0 <= i < |ps| && Managed(ctx.symbol, ps[i]) ==>
      var t := ps[i].ticket;
      (t in r.state || r.raised) &&
      (t in r.state ==>
         AtLeastAsGood(ps[i].side, r.state[t], Start(init.state, ps[i])) &&
         (r.state[t] != Start(init.state, ps[i]) ==>
            exists j :: |init.log| <= j < |r.log| && r.log[j].request.ModifyStops? &&
                        r.log[j].request.ticket == t && r.log[j].outcome.success &&
                        r.log[j].request.newSl == r.state[t]))
  }

  /** The flag records an adoption or a changed stop. */
  predicate ChangedRecords(ctx: Context, init: Pass, ps: seq<Position>, r: Pass) {
    r.changed <==> init.changed ||
                   exists i :: 0 <= i < |ps| && Managed(ctx.symbol, ps[i]) && ps[i].ticket in r.state &&
                               !(ps[i].ticket in init.state && r.state[ps[i].ticket] == init.state[ps[i].ticket])
  }

  /** The step for the last position, whose ticket is fresh to the pass so far. */
  lemma StepOfFreshTicket(ctx: Context, init: Pass, prev: Pass, p: Position)
    requires Managed(ctx.symbol, p)
    requires p.ticket in prev.state <==> p.ticket in init.state
    requires p.ticket in init.state ==> prev.state[p.ticket] == init.state[p.ticket]
    requires |init.log| <= |prev.log|
    ensures var r := Step(ctx, prev, p); var t := p.ticket;
            (t in r.state || r.raised) &&
            (t in r.state ==>
               AtLeastAsGood(p.side, r.state[t], Start(init.state, p)) &&
               (r.state[t] != Start(init.state, p) ==>
                  |r.log| == |prev.log| + 1 && r.log[|r.log| - 1].request.ModifyStops? &&
                  r.log[|r.log| - 1].request.ticket == t && r.log[|r.log| - 1].outcome.success &&
                  r.log[|r.log| - 1].request.newSl == r.state[t]))
    ensures var r := Step(ctx, prev, p); var t := p.ticket;
            r.changed <==> prev.changed || (t in r.state && !(t in init.state && r.state[t] == init.state[t]))
  {
  }

  /** The last position's ticket is untouched by the loop over the earlier
      positions, when tickets are unique. */
  lemma LastTicketUntouched(ctx: Context, init: Pass, q: seq<Position>, p: Position)
    requires UniqueTickets(q + [p]) && Managed(ctx.symbol, p)
    ensures var prev := Passes(ctx, init, q);
            (p.ticket in prev.state <==> p.ticket in init.state) &&
            (p.ticket in init.state ==> prev.state[p.ticket] == init.state[p.ticket])
  {
    var ps := q + [p];
    assert ps[|q|] == p;
    forall i | 0 <= i < |q| && Managed(ctx.symbol, q[i])
      ensures q[i].ticket != p.ticket
    {
      assert ps[i] == q[i];
    }
    assert Unaffected(ctx.symbol, q, p.ticket);
    PassesKeys(ctx, init, q);
    assert p.ticket !in ManagedTickets(ctx.symbol, q);
    if p.ticket in init.state {
      PassesFrame(ctx, init, q, p.ticket);
    }
  }

  /** The earlier managed positions' tickets differ from the last one's. */
  lemma EarlierTicketsDiffer(q: seq<Position>, p: Position)
    requires UniqueTickets(q + [p])
    ensures forall i :: 0 <= i < |q| ==> q[i].ticket != p.ticket
  {
    var ps := q + [p];
    assert ps[|q|] == p;
    forall i | 0 <= i < |q|
      ensures q[i].ticket != p.ticket
    {
      assert ps[i] == q[i];
    }
  }

  lemma {:induction false} PassesEvolution(ctx: Context, init: Pass, ps: seq<Position>)
    requires UniqueTickets(ps)
    ensures TrackedEvolution(ctx, init, ps, Passes(ctx, init, ps))
    ensures ChangedRecords(ctx, init, ps, Passes(ctx, init, ps))
    decreases |ps|
  {
    if |ps| > 0 {
      var q := ps[..|ps| - 1];
      var p := ps[|ps| - 1];
      assert ps == q + [p];
      assert UniqueTickets(q);
      PassesEvolution(ctx, init, q);
      PassesLog(ctx, init, q);
      var prev := Passes(ctx, init, q);
      if Managed(ctx.symbol, p) {
        LastTicketUntouched(ctx, init, q, p);
        StepOfFreshTicket(ctx, init, prev, p);
      }
      EarlierTicketsDiffer(q, p);
      TrackedEvolutionSnoc(ctx, init, q, p, prev, Step(ctx, prev, p));
      ChangedRecordsSnoc(ctx, init, q, p, prev, Step(ctx, prev, p));
    }
  }

  lemma TrackedEvolutionSnoc(ctx: Context, init: Pass, q: seq<Position>, p: Position, prev: Pass, r: Pass)
    requires TrackedEvolution(ctx, init, q, prev)
    requires r == Step(ctx, prev, p)
    requires |init.log| <= |prev.log|
    requires forall i :: 0 <= i < |q| ==> q[i].ticket != p.ticket
    requires Managed(ctx.symbol, p) ==>
               var t := p.ticket;
               (t in r.state || r.raised) &&
               (t in r.state ==>
                  AtLeastAsGood(p.side, r.state[t], Start(init.state, p)) &&
                  (r.state[t] != Start(init.state, p) ==>
                     |r.log| == |prev.log| + 1 && r.log[|r.log| - 1].request.ModifyStops? &&
                     r.log[|r.log| - 1].request.ticket == t && r.log[|r.log| - 1].outcome.success &&
                     r.log[|r.log| - 1].request.newSl == r.state[t]))
    ensures TrackedEvolution(ctx, init, q + [p], r)
  {
    var ps := q + [p];
    forall i | 0 <= i < |ps| && Managed(ctx.symbol, ps[i])
      ensures var t := ps[i].ticket;
              (t in r.state || r.raised) &&
              (t in r.state ==>
                 AtLeastAsGood(ps[i].side, r.state[t], Start(init.state, ps[i])) &&
                 (r.state[t] != Start(init.state, ps[i]) ==>
                    exists j :: |init.log| <= j < |r.log| && r.log[j].request.ModifyStops? &&
                                r.log[j].request.ticket == t && r.log[j].outcome.success &&
                                r.log[j].request.newSl == r.state[t]))
    {
      if i < |q| {
        assert ps[i] == q[i];
        var t := q[i].ticket;
        assert prev.raised ==> r.raised;
        if t in r.state && r.state[t] != Start(init.state, q[i]) {
          var j :| |init.log| <= j < |prev.log| && prev.log[j].request.ModifyStops? &&
                   prev.log[j].request.ticket == t && prev.log[j].outcome.success &&
                   prev.log[j].request.newSl == prev.state[t];
          assert r.log[j] == prev.log[j];
        }
      } else {
        assert ps[i] == p;
        if p.ticket in r.state && r.state[p.ticket] != Start(init.state, p) {
          assert |init.log| <= |r.log| - 1;
        }
      }
    }
  }

  lemma ChangedRecordsSnoc(ctx: Context, init: Pass, q: seq<Position>, p: Position, prev: Pass, r: Pass)
    requires ChangedRecords(ctx, init, q, prev)
    requires r == Step(ctx, prev, p)
    requires forall i :: 0 <= i < |q| ==> q[i].ticket != p.ticket
    requires Managed(ctx.symbol, p) ==>
               var t := p.ticket;
               (r.changed <==> prev.changed || (t in r.state && !(t in init.state && r.state[t] == init.state[t])))
    ensures ChangedRecords(ctx, init, q + [p], r)
  {
    var ps := q + [p];
    assert forall i :: 0 <= i < |q| ==> ps[i] == q[i];
    assert ps[|q|] == p;
  }

  // ----- properties of manage_trailing_stops -----

  /** After a pass that did not raise, the tracked tickets are the previously
      tracked ones that are still open on the symbol, plus every managed
      position. After one that raised, nothing has been dropped, and only
      managed positions' tickets have been added. */
  lemma ManageKeys(symbol: string, positions: seq<Position>, atr: Option<real>, tick: Tick,
                   state: map<int, real>, settings: Settings, maxRetries: nat,
                   broker: nat -> TradeResult, cursor: nat)
    requires settings.active && atr.Some? && atr.value > 0.0
    ensures var r := Manage(symbol, positions, atr, tick, state, settings, maxRetries, broker, cursor);
            (!r.raised ==> r.state.Keys == state.Keys * ActiveTickets(symbol, positions) + ManagedTickets(symbol, positions)) &&
            (r.raised ==> state.Keys <= r.state.Keys <= state.Keys + ManagedTickets(symbol, positions))
  {
    var ctx := Context(symbol, atr.value, tick, settings, maxRetries, broker);
    PassesKeys(ctx, Pass(state, false, [], cursor, false), positions);
  }

  /** With unique tickets, every managed position's stop ends at least as
      good as it started (higher for a buy, lower for a sell), and any change
      is the stop of a successful modification of that position. */
  lemma ManageMonotone(symbol: string, positions: seq<Position>, atr: Option<real>, tick: Tick,
                       state: map<int, real>, settings: Settings, maxRetries: nat,
                       broker: nat -> TradeResult, cursor: nat)
    requires UniqueTickets(positions)
    ensures var r := Manage(symbol, positions, atr, tick, state, settings, maxRetries, broker, cursor);
            forall p :: p in positions && Managed(symbol, p) && p.ticket in r.state ==>
              AtLeastAsGood(p.side, r.state[p.ticket], Start(state, p)) &&
              (r.state[p.ticket] != Start(state, p) ==>
                 exists m :: m in r.log && m.request.ModifyStops? && m.request.ticket == p.ticket &&
                             m.outcome.success && m.request.newSl == r.state[p.ticket])
  {
    if settings.active && atr.Some? && atr.value > 0.0 {
      var ctx := Context(symbol, atr.value, tick, settings, maxRetries, broker);
      var init := Pass(state, false, [], cursor, false);
      PassesEvolution(ctx, init, positions);
      var pass := Passes(ctx, init, positions);
      var r := Manage(symbol, positions, atr, tick, state, settings, maxRetries, broker, cursor);
      forall p | p in positions && Managed(symbol, p) && p.ticket in r.state
        ensures AtLeastAsGood(p.side, r.state[p.ticket], Start(state, p)) &&
                (r.state[p.ticket] != Start(state, p) ==>
                   exists m :: m in r.log && m.request.ModifyStops? && m.request.ticket == p.ticket &&
                               m.outcome.success && m.request.newSl == r.state[p.ticket])
      {
        var i :| 0 <= i < |positions| && positions[i] == p;
        assert p.ticket in pass.state && r.state[p.ticket] == pass.state[p.ticket];
        if r.state[p.ticket] != Start(state, p) {
          var j :| 0 <= j < |pass.log| && pass.log[j].request.ModifyStops? &&
                   pass.log[j].request.ticket == p.ticket && pass.log[j].outcome.success &&
                   pass.log[j].request.newSl == pass.state[p.ticket];
          assert pass.log[j] in r.log;
        }
      }
    }
  }

  /** Every modification sent is for a managed position, moves its stop
      beyond the quote, and is sent only when the position is in profit by
      ATR * MIN_PROFIT_TO_TRAIL_ATR. The call raises exactly when the last
      modification it sent raised, and no earlier one did. */
  lemma ManageRequestsValid(symbol: string, positions: seq<Position>, atr: Option<real>, tick: Tick,
                            state: map<int, real>, settings: Settings, maxRetries: nat,
                            broker: nat -> TradeResult, cursor: nat)
    requires settings.active && atr.Some? && atr.value > 0.0
    ensures var r := Manage(symbol, positions, atr, tick, state, settings, maxRetries, broker, cursor);
            forall m :: m in r.log ==> ValidModification(Context(symbol, atr.value, tick, settings, maxRetries, broker), positions, m)
    ensures var r := Manage(symbol, positions, atr, tick, state, settings, maxRetries, broker, cursor);
            (forall j :: 0 <= j < |r.log| - 1 ==> !r.log[j].outcome.raised) &&
            (r.raised <==> |r.log| > 0 && r.log[|r.log| - 1].outcome.raised)
  {
    var ctx := Context(symbol, atr.value, tick, settings, maxRetries, broker);
    PassesLog(ctx, Pass(state, false, [], cursor, false), positions);
    PassesRaised(ctx, Pass(state, false, [], cursor, false), positions);
  }

  /** With unique tickets, a call that did not raise saves the state exactly
      when the tracked stops changed; a call that raised saves nothing. */
  lemma ManageSavedIffChanged(symbol: string, positions: seq<Position>, atr: Option<real>, tick: Tick,
                              state: map<int, real>, settings: Settings, maxRetries: nat,
                              broker: nat -> TradeResult, cursor: nat)
    requires UniqueTickets(positions)
    ensures var r := Manage(symbol, positions, atr, tick, state, settings, maxRetries, broker, cursor);
            (!r.raised ==> (r.saved <==> r.state != state)) && (r.raised ==> !r.saved)
  {
    var r := Manage(symbol, positions, atr, tick, state, settings, maxRetries, broker, cursor);
    if settings.active && atr.Some? && atr.value > 0.0 && !r.raised {
      var ctx := Context(symbol, atr.value, tick, settings, maxRetries, broker);
      var init := Pass(state, false, [], cursor, false);
      var pass := Passes(ctx, init, positions);
      var active := ActiveTickets(symbol, positions);
      PassesKeys(ctx, init, positions);
      PassesEvolution(ctx, init, positions);
      if pass.state.Keys - active != {} {
        assert pass.state.Keys - active == state.Keys - active;
        assert r.state.Keys <= active;
      } else if pass.changed {
        var i :| 0 <= i < |positions| && Managed(symbol, positions[i]) && positions[i].ticket in pass.state &&
                 !(positions[i].ticket in state && pass.state[positions[i].ticket] == state[positions[i].ticket]);
        var t := positions[i].ticket;
        assert t in active;
        assert t in r.state && r.state[t] == pass.state[t];
      } else {
        assert r.state == Prune(pass.state, active);
        forall k | k in pass.state.Keys
          ensures k in active
        {
          assert k !in pass.state.Keys - active;
        }
        assert r.state.Keys == pass.state.Keys;
        assert r.state == pass.state;
        forall t | t in state
          ensures t in pass.state && pass.state[t] == state[t]
        {
          if Unaffected(symbol, positions, t) {
            PassesFrame(ctx, init, positions, t);
          } else {
            var i :| 0 <= i < |positions| && Managed(symbol, positions[i]) && positions[i].ticket == t;
          }
        }
        assert pass.state.Keys == state.Keys;
        assert pass.state == state;
      }
    }
  }

  // ----- a DONE reply to a stop modification -----

  /** With the DONE message that names no volume, a call never raises, so
      the pruning and the saving always happen. */
  lemma ManageNeverRaisesWithoutVolume(symbol: string, positions: seq<Position>, atr: Option<real>, tick: Tick,
                                       state: map<int, real>, settings: Settings, maxRetries: nat,
                                       broker: nat -> TradeResult, cursor: nat)
    requires settings.report == OmitsVolume
    ensures !Manage(symbol, positions, atr, tick, state, settings, maxRetries, broker, cursor).raised
  {
    if settings.active && atr.Some? && atr.value > 0.0 {
      var r := Manage(symbol, positions, atr, tick, state, settings, maxRetries, broker, cursor);
      ManageRequestsValid(symbol, positions, atr, tick, state, settings, maxRetries, broker, cursor);
      assert |r.log| > 0 ==> r.log[|r.log| - 1] in r.log;
    }
  }

  /** As written, a DONE reply to the modification of the first position
      raises: its new stop is never recorded although the broker applied it,
      the position after it is never adopted, and nothing is pruned or
      saved. */
  lemma DoneReplyLosesUpdate(symbol: string, p: Position, later: Position, atr: real, tick: Tick,
                             state: map<int, real>, maxRetries: nat, broker: nat -> TradeResult, cursor: nat)
    requires Managed(symbol, p) && Managed(symbol, later) && later.ticket != p.ticket && later.ticket !in state
    requires atr > 0.0 && maxRetries > 0 && broker(cursor).retcode == RetcodeDone
    requires Candidate(p, Start(state, p), Context(symbol, atr, tick, Configured, maxRetries, broker)).Some?
    ensures var r := Manage(symbol, [p, later], Some(atr), tick, state, Configured, maxRetries, broker, cursor);
            r.raised && !r.saved && |r.log| == 1 && r.log[0].outcome.raised &&
            p.ticket in r.state && r.state[p.ticket] == Start(state, p) && later.ticket !in r.state
  {
    var ctx := Context(symbol, atr, tick, Configured, maxRetries, broker);
    var init := Pass(state, false, [], cursor, false);
    assert [p, later][..1] == [p];
    assert [p][..0] == [];
    assert Passes(ctx, init, []) == init;
    var first := Passes(ctx, init, [p]);
    assert first == Step(ctx, Passes(ctx, init, []), p);
    var request := ModifyStops(symbol, p.ticket, Candidate(p, Start(state, p), ctx).value, p.tp, Config.MagicNumber, Description(p.side));
    SendStep(LogsVolume, request, maxRetries, broker, cursor);
    assert first.raised;
  }

  /** With the DONE message that names no volume, the same reply records the
      new stop, the later position is adopted, and the state is saved. */
  lemma DoneReplyStoresStop(symbol: string, p: Position, later: Position, atr: real, tick: Tick,
                            state: map<int, real>, maxRetries: nat, broker: nat -> TradeResult, cursor: nat)
    requires Managed(symbol, p) && Managed(symbol, later) && later.ticket != p.ticket && later.ticket !in state
    requires atr > 0.0 && maxRetries > 0 && broker(cursor).retcode == RetcodeDone
    requires Candidate(p, Start(state, p), Context(symbol, atr, tick, Configured, maxRetries, broker)).Some?
    ensures var fixed := Configured.(report := OmitsVolume);
            var r := Manage(symbol, [p, later], Some(atr), tick, state, fixed, maxRetries, broker, cursor);
            !r.raised && r.saved && |r.log| >= 1 && r.log[0].outcome.success &&
            p.ticket in r.state &&
            r.state[p.ticket] == Candidate(p, Start(state, p), Context(symbol, atr, tick, Configured, maxRetries, broker)).value &&
            later.ticket in r.state
  {
    var fixed := Configured.(report := OmitsVolume);
    var ctx := Context(symbol, atr, tick, fixed, maxRetries, broker);
    var init := Pass(state, false, [], cursor, false);
    var v := Candidate(p, Start(state, p), ctx).value;
    assert Candidate(p, Start(state, p), ctx) == Candidate(p, Start(state, p), Context(symbol, atr, tick, Configured, maxRetries, broker));
    var request := ModifyStops(symbol, p.ticket, v, p.tp, Config.MagicNumber, Description(p.side));
    SendStep(OmitsVolume, request, maxRetries, broker, cursor);
    var first := Step(ctx, init, p);
    assert !first.raised && first.changed && first.log[0].outcome.success;
    assert p.ticket in first.state && first.state[p.ticket] == v;
    var second := Step(ctx, first, later);
    assert !second.raised;
    assert second.changed && second.log[0] == first.log[0];
    assert p.ticket in second.state && second.state[p.ticket] == v && later.ticket in second.state;
    assert [p, later][..1] == [p];
    assert [p][..0] == [];
    assert Passes(ctx, init, []) == init;
    assert Passes(ctx, init, [p]) == first;
    assert Passes(ctx, init, [p, later]) == second;
    assert p.ticket in ActiveTickets(symbol, [p, later]);
    assert later.ticket in ActiveTickets(symbol, [p, later]);
  }
}

=== FILE: v4_rules.dfy ===
/** The V4 "confluence" strategy shared by main_bot_final.py,
    main_bot_with_ml_filter.py and the V4 backtests: a MACD-histogram sign
    flip, confirmed by RSI on the right side of 50 and by an ADX above a
    threshold. Its indicators are column computations over the whole bar
    table, with pandas NaN modelled as None; the backtests and the ML
    candidate then drop every row holding a NaN. */
module V4Rules {
  import opened Wrappers
  import opened RealMath
  import opened Smoothing
  import opened Market
  import Indicators
  import Adx
  import Config

  /** The periods of one indicator table. */
  datatype Periods = Periods(rsi: nat, macdFast: nat, macdSlow: nat, macdSignal: nat, adx: nat, atr: nat)

  predicate ValidPeriods(p: Periods) {
    p.rsi >= 1 && p.macdFast >= 1 && p.macdSlow >= 1 && p.macdSignal >= 1 && p.adx >= 1 && p.atr >= 1
  }

  /** The periods of config.py, used by the live bots and the optimised backtest. */
  const LivePeriods: Periods := Periods(Config.RsiPeriod, Config.MacdFast, Config.MacdSlow, Config.MacdSignal,
                                        Config.AdxPeriod, Config.AtrPeriod)

  /** The periods hard-coded in the hybrid and daily backtests and the ML data generator. */
  const ResearchPeriods: Periods := Periods(14, 12, 26, 9, 14, 14)

  // ----- RSI columns -----

  /** `delta.where(delta > 0, 0)`: the first row's NaN delta fails the test and becomes 0. */
  function GainSeries(closes: seq<real>): (gs: seq<real>)
    ensures |gs| == |closes| && AllNonNegative(gs)
    ensures forall k :: 0 < k < |closes| ==> gs[k] == Max(closes[k] - closes[k - 1], 0.0)
    ensures |closes| > 0 ==> gs[0] == 0.0
  {
    seq(|closes|, k requires 0 <= k < |closes| =>
      if k == 0 || closes[k] - closes[k - 1] <= 0.0 then 0.0 else closes[k] - closes[k - 1])
  }

  /** `-delta.where(delta < 0, 0)`. */
  function LossSeries(closes: seq<real>): (ls: seq<real>)
    ensures |ls| == |closes| && AllNonNegative(ls)
    ensures forall k :: 0 < k < |closes| ==> ls[k] == Max(closes[k - 1] - closes[k], 0.0)
    ensures |closes| > 0 ==> ls[0] == 0.0
  {
    seq(|closes|, k requires 0 <= k < |closes| =>
      if k == 0 || closes[k] - closes[k - 1] >= 0.0 then 0.0 else closes[k - 1] - closes[k])
  }

  /** The RSI column `100 - 100 / (1 + g / l)`: a zero loss gives 100 when
      something was gained (g / 0 is infinite) and NaN when nothing was (0 / 0). */
  function RsiColumn(g: real, l: real): (r: Option<real>)
    requires g >= 0.0 && l >= 0.0
    ensures r.None? <==> g == 0.0 && l == 0.0
    ensures r.Some? ==> 0.0 <= r.value <= 100.0
    ensures r == Some(100.0) <==> l == 0.0 && g > 0.0
  {
    if l == 0.0 then (if g == 0.0 then None else Some(100.0))
    else Some(Indicators.RsiFromAverages(g, l))
  }

  /** The RSI of `get_trading_signal_v4`: a zero loss makes `rs` infinite and
      the RSI 100, whether or not anything was gained. */
  function RsiLive(g: real, l: real): (r: real)
    requires g >= 0.0 && l >= 0.0
    ensures 0.0 <= r <= 100.0
    ensures r == 100.0 <==> l == 0.0
  {
    if l == 0.0 then 100.0 else Indicators.RsiFromAverages(g, l)
  }

  /** The smoothed gain and loss at every row. */
  function AverageGains(bars: seq<Bar>, period: nat): (ag: seq<real>)
    requires period >= 1
    ensures |ag| == |bars| && AllNonNegative(ag)
  {
    EwmNonNegative(GainSeries(Closes(bars)), SpanAlpha(period));
    Ewm(GainSeries(Closes(bars)), SpanAlpha(period))
  }

  function AverageLosses(bars: seq<Bar>, period: nat): (al: seq<real>)
    requires period >= 1
    ensures |al| == |bars| && AllNonNegative(al)
  {
    EwmNonNegative(LossSeries(Closes(bars)), SpanAlpha(period));
    Ewm(LossSeries(Closes(bars)), SpanAlpha(period))
  }

  // ----- ADX columns -----

  /** `high.diff()` with negative values set to 0; NaN on the first row. */
  function PlusDm(bars: seq<Bar>, k: nat): (d: Option<real>)
    requires k < |bars|
    ensures d.None? <==> k == 0
    ensures d.Some? ==> d.value == Max(bars[k].high - bars[k - 1].high, 0.0)
  {
    if k == 0 then None
    else
      var up := bars[k].high - bars[k - 1].high;
      Some(if up < 0.0 then 0.0 else up)
  }

  /** `abs(low.diff())` with positive differences set to 0 first: the fall of the low. */
  function MinusDm(bars: seq<Bar>, k: nat): (d: Option<real>)
    requires k < |bars|
    ensures d.None? <==> k == 0
    ensures d.Some? ==> d.value == Max(bars[k - 1].low - bars[k].low, 0.0)
  {
    if k == 0 then None
    else
      var change := bars[k].low - bars[k - 1].low;
      Some(if change > 0.0 then 0.0 else -change)
  }

  function PlusDms(bars: seq<Bar>): (ds: seq<Option<real>>)
    ensures |ds| == |bars| && forall k :: 0 <= k < |bars| ==> ds[k] == PlusDm(bars, k)
  {
    seq(|bars|, k requires 0 <= k < |bars| => PlusDm(bars, k))
  }

  function MinusDms(bars: seq<Bar>): (ds: seq<Option<real>>)
    ensures |ds| == |bars| && forall k :: 0 <= k < |bars| ==> ds[k] == MinusDm(bars, k)
  {
    seq(|bars|, k requires 0 <= k < |bars| => MinusDm(bars, k))
  }

  /** `100 * (smoothed DM / ATR)`, row by row. A zero ATR gives NaN or an
      infinity; either makes the DX NaN, so both are None here. */
  function IndexColumn(smoothed: seq<Option<real>>, atr: seq<real>): (di: seq<Option<real>>)
    requires |smoothed| == |atr|
    ensures |di| == |atr|
    ensures forall k :: 0 <= k < |atr| ==>
              di[k] == (if smoothed[k].None? then None else Adx.Percent(smoothed[k].value, atr[k]))
  {
    seq(|atr|, k requires 0 <= k < |atr| =>
      if smoothed[k].None? then None else Adx.Percent(smoothed[k].value, atr[k]))
  }

  /** `100 * (|+DI - -DI| / (+DI + -DI))`; NaN when either index is, or both are 0. */
  function DxColumn(ps: seq<Option<real>>, ms: seq<Option<real>>): (dx: seq<Option<real>>)
    requires |ps| == |ms|
    ensures |dx| == |ps|
    ensures forall k :: 0 <= k < |ps| ==>
              dx[k] == (if ps[k].None? || ms[k].None? then None
                        else Adx.Percent(Abs(ps[k].value - ms[k].value), ps[k].value + ms[k].value))
  {
    seq(|ps|, k requires 0 <= k < |ps| =>
      if ps[k].None? || ms[k].None? then None
      else Adx.Percent(Abs(ps[k].value - ms[k].value), ps[k].value + ms[k].value))
  }

  /** The ADX column: the DX smoothed with `ewm(span=period, adjust=False)`. */
  function AdxColumn(bars: seq<Bar>, period: nat): (adx: seq<Option<real>>)
    requires period >= 1
    ensures |adx| == |bars|
  {
    var a := SpanAlpha(period);
    var atr := Ewm(Indicators.TrueRanges(bars), a);
    var plusDi := IndexColumn(EwmNa(PlusDms(bars), a), atr);
    var minusDi := IndexColumn(EwmNa(MinusDms(bars), a), atr);
    EwmNa(DxColumn(plusDi, minusDi), a)
  }

  /** The ATR column: true ranges smoothed with `ewm(span=period, adjust=False)`. */
  function AtrColumn(bars: seq<Bar>, period: nat): (atr: seq<real>)
    requires period >= 1
    ensures |atr| == |bars|
  {
    Ewm(Indicators.TrueRanges(bars), SpanAlpha(period))
  }

  // ----- the rule -----

  /** What the rule reads at one row; the ADX is None where it is NaN, and
      every comparison with NaN is false. */
  datatype Reading = Reading(adx: Option<real>, hist: real, histPrev: real, rsi: real)

  predicate BuyCondition(r: Reading, threshold: real) {
    r.adx.Some? && r.adx.value > threshold && r.hist > 0.0 && r.histPrev < 0.0 && r.rsi > Config.RsiBuyThreshold
  }

  predicate SellCondition(r: Reading, threshold: real) {
    r.adx.Some? && r.adx.value > threshold && r.hist < 0.0 && r.histPrev > 0.0 && r.rsi < Config.RsiSellThreshold
  }

  /** The confluence rule, the buy test first. The two conditions exclude
      each other, so the order of the tests does not matter. */
  function Confluence(r: Reading, threshold: real): (s: Signal)
    ensures s == Trade(Buy) <==> BuyCondition(r, threshold)
    ensures s == Trade(Sell) <==> SellCondition(r, threshold)
    ensures s != Hold ==> r.adx.Some? && r.adx.value > threshold
    ensures r.hist == 0.0 || r.histPrev == 0.0 ==> s == Hold
  {
    if BuyCondition(r, threshold) then Trade(Buy)
    else if SellCondition(r, threshold) then Trade(Sell)
    else Hold
  }

  // ----- get_trading_signal_v4 -----

  /** The reading at the last bar, as `get_trading_signal_v4` computes it. */
  function LiveReading(bars: seq<Bar>, p: Periods): Reading
    requires ValidPeriods(p) && |bars| >= 2
  {
    var n := |bars| - 1;
    var hist := Indicators.MacdHistogram(Closes(bars), p.macdFast, p.macdSlow, p.macdSignal);
    var rsi := RsiLive(AverageGains(bars, p.rsi)[n], AverageLosses(bars, p.rsi)[n]);
    Reading(AdxColumn(bars, p.adx)[n], hist[n], hist[n - 1], rsi)
  }

  /** `get_trading_signal_v4(df)`: HOLD below ADX_PERIOD + 10 bars, else the
      confluence rule at the last bar with the ADX above ADX_THRESHOLD. */
  function SignalV4(bars: seq<Bar>): (s: Signal)
    ensures |bars| < Config.AdxPeriod + 10 ==> s == Hold
    ensures s == Trade(Buy) <==> |bars| >= Config.AdxPeriod + 10 && BuyCondition(LiveReading(bars, LivePeriods), Config.AdxThreshold)
    ensures s == Trade(Sell) <==> |bars| >= Config.AdxPeriod + 10 && SellCondition(LiveReading(bars, LivePeriods), Config.AdxThreshold)
  {
    if |bars| < Config.AdxPeriod + 10 then Hold
    else Confluence(LiveReading(bars, LivePeriods), Config.AdxThreshold)
  }

  /** With no loss left in the smoothed average the live RSI is 100 and
      passes the buy test, even on a flat series. */
  lemma LiveRsiSaturatesOnZeroLoss(g: real)
    requires g >= 0.0
    ensures RsiLive(g, 0.0) == 100.0 && RsiLive(g, 0.0) > Config.RsiBuyThreshold
  {
  }

  /** The live RSI and the backtest column disagree only when nothing moved. */
  lemma LiveAndColumnRsi(g: real, l: real)
    requires g >= 0.0 && l >= 0.0
    ensures RsiColumn(g, l).None? <==> g == 0.0 && l == 0.0
    ensures RsiColumn(g, l).Some? ==> RsiColumn(g, l).value == RsiLive(g, l)
    ensures RsiColumn(0.0, 0.0).None? && RsiLive(0.0, 0.0) == 100.0
  {
  }

  // ----- the filtered table -----

  /** The columns of one table. */
  datatype Columns = Columns(hist: seq<real>, rsi: seq<Option<real>>, adx: seq<Option<real>>, atr: seq<real>)

  predicate ColumnsFit(c: Columns, n: nat) {
    |c.hist| == n && |c.rsi| == n && |c.adx| == n && |c.atr| == n
  }

  function ComputeColumns(bars: seq<Bar>, p: Periods): (c: Columns)
    requires ValidPeriods(p)
    ensures ColumnsFit(c, |bars|)
    ensures c.atr == AtrColumn(bars, p.atr)
  {
    var ag := AverageGains(bars, p.rsi);
    var al := AverageLosses(bars, p.rsi);
    Columns(Indicators.MacdHistogram(Closes(bars), p.macdFast, p.macdSlow, p.macdSignal),
            seq(|bars|, k requires 0 <= k < |bars| => RsiColumn(ag[k], al[k])),
            AdxColumn(bars, p.adx),
            AtrColumn(bars, p.atr))
  }

  /** A row of the table after `dropna`: its bar and the indicator values.
      `histPrev` is the histogram of the previous bar of the unfiltered table. */
  datatype Row = Row(bar: Bar, hist: real, histPrev: real, rsi: real, adx: real, atr: real,
                     atrNormalized: Option<real>)

  function RowReading(r: Row): Reading {
    Reading(Some(r.adx), r.hist, r.histPrev, r.rsi)
  }

  /** Row k survives `dropna` when its shifted histogram, RSI and ADX are
      defined, and, when the table has the `atr / close` column, that too. */
  function RowAt(bars: seq<Bar>, c: Columns, k: nat, normalized: bool): (r: Option<Row>)
    requires ColumnsFit(c, |bars|) && k < |bars|
    ensures k == 0 ==> r.None?
    ensures r.Some? ==> r.value.bar == bars[k] && r.value.hist == c.hist[k] && r.value.histPrev == c.hist[k - 1]
    ensures r.Some? ==> Some(r.value.rsi) == c.rsi[k] && Some(r.value.adx) == c.adx[k] && r.value.atr == c.atr[k]
    ensures r.Some? ==> (normalized <==> r.value.atrNormalized.Some?)
    ensures r.None? <==> k == 0 || c.rsi[k].None? || c.adx[k].None? || (normalized && bars[k].close == 0.0)
  {
    var norm := Div(c.atr[k], bars[k].close);
    if k == 0 || c.rsi[k].None? || c.adx[k].None? || (normalized && norm.None?) then None
    else Some(Row(bars[k], c.hist[k], c.hist[k - 1], c.rsi[k].value, c.adx[k].value, c.atr[k],
                  if normalized then norm else None))
  }

  /** The defined elements of a sequence, in order. */
  function Somes<T(!new)>(xs: seq<Option<T>>): (ys: seq<T>)
    ensures |ys| <= |xs|
    ensures forall y :: y in ys ==> Some(y) in xs
    ensures (forall k :: 0 <= k < |xs| ==> xs[k].None?) <==> |ys| == 0
    decreases |xs|
  {
    if |xs| == 0 then []
    else
      var init := Somes(xs[..|xs| - 1]);
      assert forall y :: Some(y) in xs[..|xs| - 1] ==> Some(y) in xs;
      match xs[|xs| - 1]
      case None => init
      case Some(y) => init + [y]
  }

  /** The last defined element is the last element of the filtered sequence. */
  lemma SomesLast<T(!new)>(xs: seq<Option<T>>, k: nat)
    requires k < |xs| && xs[k].Some?
    requires forall j :: k < j < |xs| ==> xs[j].None?
    ensures |Somes(xs)| > 0 && Somes(xs)[|Somes(xs)| - 1] == xs[k].value
    decreases |xs|
  {
    if k < |xs| - 1 {
      SomesLast(xs[..|xs| - 1], k);
    }
  }

  /** The candidate rows of the table, before filtering. */
  function RowsAt(bars: seq<Bar>, p: Periods, normalized: bool): (rs: seq<Option<Row>>)
    requires ValidPeriods(p)
    ensures |rs| == |bars|
    ensures forall k :: 0 <= k < |bars| ==> rs[k] == RowAt(bars, ComputeColumns(bars, p), k, normalized)
  {
    var c := ComputeColumns(bars, p);
    seq(|bars|, k requires 0 <= k < |bars| => RowAt(bars, c, k, normalized))
  }

  /** The indicator table after `dropna`; `normalized` when it also holds
      the `atr_normalized` column. */
  function Table(bars: seq<Bar>, p: Periods, normalized: bool): (t: seq<Row>)
    requires ValidPeriods(p)
    ensures |t| < |bars| || |bars| == 0
    ensures forall r :: r in t ==> (normalized <==> r.atrNormalized.Some?)
  {
    var rs := RowsAt(bars, p, normalized);
    if |bars| == 0 then []
    else
      assert rs[0].None?;
      SomesShorter(rs);
      Somes(rs)
  }

  lemma SomesShorter<T(!new)>(xs: seq<Option<T>>)
    requires |xs| > 0 && xs[0].None?
    ensures |Somes(xs)| < |xs|
    decreases |xs|
  {
    if |xs| > 1 {
      SomesShorter(xs[..|xs| - 1]);
    }
  }

  /** Every surviving row has its RSI in [0, 100], and on well-formed bars
      its ADX in [0, 100]. */
  lemma TableBounds(bars: seq<Bar>, p: Periods, normalized: bool)
    requires ValidPeriods(p) && Adx.WellFormed(bars)
    ensures forall r :: r in Table(bars, p, normalized) ==> 0.0 <= r.rsi <= 100.0 && 0.0 <= r.adx <= 100.0
  {
    var c := ComputeColumns(bars, p);
    var rs := RowsAt(bars, p, normalized);
    AdxColumnWithin(bars, p.adx);
    forall r | r in Table(bars, p, normalized)
      ensures 0.0 <= r.rsi <= 100.0 && 0.0 <= r.adx <= 100.0
    {
      assert Some(r) in rs;
      var k :| 0 <= k < |rs| && rs[k] == Some(r);
    }
  }

  /** On well-formed bars every defined ADX lies in [0, 100]. */
  lemma AdxColumnWithin(bars: seq<Bar>, period: nat)
    requires period >= 1 && Adx.WellFormed(bars)
    ensures DefinedWithin(AdxColumn(bars, period), 0.0, 100.0)
  {
    var a := SpanAlpha(period);
    Adx.TrueRangesNonNegative(bars);
    EwmNonNegative(Indicators.TrueRanges(bars), a);
    var atr := Ewm(Indicators.TrueRanges(bars), a);
    DmsNonNegative(bars);
    EwmNaNonNegative(PlusDms(bars), a);
    EwmNaNonNegative(MinusDms(bars), a);
    var ps := IndexColumn(EwmNa(PlusDms(bars), a), atr);
    var ms := IndexColumn(EwmNa(MinusDms(bars), a), atr);
    IndexColumnNonNegative(EwmNa(PlusDms(bars), a), atr);
    IndexColumnNonNegative(EwmNa(MinusDms(bars), a), atr);
    var dx := DxColumn(ps, ms);
    forall k | 0 <= k < |dx| && dx[k].Some?
      ensures 0.0 <= dx[k].value <= 100.0
    {
      DxAtMostHundred(ps[k].value, ms[k].value);
    }
    assert DefinedWithin(dx, 0.0, 100.0);
    EwmNaWithin(dx, a, 0.0, 100.0);
  }

  lemma DmsNonNegative(bars: seq<Bar>)
    ensures DefinedNonNegative(PlusDms(bars)) && DefinedNonNegative(MinusDms(bars))
  {
  }

  lemma IndexColumnNonNegative(smoothed: seq<Option<real>>, atr: seq<real>)
    requires |smoothed| == |atr| && DefinedNonNegative(smoothed) && AllNonNegative(atr)
    ensures DefinedNonNegative(IndexColumn(smoothed, atr))
  {
    var di := IndexColumn(smoothed, atr);
    forall k | 0 <= k < |di| && di[k].Some?
      ensures di[k].value >= 0.0
    {
      Adx.PercentNonNegative(smoothed[k].value, atr[k]);
    }
  }

  /** 100 * |p - m| / (p + m) <= 100 for non-negative p and m. */
  lemma DxAtMostHundred(p: real, m: real)
    requires p >= 0.0 && m >= 0.0 && p + m != 0.0
    ensures var d := Adx.Percent(Abs(p - m), p + m);
            d.Some? && 0.0 <= d.value <= 100.0
  {
    var q := Abs(p - m) / (p + m);
    assert Abs(p - m) <= p + m;
    DivBounds(Abs(p - m), p + m, 0.0, 1.0);
    ScaleLe(100.0, q, 1.0);
    ScaleNonNegative(100.0, q);
  }

  // ----- get_v4_signal_candidate -----

  /** The classifier's inputs, in the order of its training columns. */
  datatype Features = Features(rsi: real, macdHist: real, adx: real, atrNormalized: real)

  function FeaturesOf(r: Row): Features
    requires r.atrNormalized.Some?
  {
    Features(r.rsi, r.hist, r.adx, r.atrNormalized.value)
  }

  /** The confluence rule (ADX above 20) at the last row of a filtered
      table, with that row; HOLD and no row when the table is empty or the
      rule holds. */
  function Decide(t: seq<Row>): (r: (Signal, Option<Row>))
    ensures r.1.Some? <==> r.0 != Hold
    ensures |t| == 0 ==> r == (Hold, None)
    ensures |t| > 0 ==> r.0 == Confluence(RowReading(t[|t| - 1]), Config.AdxThreshold)
    ensures r.1.Some? ==> r.1.value == t[|t| - 1]
  {
    if |t| == 0 then (Hold, None)
    else
      var row := t[|t| - 1];
      var s := Confluence(RowReading(row), Config.AdxThreshold);
      if s == Hold then (Hold, None) else (s, Some(row))
  }

  /** `get_v4_signal_candidate(df)`: the rule applied to the table with the
      `atr_normalized` column, so a candidate always carries its features. */
  function Candidate(bars: seq<Bar>): (r: (Signal, Option<Row>))
    ensures r.1.Some? ==> r.1.value.atrNormalized.Some?
  {
    var t := Table(bars, LivePeriods, true);
    Decide(t)
  }

  /** A row of the table with the `atr / close` column has a non-zero close,
      so multiplying back by the close gives the row's ATR, which is the ATR
      column at one of the bars. */
  lemma NormalizedRow(bars: seq<Bar>, p: Periods, r: Row)
    requires ValidPeriods(p) && r in Table(bars, p, true)
    ensures r.atrNormalized.Some? && r.bar.close != 0.0
    ensures Scale(r.atrNormalized.value, r.bar.close) == r.atr
    ensures r.atr in AtrColumn(bars, p.atr)
  {
    var rs := RowsAt(bars, p, true);
    assert Table(bars, p, true) == Somes(rs);
    var k :| 0 <= k < |rs| && rs[k] == Some(r);
    RowAtNormalized(bars, ComputeColumns(bars, p), k);
  }

  lemma RowAtNormalized(bars: seq<Bar>, c: Columns, k: nat)
    requires ColumnsFit(c, |bars|) && k < |bars| && RowAt(bars, c, k, true).Some?
    ensures var r := RowAt(bars, c, k, true).value;
            r.atrNormalized.Some? && r.bar.close != 0.0 && Scale(r.atrNormalized.value, r.bar.close) == r.atr
  {
  }

  /** The first bar never survives `dropna`: its shifted histogram is NaN. */
  lemma FirstBarDropped(bars: seq<Bar>, p: Periods, normalized: bool)
    requires ValidPeriods(p) && |bars| > 0
    ensures RowsAt(bars, p, normalized)[0].None?
  {
  }

  /** The candidate is decided by the last bar that has all indicators
      defined, and the histogram it compares against is the previous bar's,
      whether or not that bar survived. */
  lemma CandidateReadsLastDefinedBar(bars: seq<Bar>, k: nat)
    requires k < |bars|
    requires RowsAt(bars, LivePeriods, true)[k].Some?
    requires forall j :: k < j < |bars| ==> RowsAt(bars, LivePeriods, true)[j].None?
    ensures var c := ComputeColumns(bars, LivePeriods);
            var row := RowsAt(bars, LivePeriods, true)[k].value;
            Decide(Table(bars, LivePeriods, true)).0 ==
              Confluence(Reading(c.adx[k], c.hist[k], c.hist[k - 1], row.rsi), Config.AdxThreshold)
  {
    var rs := RowsAt(bars, LivePeriods, true);
    SomesLast(rs, k);
    assert Table(bars, LivePeriods, true) == Somes(rs);
  }
}

=== FILE: wrappers.dfy ===
/** Python's None (and pandas' NaN) as an explicit optional value. */
module Wrappers {

  datatype Option<+T> = None | Some(value: T) {

    /** The wrapped value, or `default` when there is none. */
    function GetOr(default: T): T {
      match this
      case Some(v) => v
      case None => default
    }
  }
}
